=== FILE: README.md ===
# Voice assistant core: save pipeline, live session and app handlers

This project is a Dafny model of the sequential logic of a voice assistant app. The app talks to a
live speech API under one of seven personas and keeps "extreme saving" text artifacts of its
conversations. It models three parts:

- **The save service** (`services/extremeSaving.ts`). This covers:
  - the settings record in local storage, with its defaults and coercions;
  - the bounded newest-first diagnostic log;
  - the text artifact `buildTxtContent` and its whitespace cleaning;
  - the compress and encrypt decisions;
  - the automatic file name `<millis>_<agentId>_auto.<ext>`;
  - reading a directory listing back into save entries, sorted newest first;
  - the retention cut at 100 saves;
  - the whole `saveConversationAuto` run, including its log lines and optional cloud post;
  - the `restoreSave` decision chain.
- **The live-session hook** (`hooks/useLiveAudio.ts`). This is a state machine with four parts:
  - the connection flags and the resources held (`Conn`);
  - the playback queue (`Player`);
  - the conversation: history, summary, searching and muted flags (`Talk`);
  - the newest-first log.

  Each callback of the hook is one pure transition. `Step` and `Run` apply a sequence of
  `Event`s.
- **The App handlers** (`App.tsx`). This covers:
  - the persona switch and its prompt constants;
  - the transcript extraction;
  - the partial settings merge;
  - restore handling;
  - the empty-export refusal;
  - the microphone-test guard.

Device, browser and network effects are parameters:
- A `FileSystem` holds a directory listing per agent and a `native` flag.
- Local storage is a `Store` map.
- An `Env` holds the two clock values, two locale timestamps, an injected file-system fault,
  the cloud reply and the set of file names whose deletion fails. One timestamp is for the save's
  log line. The other is for the cloud line, which the source reads again after the request.
- Crypto, gzip and base64 are the function fields of `Codecs`.

  `Lawful(codecs)` states their three laws:
  - decrypting an encryption with the same passphrase gives the text back;
  - base64-gunzip of base64-gzip gives the text back;
  - every base64-gzip text begins `H4sI`. These are the gzip magic bytes `1f 8b` and method
    `08` of section 2.3.1 of RFC 1952, written in base64. The first finding below depends on
    this law.
- A file in a listing reports its size in bytes. A UTF-8 file's size is the UTF-8 byte
  count of its text. A base64 file's size is the number of bytes its text decodes to.
- `JSON.parse` and `JSON.stringify` are the fields of `Json.Codec`. `Json.Lawful` states its two
  laws:
  - parsing a stringified value gives the value back;
  - no value stringifies to the empty string. The store reads an empty string as a missing key,
    as the source's `if (!raw)` does.

Modules, in dependency order:
- `Opt`: the option type.
- `JsText`: JavaScript's whitespace, `trim`, `split`, `join` and `toUpperCase`, and decimal
  numbers.
- `Json`: abstract JSON values and property reads.
- `SaveStore`: settings and log.
- `Artifact`: the artifact and its reader.
- `SaveEntries`: names, listing, sort and rotation.
- `SavePipeline`: prepare, save and restore.
- `LiveAudio`: the hook.
- `AppHandlers`: the App handlers.

## Model

| member | source | states |
|---|---|---|
| SaveStore.GetSettings | services/extremeSaving.ts:28-45 | The defaults when the settings key is missing or empty, when its text does not parse, or when it parses to `null`. |
| SaveStore.SettingsOf | services/extremeSaving.ts:35-41 | Each boolean is the truthiness of its property. A falsy endpoint or key reads as `""`. |
| SaveStore.SettingsRoundTrip | services/extremeSaving.ts:28-49 | Under the JSON law, `getSettings` after `setSettings(s)` gives back `s`. |
| SaveStore.SetSettings | services/extremeSaving.ts:47-49 | The record is stored under the settings key. No other key changes. |
| SaveStore.SetSettingsKeepsLog | services/extremeSaving.ts:47-49 | Storing settings leaves the log key as it was. |
| SaveStore.GetSaveLogs | services/extremeSaving.ts:51-59 | An empty array when the log key is missing, empty or unparseable. Otherwise whatever it parses to. |
| SaveStore.AppendLog | services/extremeSaving.ts:61-65 | A write happens exactly when the stored log reads as an array; otherwise `unshift` throws. Every other key is kept. |
| SaveStore.AppendLogNewestFirst | services/extremeSaving.ts:61-65 | The new line reads back first and the previous lines follow in order. The log has one more line than before while under 200 lines, and exactly 200 once full, so a full log keeps its 199 newest previous lines. |
| SaveStore.AppendLogKeepsSettings | services/extremeSaving.ts:61-65 | Appending to the log does not change the settings read back. |
| JsText.CleanIsCollapsed | services/extremeSaving.ts:82 | A cleaned text has no leading or trailing whitespace and no run of two whitespace characters. |
| JsText.CleanKeepsWords | services/extremeSaving.ts:82 | Cleaning keeps exactly the whitespace-separated words, in order. |
| JsText.CleanIdempotent | services/extremeSaving.ts:82 | Cleaning twice is cleaning once. |
| Artifact.MetadataFacts | services/extremeSaving.ts:68-74 | The header starts with `agentId` then `timestamp`. Each key appears once and reads as its last value in `meta`, which may override the id or timestamp, as an object spread does. |
| Artifact.HeaderLines | services/extremeSaving.ts:75-78 | One `key: value` line per header entry. |
| Artifact.ArtifactLines | services/extremeSaving.ts:67-88 | For a header without line breaks, the artifact's lines are the header lines, `---`, `U: ` + cleaned user text, `A: ` + cleaned answer, then a final empty line. |
| Artifact.ParseArtifact | services/extremeSaving.ts:84-87 | Whatever the reader accepts is exactly the artifact it rebuilds. |
| Artifact.ArtifactRoundTrip | services/extremeSaving.ts:67-88 | Reading an artifact back gives its header lines and both cleaned texts. |
| Artifact.MedicalExample | tests/extremeSaving.test.ts:5-10 | For `medical`, `Bonjour`, `Réponse` and `session: demo`, the artifact has the lines `agentId: medical`, the timestamp, `session: demo`, `---`, `U: Bonjour` and `A: Réponse`. |
| SavePipeline.CompressText | services/extremeSaving.ts:90-102 | Compression happens exactly when the web view has `CompressionStream`. Otherwise the text is unchanged. |
| SavePipeline.EncryptText | services/extremeSaving.ts:104-124 | Encryption happens exactly when the passphrase is non-empty. Otherwise the text is unchanged. |
| SavePipeline.EncryptInverse | services/extremeSaving.ts:104-142 | Under the codec law, decrypting an encrypted text with the same passphrase gives it back. |
| SavePipeline.PrepareArtifact | services/extremeSaving.ts:201-211 | Compressed exactly when asked and possible; encrypted exactly when asked and the key is non-empty; with neither, the data is the artifact. |
| SavePipeline.PrepareInverse | services/extremeSaving.ts:201-211 | Decrypting, then decompressing, undoes the preparation. |
| SavePipeline.SaveFile | services/extremeSaving.ts:213-224 | The file holds the prepared data. It is written in base64 exactly when the data was compressed or encrypted. |
| SavePipeline.EnsureDir | services/extremeSaving.ts:148-151 | The agent's directory exists afterwards. An existing directory and every other directory are untouched. |
| SavePipeline.WriteSave | services/extremeSaving.ts:215-233 | The device path creates the directory, writes and rotates; a mkdir fault writes nothing; a write fault leaves the files as they were. Off the device, the data is kept in storage under the save's path. Each case produces its own log line. |
| SavePipeline.Reason | services/extremeSaving.ts:232 | The failure reason is the error message, or `Unknown` when it is empty. |
| SavePipeline.SavePathIsNotAKey | services/extremeSaving.ts:24-26 | A web save's storage key never collides with the settings key or the log key. |
| SavePipeline.SaveConversationAuto | services/extremeSaving.ts:188-246 | The file is named `<millis>_<agentId>_auto.<ext>` from the clock and the preparation flags. It is compressed exactly when the settings ask and `CompressionStream` exists. It is encrypted exactly when the settings ask and the key is non-empty. A cloud request goes only to the configured endpoint of an enabled cloud. The device's `native` flag is kept, nothing changes on the file system off the device, and the settings read back are unchanged. |
| SavePipeline.Commit | services/extremeSaving.ts:213-246 | The file name is `<millis>_<agentId>_auto.<ext>` for the prepared flags. Off the device the file system is untouched. A cloud request goes only to the configured endpoint of an enabled cloud. |
| SavePipeline.CommitLogsAndPosts | services/extremeSaving.ts:226-246 | With an array log, the save completes. It posts exactly when the cloud is enabled with an endpoint. The newest log line is the cloud line when there was a post, followed by the save's line. |
| SavePipeline.CommitStopsOnBadLog | services/extremeSaving.ts:226-235 | With a log that is not an array, `appendLog` throws and the save stops before any cloud request. |
| SavePipeline.CommitKeepsSettings | services/extremeSaving.ts:188-246 | A save never changes the settings read back. |
| SavePipeline.CommitFailureWritesNothing | services/extremeSaving.ts:231-233 | A device fault logs `AUTO FAIL` with its reason. The agent's directory is unchanged. |
| SavePipeline.CommitWebStored | services/extremeSaving.ts:227-230 | Off the device, storage holds the prepared data under the save's path. |
| SavePipeline.CommitListsFile | services/extremeSaving.ts:217-224 | A device save with no fault, into a directory of older files, leaves its file findable by name and among the listed entries. |
| SavePipeline.RestoreSave | services/extremeSaving.ts:260-289 | `null` off the device, for an encrypted entry without passphrase, or when the directory or file is missing. Otherwise, the decision chain on the file read with the entry's encoding. |
| SavePipeline.RestoreData | services/extremeSaving.ts:268-284 | An encrypted entry is decrypted before any decompression. A failed decrypt gives `null`. A plain entry's data comes back unchanged unless it is flagged compressed and can be decompressed. |
| SavePipeline.EncryptedRestoreOnlyDecrypts | services/extremeSaving.ts:165-166 | Restoring a listed `.enc` entry never runs the decompression branch. |
| SavePipeline.FileRoundTrip | services/extremeSaving.ts:188-289 | Restoring an automatic save's own file gives the saved text back, except when it was both compressed and encrypted. That save comes back still gzip-base64. |
| SavePipeline.CompressedEncryptedRestoreFails | services/extremeSaving.ts:165-166 | A save both compressed and encrypted never restores to its artifact. |
| SavePipeline.CorrectedFileRoundTrip | services/extremeSaving.ts:213-214 | With a distinct extension for compressed-then-encrypted saves, every save restores to its text. |
| SavePipeline.SaveThenRestore | services/extremeSaving.ts:188-289 | After a fault-free device save, the new file is listed under the returned name. Restoring it with the settings' key gives the artifact, for every setting except compressed-and-encrypted. |
| SavePipeline.ExportManual | services/extremeSaving.ts:249-258 | The download holds the given text unchanged, with a name that starts `ExtremeSaving_<agentId>_` and ends `.txt`. The log is written exactly when the stored log is an array. |
| SavePipeline.ExportManualLogs | services/extremeSaving.ts:257 | With an array log, the newest line is `[<stamp>] MANUAL EXPORT <agentId>`, and the settings are unchanged. |
| SaveEntries.ParseAll | services/extremeSaving.ts:160-168 | One entry per listed file, in listing order, named as the file. Each entry carries the file's reported size. |
| SaveEntries.Utf8SizeBounds | services/extremeSaving.ts:219-224 | A UTF-8 file takes between one and four bytes per character. It takes exactly one per character when every character is ASCII. |
| SaveEntries.ReponseSize | services/extremeSaving.ts:167 | The test's `Réponse` has 7 characters but takes 8 bytes on disk. |
| SavePipeline.ListedSize | services/extremeSaving.ts:160-168 | A plain save is listed with the UTF-8 byte count of its artifact. A compressed or encrypted save is listed with the byte count its base64 decodes to. |
| SaveEntries.ExtensionSuffixes | services/extremeSaving.ts:213-214 | The extension ends `.enc` exactly when encrypted, and `.gz` exactly when compressed and not encrypted. |
| SaveEntries.ParseAutoName | services/extremeSaving.ts:163-166 | An automatic name reads back with its clock value, encrypted exactly when it was, and compressed only when compressed and not encrypted. |
| SaveEntries.ParseAutoMethod | services/extremeSaving.ts:164 | For an agent id without `_`, the method read back is `auto.txt`, `auto.txt.gz` or `auto.enc`, never `auto`. |
| SaveEntries.OnestaCoachMethod | services/extremeSaving.ts:164 | For `onesta_coach`, the method read back is `coach`. |
| SaveEntries.ParseCorrectedName | services/extremeSaving.ts:160-168 | With corrected names and parsing, every field reads back as saved, for every agent id. |
| SaveEntries.SortNewestFirst | services/extremeSaving.ts:169 | A permutation of the entries with non-increasing creation times. |
| SaveEntries.SortStable | services/extremeSaving.ts:169 | Entries with equal times keep their listed order. |
| SaveEntries.ListAgentSaves | services/extremeSaving.ts:153-174 | No entries off the device or when the directory cannot be read. Otherwise, a newest-first permutation of the parsed files. |
| SaveEntries.RemoveNamed | services/extremeSaving.ts:180-184 | Exactly the named files are removed. |
| SaveEntries.RotateSaves | services/extremeSaving.ts:176-186 | The loop deleting the overflow one file at a time, ignoring failed deletions, leaves what `Rotate` describes. |
| SaveEntries.KeptOverflow | services/extremeSaving.ts:178-179 | The first 100 entries and the rest partition the list. |
| SaveEntries.RotateKeepsNewest | services/extremeSaving.ts:176-186 | After rotation the directory holds exactly the 100 newest entries' files plus the overflow files whose deletion failed. |
| SaveEntries.OverflowIsOlder | services/extremeSaving.ts:178-179 | Every deleted entry is no newer than any kept one. |
| SaveEntries.RotateSmall | services/extremeSaving.ts:178-179 | At most 100 files means nothing is deleted. |
| SaveEntries.NewestSurvives | services/extremeSaving.ts:176-186 | A file newer than every other survives rotation. |
| LiveAudio.AddLog | hooks/useLiveAudio.ts:60-69 | The entry is prepended. Nothing else changes. |
| LiveAudio.ClearLogs | hooks/useLiveAudio.ts:71-74 | The log is exactly one entry: `Logs cleared.` |
| LiveAudio.InitializeApi | hooks/useLiveAudio.ts:76-87 | Succeeds exactly when the key is non-empty. Logs the start, then the error or success. The client exists afterwards exactly on success. |
| LiveAudio.Connect | hooks/useLiveAudio.ts:124-201 | Connecting never touches playback or the conversation and only prepends to the log. |
| LiveAudio.ConnectWhileBusy | hooks/useLiveAudio.ts:124-126 | A connecting or connected hook only logs the attempt. |
| LiveAudio.ConnectWithoutKey | hooks/useLiveAudio.ts:128-133 | Without a client or key, the flags stay as they were and the missing-key error is logged. |
| LiveAudio.ConnectResult | hooks/useLiveAudio.ts:135-200 | From idle, the hook ends not connecting, and connected exactly when the session opened. On failure the error message is the newest log line. |
| LiveAudio.Attempt | hooks/useLiveAudio.ts:137-200 | Each awaited step that completes holds its resource. The hook always stops connecting. The outcome's message or the success line is logged last. |
| LiveAudio.Disconnect | hooks/useLiveAudio.ts:203-222 | Session, media and audio context are released; the queue is emptied; playing, connected and connecting are cleared. The client and conversation are kept, between two log lines. |
| LiveAudio.DisconnectIdempotent | hooks/useLiveAudio.ts:203-222 | Disconnecting twice equals disconnecting once, apart from two more log lines. |
| LiveAudio.OnError | hooks/useLiveAudio.ts:166-169 | The error is logged, then the hook is disconnected. |
| LiveAudio.Next | hooks/useLiveAudio.ts:89-101 | A no-op while playing or when the queue is empty. Otherwise it sets playing, creates the audio context, and takes exactly the head of the queue. |
| LiveAudio.DecodeFailed | hooks/useLiveAudio.ts:113-117 | Logs the decode error, stops playing and takes the next fragment. |
| LiveAudio.Ended | hooks/useLiveAudio.ts:109-112 | Stops playing and takes the next fragment. Nothing else changes. |
| LiveAudio.DecodeFailedMovesOn | hooks/useLiveAudio.ts:113-117 | After a decode failure the next fragment plays if there is one; otherwise the hook is idle with an empty queue. |
| LiveAudio.OnUpdate | hooks/useLiveAudio.ts:154-165 | Audio joins the tail of the queue and playback is started. A non-empty transcription adds one model turn at the end of the history. `isSearching` is only ever set, never cleared. |
| LiveAudio.UpdateQueuesAtTail | hooks/useLiveAudio.ts:155-157 | An arriving fragment waits at the tail while playing. Otherwise it is the one taken next. |
| LiveAudio.InitialInv | hooks/useLiveAudio.ts:43-57 | The initial state satisfies the invariant. |
| LiveAudio.StepInv | hooks/useLiveAudio.ts:89-235 | Every event keeps the invariant. The hook is never both connected and connecting, and a connected hook holds its session and microphone. A player that is not playing has an empty queue, and a playing one has an audio context. |
| LiveAudio.RunInv | hooks/useLiveAudio.ts:89-235 | Every sequence of events keeps the invariant. |
| LiveAudio.StepFifo | hooks/useLiveAudio.ts:89-165 | Every event except a disconnect or an error appends its audio, if any, to what has been taken or is waiting. |
| LiveAudio.RunFifo | hooks/useLiveAudio.ts:89-165 | Over a run with no disconnect or error, fragments are taken in arrival order. |
| LiveAudio.Drain | hooks/useLiveAudio.ts:109-112 | A playing hook plays every queued fragment, in order, then stops. |
| LiveAudio.ClearHistory | hooks/useLiveAudio.ts:224 | The history becomes empty. Nothing else changes. |
| LiveAudio.ImportHistory | hooks/useLiveAudio.ts:225-227 | Only logs the length of the text. |
| LiveAudio.TestMicrophone | hooks/useLiveAudio.ts:228-231 | Logs and returns `{ok: true, level: 75}`. Nothing else changes. |
| LiveAudio.ResetMicrophone | hooks/useLiveAudio.ts:232 | Only logs. |
| LiveAudio.ClearSummary | hooks/useLiveAudio.ts:233 | The summary becomes `""`. Nothing else changes. |
| LiveAudio.SetMemoryScope | hooks/useLiveAudio.ts:234 | Only logs the scope. |
| LiveAudio.AppendSummaryText | hooks/useLiveAudio.ts:235 | The summary is the old one followed by the text. Nothing else changes. |
| LiveAudio.SetMuted | hooks/useLiveAudio.ts:45 | Only the muted flag changes. |
| AppHandlers.Prompt | App.tsx:20-65 | Every persona's prompt ends with the common suffix. |
| AppHandlers.KeysAndLabelsDistinct | App.tsx:238-248 | The seven personas have pairwise distinct keys and labels. |
| AppHandlers.SwitchPromptIsOwn | App.tsx:291-297 | The switch's chain of `if`s, starting from the medical prompt, lands on the chosen persona's own prompt. |
| AppHandlers.HandlePersonaSwitch | App.tsx:289-301 | Sets the persona and its prompt. Disconnects exactly when connected. Never leaves the hook connected. |
| AppHandlers.ScopeEffect | App.tsx:271-273 | The effect logs the persona's scope after the first render and after every render whose persona changed. A render with the same persona has no effect. |
| AppHandlers.MountLogsScope | App.tsx:271-273 | On mount, the hook's log holds exactly `Memory scope set to: medical`. |
| AppHandlers.SwitchThenScope | App.tsx:289-301 | A persona switch followed by its render logs the new scope exactly when the persona changed. |
| AppHandlers.RoleLabel | App.tsx:306 | `AUTEUR` exactly for `user`, `SYSTEM` exactly for `system`, `EXPERT` for every other role. |
| AppHandlers.ExtractReadsBack | App.tsx:303-308 | Line by line, an extraction reads as: the upper-case title, the date, an empty line, then `[ROLE] : text` per history entry in order. |
| AppHandlers.ExtractFileName | App.tsx:316 | Starts `Session_<persona>_` and ends `.txt`. |
| AppHandlers.Merge | App.tsx:326-327 | Each field named in the update overrides; every other field is kept. |
| AppHandlers.MergeIdempotent | App.tsx:326-327 | Applying an update twice is applying it once. An empty update changes nothing. |
| AppHandlers.UpdateSaveSettings | App.tsx:326-330 | The merged record becomes the state and is stored. |
| AppHandlers.UpdatePersists | App.tsx:326-330 | What the state holds after an update is what the service reads back. |
| AppHandlers.HandleRestore | App.tsx:332-341 | A `null` or empty result shows the error and leaves the summary alone. Any other text clears the error and is appended to the summary. |
| AppHandlers.Restored | App.tsx:334 | Off the device, or for an encrypted entry without a key, there is nothing to restore. |
| AppHandlers.RestoreOffDevice | App.tsx:332-338 | Off the device, restoring shows the error and changes nothing else. |
| AppHandlers.HandleModelExport | App.tsx:343-359 | Refused exactly when the summary is empty or whitespace only. Otherwise exports the summary unchanged. |
| AppHandlers.StartMicTest | App.tsx:361-365 | While a test runs, a press does nothing. Otherwise the test starts, the last result is hidden, and the hook's test is called. |
| AppHandlers.FinishMicTest | App.tsx:366-367 | The result is shown and the test ends. |
| AppHandlers.MicTestCompletes | App.tsx:361-368 | A second press during a test is ignored. Once the hook answers, its result is shown and testing ends. |

## Left out

- `exportManual` (services/extremeSaving.ts:249-258) does not touch the file system and
  does not build an artifact. `SavePipeline.ExportManual` models its two effects:
  - a download of the given text, unchanged, named `ExtremeSaving_<agentId>_<millis>.txt`;
  - one `MANUAL EXPORT` log line, whose `appendLog` throws when the stored log is not an
    array.

  The download is a `Download` value. The Blob, the object URL and the link click are browser
  effects and are not modelled.
- Capacitor `Filesystem`, local storage and `fetch` are data rather than effects. The
  directory listing, the `Store` map, an injected `Fault` and the cloud reply are parameters.
  Storage quota errors are not modelled.
- The clock (`Date.now`) and the locale and ISO timestamps are parameters.
- WebCrypto (PBKDF2 of section 5.2 of RFC 8018, AES-GCM of NIST SP 800-38D), gzip (RFC 1952)
  and base64 (section 4 of RFC 4648) are uninterpreted. Their laws are the two inverse
  properties and the `H4sI` prefix of a gzip stream in base64. No other format detail is
  modelled.
- The IV and salt randomness of `encryptText` is not modelled. It is a `seed` parameter that
  no contract depends on.
- The JSON text format is not modelled. `Json.Codec` is abstract. It has two laws: parsing a
  stringified value gives the value back, and no stringified value is empty.
- Metadata numbers are integers; floating-point values and their rendering are not modelled.
  Metadata keys keep their insertion order. A JavaScript object lists integer-like keys first,
  in numeric order, and that reordering is not modelled.
- `Number(...)` on the first name segment is modelled as "decimal digits give their value,
  anything else gives 0". Signs, exponents, hexadecimal and surrounding whitespace are not
  read.
- A throw from `compressText` or `encryptText`, which `saveConversationAuto` makes before its
  `try`, is not modelled. The codecs are total.
- `content.length` in `importHistory` counts UTF-16 code units. The model counts the
  characters of a `seq<char>`.
- Microphone and audio I/O are not modelled: `getUserMedia`, decoding, the audio graph and
  the frame pipe. The frame-forwarding closure (hooks/useLiveAudio.ts:176-185) reads stale
  `isMuted` and `isConnected` values, and the model makes no claim that frames are forwarded.
- The audio context is a boolean "exists" flag. Its `closed` state
  (hooks/useLiveAudio.ts:213) is not distinguished.
- Volume, voice name and the system instruction are not part of the hook state; the
  instruction is passed to the session only.
- Async callbacks are atomic events. React's batching and stale state across `await`s are
  not modelled: `connect` reads current flags.
- Log entries carry kind and message only. Ids, timestamps and attached data are dropped.
- The prompt texts themselves are parameters (`PromptBodies`). Only the common suffix is the
  literal text.
- `AppHandlers.SettingsPatch` has an optional value per field. A patch that sets a field to
  `undefined` explicitly is not expressible.
- Alerts, clipboard copies, Blob downloads and the JSX are not modelled. The effect that
  refreshes the save list on a persona or summary change is not modelled either.
- LiveAudio.Connect: its own contract states only what connecting never changes. The outcome
  for each case is stated by `ConnectWhileBusy`, `ConnectWithoutKey` and `ConnectResult`.
- SaveStore.GetSettings: its own contract states the default cases. The coercion of a stored
  record is stated on `SaveStore.SettingsOf` and by `SettingsRoundTrip`.
- AppHandlers.ExtractReadsBack: requires that the date and every history text be free of
  line breaks. Otherwise the lines cannot be told apart.

## Findings

The main model follows the code as written. Each corrected member is stated next to the
as-written one, with the intended property proved about it.

| source | as written | input that shows it | evidently intended | confidence | as-written member | corrected member |
|---|---|---|---|---|---|---|
| services/extremeSaving.ts:165-166, 213, 274-284 | A save both compressed and encrypted is named `.enc`. It is listed as not compressed, so restoring it decrypts but never decompresses, and returns gzip-base64 text. | settings `compress`, `encrypt`, key `k` on a web view with `CompressionStream`: restore returns a text starting `H4sI` instead of the artifact | the name records both steps (for example `.txt.gz.enc`), so restore decrypts and then decompresses | not executed | SavePipeline.CompressedEncryptedRestoreFails | SavePipeline.CorrectedFileRoundTrip |
| services/extremeSaving.ts:164, 214 | The method is the third `_` piece of the name. That piece still carries the extension, and an agent id with `_` shifts the pieces. | `1700000000000_medical_auto.txt` gives method `auto.txt`; `1700000000000_onesta_coach_auto.txt` gives `coach` | method `auto` for every automatic save | not executed | SaveEntries.ParseAutoMethod | SaveEntries.ParseCorrectedName |

=== FILE: app.dfy ===
/** The application's handlers around the live session and the save
    service: the persona switch and its prompts, the transcript extraction,
    the settings merge, the restore result, the export refusal and the
    microphone-test guard. */
module AppHandlers {
  import Opt
  import JsText
  import Json
  import SaveStore
  import SaveEntries
  import SavePipeline
  import LiveAudio

  datatype Persona = Medical | Humour | Detective | Dev | Anemia | Evangelism | OnestaCoach

  /** The persona's key, which is also the agent id of its saves. */
  function Key(p: Persona): string {
    match p
    case Medical => "medical"
    case Humour => "humour"
    case Detective => "detective"
    case Dev => "dev"
    case Anemia => "anemia"
    case Evangelism => "evangelism"
    case OnestaCoach => "onesta_coach"
  }

  /** `PERSONA_LABEL`: the name shown for each persona. */
  function Label(p: Persona): string {
    match p
    case Medical => "Oracle Médical"
    case Anemia => "Oracle Anémie"
    case Humour => "Script Doctor"
    case Detective => "Détective"
    case Dev => "Dév 2026"
    case Evangelism => "Évangile (Jésus)"
    case OnestaCoach => "Coach Onesta"
  }

  /** Every persona has its own key and its own label. The key names the
      persona's save directory and memory scope, so no two personas share
      saves or a scope. */
  lemma KeysAndLabelsDistinct(p: Persona, q: Persona)
    requires p != q
    ensures Key(p) != Key(q) && Label(p) != Label(q)
  {
  }

  /** The common ending of every persona prompt. */
  const PromptSuffix: string :=
    "\n" +
    "\n" +
    "RÈGLE ANTI-QUESTIONS :\n" +
    "- Réponds directement sans poser de questions.\n" +
    "- Si une question est indispensable, n’en poser qu’UNE seule, en toute fin, sous forme optionnelle.\n" +
    "\n" +
    "DÉTAILS D’EXÉCUTION :\n" +
    "- Donne des étapes concrètes et actionnables.\n" +
    "- Ajoute des exemples courts quand utile.\n" +
    "- Conclus par une synthèse opérationnelle.\n"

  /** The body of each persona's prompt, before the common ending. The texts
      themselves are not part of this model. */
  datatype PromptBodies = PromptBodies(
    medical: string, humour: string, detective: string, dev: string,
    anemia: string, evangelism: string, onestaCoach: string)

  /** The prompt constant of a persona: its body, then the common ending. */
  function Prompt(b: PromptBodies, p: Persona): (r: string)
    ensures JsText.EndsWith(r, PromptSuffix)
  {
    var body := match p
      case Medical => b.medical
      case Humour => b.humour
      case Detective => b.detective
      case Dev => b.dev
      case Anemia => b.anemia
      case Evangelism => b.evangelism
      case OnestaCoach => b.onestaCoach;
    JsText.EndsWithAppend(body, PromptSuffix, PromptSuffix);
    assert JsText.EndsWith(PromptSuffix, PromptSuffix);
    body + PromptSuffix
  }

  /** The state the handlers keep. `micTestResult` is `None` while no result
      is shown, and `restoreError` is `None` while no error is shown. */
  datatype AppState = AppState(
    persona: Persona,
    systemInstruction: string,
    isTestingMic: bool,
    micTestResult: Opt.Option<LiveAudio.MicTest>,
    saveSettings: SaveStore.SaveSettings,
    restoreError: Opt.Option<string>)

  /** The state on mount: the medical persona and its prompt, and the stored
      save settings. */
  function InitialApp(b: PromptBodies, store: SaveStore.Store, codec: Json.Codec): (r: AppState)
    ensures r.persona == Medical && r.systemInstruction == Prompt(b, Medical)
    ensures r.saveSettings == SaveStore.GetSettings(store, codec)
    ensures !r.isTestingMic && r.micTestResult.None? && r.restoreError.None?
  {
    AppState(Medical, Prompt(b, Medical), false, Opt.None, SaveStore.GetSettings(store, codec), Opt.None)
  }

  // ---------------------------------------------------------------------
  // persona switch

  /** The prompt chosen on a switch: the medical prompt unless one of the
      other six personas is named. */
  function SwitchPrompt(b: PromptBodies, p: Persona): (r: string) {
    var r0 := Prompt(b, Medical);
    var r1 := if p == Humour then Prompt(b, Humour) else r0;
    var r2 := if p == Detective then Prompt(b, Detective) else r1;
    var r3 := if p == Dev then Prompt(b, Dev) else r2;
    var r4 := if p == Anemia then Prompt(b, Anemia) else r3;
    var r5 := if p == Evangelism then Prompt(b, Evangelism) else r4;
    if p == OnestaCoach then Prompt(b, OnestaCoach) else r5
  }

  /** The switch's chain of choices lands on the persona's own prompt. */
  lemma SwitchPromptIsOwn(b: PromptBodies, p: Persona)
    ensures SwitchPrompt(b, p) == Prompt(b, p)
  {
    match p
    case Medical =>
    case Humour =>
    case Detective =>
    case Dev =>
    case Anemia =>
    case Evangelism =>
    case OnestaCoach =>
  }

  /** `handlePersonaSwitch`: the persona and its prompt become active, and a
      connected session is disconnected so that the next one uses the new
      prompt. */
  function HandlePersonaSwitch(app: AppState, live: LiveAudio.Live, b: PromptBodies, p: Persona): (r: (AppState, LiveAudio.Live))
    ensures r.0 == app.(persona := p, systemInstruction := Prompt(b, p))
    ensures live.conn.isConnected ==> r.1 == LiveAudio.Disconnect(live)
    ensures !live.conn.isConnected ==> r.1 == live
    ensures !r.1.conn.isConnected
  {
    SwitchPromptIsOwn(b, p);
    var app1 := app.(persona := p, systemInstruction := SwitchPrompt(b, p));
    (app1, if live.conn.isConnected then LiveAudio.Disconnect(live) else live)
  }

  /** The effect keyed on the persona: it runs after the first render
      (`previous` is `None`) and after every render whose persona changed,
      and the hook logs the persona's key as the memory scope. */
  function ScopeEffect(previous: Opt.Option<Persona>, app: AppState, live: LiveAudio.Live): (r: LiveAudio.Live)
    ensures previous != Opt.Some(app.persona) ==> r == LiveAudio.SetMemoryScope(live, Key(app.persona))
    ensures previous == Opt.Some(app.persona) ==> r == live
  {
    if previous.None? || previous.value != app.persona then LiveAudio.SetMemoryScope(live, Key(app.persona)) else live
  }

  /** On mount the hook's log holds exactly one line: the medical scope. */
  lemma MountLogsScope(b: PromptBodies, store: SaveStore.Store, codec: Json.Codec)
    ensures ScopeEffect(Opt.None, InitialApp(b, store, codec), LiveAudio.Initial).logs
         == [LiveAudio.LogEntry(LiveAudio.Info, "Memory scope set to: medical")]
  {
    assert "Memory scope set to: " + Key(Medical) == "Memory scope set to: medical";
  }

  /** A switch followed by its render logs the new scope exactly when the
      persona changed, after whatever the switch itself logged. */
  lemma SwitchThenScope(app: AppState, live: LiveAudio.Live, b: PromptBodies, p: Persona)
    ensures var r := HandlePersonaSwitch(app, live, b, p);
      var after := ScopeEffect(Opt.Some(app.persona), r.0, r.1);
      && (p != app.persona ==> after.logs == [LiveAudio.LogEntry(LiveAudio.Info, "Memory scope set to: " + Key(p))] + r.1.logs)
      && (p == app.persona ==> after == r.1)
      && after.conn == r.1.conn && after.player == r.1.player && after.talk == r.1.talk
  {
  }

  // ---------------------------------------------------------------------
  // transcript extraction

  /** The label of a history entry's role. */
  function RoleLabel(role: string): (r: string)
    ensures r == "AUTEUR" <==> role == "user"
    ensures r == "SYSTEM" <==> role == "system"
    ensures r == "EXPERT" <==> role != "user" && role != "system"
  {
    if role == "user" then "AUTEUR" else if role == "system" then "SYSTEM" else "EXPERT"
  }

  /** One extracted line: `[ROLE] : text`. */
  function ExtractLine(m: LiveAudio.Turn): string {
    "[" + RoleLabel(m.role) + "] : " + m.text
  }

  /** The extracted lines of a history, each ended by a newline. */
  function ExtractLines(h: seq<LiveAudio.Turn>): string
    decreases |h|
  {
    if h == [] then "" else ExtractLine(h[0]) + "\n" + ExtractLines(h[1..])
  }

  /** The first line of an extraction, naming the persona in upper case. */
  function ExtractTitle(p: Persona): string {
    "--- EXTRACTION " + JsText.ToUpper(Key(p)) + " ---"
  }

  /** `handleExtract`'s content: the title, the date as the locale renders
      it, an empty line, then one line per history entry in order. */
  function ExtractContent(p: Persona, date: string, h: seq<LiveAudio.Turn>): (r: string) {
    ExtractTitle(p) + "\nDate: " + date + "\n\n" + ExtractLines(h)
  }

  /** The name of the downloaded extraction. */
  function ExtractFileName(p: Persona, now: nat): (r: string)
    ensures JsText.StartsWith(r, "Session_" + Key(p) + "_") && JsText.EndsWith(r, ".txt")
  {
    var prefix := "Session_" + Key(p) + "_";
    var r := prefix + JsText.NatToDecimal(now) + ".txt";
    JsText.StartsWithAppend(prefix, JsText.NatToDecimal(now) + ".txt");
    assert r == prefix + (JsText.NatToDecimal(now) + ".txt");
    JsText.EndsWithAppend(prefix + JsText.NatToDecimal(now), ".txt", ".txt");
    r
  }

  /** Whether no text of a history holds a newline. */
  predicate SingleLineTexts(h: seq<LiveAudio.Turn>)
    decreases |h|
  {
    h == [] || ('\n' !in h[0].text && SingleLineTexts(h[1..]))
  }

  /** The extracted line of each history entry, in order. */
  function LinesOf(h: seq<LiveAudio.Turn>): (r: seq<string>)
    ensures |r| == |h|
    decreases |h|
  {
    if h == [] then [] else [ExtractLine(h[0])] + LinesOf(h[1..])
  }

  lemma ExtractLineSingle(m: LiveAudio.Turn)
    requires '\n' !in m.text
    ensures '\n' !in ExtractLine(m)
  {
    var l := RoleLabel(m.role);
    assert '\n' !in l;
  }

  lemma ExtractLinesCons(h: seq<LiveAudio.Turn>, x: string)
    requires h != []
    ensures ExtractLines(h) + x == ExtractLine(h[0]) + ['\n'] + (ExtractLines(h[1..]) + x)
  {
  }

  /** Split at newlines, the extracted lines followed by any last line `x`
      give back each entry's line and then `x`. */
  lemma {:induction false} ExtractLinesSplit(h: seq<LiveAudio.Turn>, x: string)
    requires SingleLineTexts(h) && '\n' !in x
    ensures JsText.Split(ExtractLines(h) + x, '\n') == LinesOf(h) + [x]
    decreases |h|
  {
    if h == [] {
      assert ExtractLines(h) + x == x;
      JsText.SplitNoSeparator(x, '\n');
    } else {
      var first := ExtractLine(h[0]);
      var rest := ExtractLines(h[1..]) + x;
      ExtractLineSingle(h[0]);
      ExtractLinesSplit(h[1..], x);
      ExtractLinesCons(h, x);
      JsText.SplitFirst(first, rest, '\n');
    }
  }

  lemma TitleSingleLine(p: Persona)
    ensures '\n' !in ExtractTitle(p)
  {
    var u := JsText.ToUpper(Key(p));
    assert '\n' !in Key(p);
    forall i | 0 <= i < |u| ensures u[i] != '\n' {
      assert u[i] == JsText.UpperChar(Key(p)[i]);
    }
  }

  /** A leading newline cuts off an empty line. */
  lemma EmptyLineSplit(c: string)
    ensures JsText.Split(['\n'] + c, '\n') == [""] + JsText.Split(c, '\n')
  {
    JsText.SplitFirst("", c, '\n');
    assert "" + ['\n'] + c == ['\n'] + c;
  }

  lemma DateLineSingle(date: string)
    requires '\n' !in date
    ensures '\n' !in "Date: " + date
  {
  }

  /** The date line and the empty line after it. */
  lemma DateLinesSplit(date: string, c: string)
    requires '\n' !in date
    ensures JsText.Split(("Date: " + date) + ['\n'] + (['\n'] + c), '\n') == ["Date: " + date, ""] + JsText.Split(c, '\n')
  {
    DateLineSingle(date);
    JsText.SplitFirst("Date: " + date, ['\n'] + c, '\n');
    EmptyLineSplit(c);
  }

  lemma HeaderShape(t: string, date: string, c: string)
    ensures t + "\nDate: " + date + "\n\n" + c == t + ['\n'] + (("Date: " + date) + ['\n'] + (['\n'] + c))
  {
    assert "\nDate: " == ['\n'] + "Date: ";
    assert "\n\n" == ['\n'] + ['\n'];
  }

  /** The header of an extraction splits into its three lines. */
  lemma HeaderSplit(t: string, date: string, c: string)
    requires '\n' !in t && '\n' !in date
    ensures JsText.Split(t + "\nDate: " + date + "\n\n" + c, '\n') == [t, "Date: " + date, ""] + JsText.Split(c, '\n')
  {
    var rest := ("Date: " + date) + ['\n'] + (['\n'] + c);
    HeaderShape(t, date, c);
    DateLinesSplit(date, c);
    JsText.SplitFirst(t, rest, '\n');
  }

  /** An extraction reads back line by line: the title, the date, an empty
      line, each history entry's `[ROLE] : text` in order, and nothing after
      the last newline. */
  lemma ExtractReadsBack(p: Persona, date: string, h: seq<LiveAudio.Turn>)
    requires '\n' !in date && SingleLineTexts(h)
    ensures JsText.Split(ExtractContent(p, date, h), '\n')
         == [ExtractTitle(p), "Date: " + date, ""] + LinesOf(h) + [""]
  {
    TitleSingleLine(p);
    HeaderSplit(ExtractTitle(p), date, ExtractLines(h));
    ExtractLinesSplit(h, "");
    assert ExtractLines(h) + "" == ExtractLines(h);
  }

  // ---------------------------------------------------------------------
  // save settings

  /** The fields a settings update names; an absent field is `None`. */
  datatype SettingsPatch = SettingsPatch(
    compress: Opt.Option<bool>,
    encrypt: Opt.Option<bool>,
    cloudEnabled: Opt.Option<bool>,
    cloudEndpoint: Opt.Option<string>,
    encryptionKey: Opt.Option<string>)

  /** `{ ...current, ...next }`: each field named in `next` overrides, every
      other field keeps its current value. */
  function Merge(s: SaveStore.SaveSettings, next: SettingsPatch): (r: SaveStore.SaveSettings)
    ensures next.compress.Some? ==> r.compress == next.compress.value
    ensures next.compress.None? ==> r.compress == s.compress
    ensures next.encrypt.Some? ==> r.encrypt == next.encrypt.value
    ensures next.encrypt.None? ==> r.encrypt == s.encrypt
    ensures next.cloudEnabled.Some? ==> r.cloudEnabled == next.cloudEnabled.value
    ensures next.cloudEnabled.None? ==> r.cloudEnabled == s.cloudEnabled
    ensures next.cloudEndpoint.Some? ==> r.cloudEndpoint == next.cloudEndpoint.value
    ensures next.cloudEndpoint.None? ==> r.cloudEndpoint == s.cloudEndpoint
    ensures next.encryptionKey.Some? ==> r.encryptionKey == next.encryptionKey.value
    ensures next.encryptionKey.None? ==> r.encryptionKey == s.encryptionKey
  {
    SaveStore.SaveSettings(
      next.compress.GetOr(s.compress),
      next.encrypt.GetOr(s.encrypt),
      next.cloudEnabled.GetOr(s.cloudEnabled),
      next.cloudEndpoint.GetOr(s.cloudEndpoint),
      next.encryptionKey.GetOr(s.encryptionKey))
  }

  /** Applying the same update twice is applying it once; an empty update
      changes nothing. */
  lemma MergeIdempotent(s: SaveStore.SaveSettings, next: SettingsPatch)
    ensures Merge(Merge(s, next), next) == Merge(s, next)
    ensures Merge(s, SettingsPatch(Opt.None, Opt.None, Opt.None, Opt.None, Opt.None)) == s
  {
  }

  /** `updateSaveSettings`: the merged record becomes the state and is
      stored. */
  function UpdateSaveSettings(app: AppState, store: SaveStore.Store, codec: Json.Codec, next: SettingsPatch): (r: (AppState, SaveStore.Store))
    ensures r.0 == app.(saveSettings := Merge(app.saveSettings, next))
    ensures r.1 == SaveStore.SetSettings(store, codec, Merge(app.saveSettings, next))
  {
    var merged := Merge(app.saveSettings, next);
    (app.(saveSettings := merged), SaveStore.SetSettings(store, codec, merged))
  }

  /** What the state holds after an update is what the service reads back. */
  lemma UpdatePersists(app: AppState, store: SaveStore.Store, codec: Json.Codec, next: SettingsPatch)
    requires Json.Lawful(codec)
    ensures var r := UpdateSaveSettings(app, store, codec, next);
      SaveStore.GetSettings(r.1, codec) == r.0.saveSettings
  {
    SaveStore.SettingsRoundTrip(store, codec, Merge(app.saveSettings, next));
  }

  // ---------------------------------------------------------------------
  // restore, export, microphone test

  const RestoreFailedMessage: string := "Restauration impossible (clé ou format)."

  /** `handleRestore`, given what `restoreSave` returned for the active
      persona's entry with the settings' key: a missing or empty text shows
      the error and leaves the summary alone; any other text clears the
      error and is appended to the summary. */
  function HandleRestore(app: AppState, live: LiveAudio.Live, restored: Opt.Option<string>): (r: (AppState, LiveAudio.Live))
    ensures restored.None? || restored == Opt.Some("") ==>
      r.0 == app.(restoreError := Opt.Some(RestoreFailedMessage)) && r.1 == live
    ensures restored.Some? && restored.value != "" ==>
      r.0 == app.(restoreError := Opt.None) && r.1 == LiveAudio.AppendSummaryText(live, restored.value)
  {
    var app1 := app.(restoreError := Opt.None);
    match restored
    case None => (app1.(restoreError := Opt.Some(RestoreFailedMessage)), live)
    case Some(text) =>
      if text == "" then (app1.(restoreError := Opt.Some(RestoreFailedMessage)), live)
      else (app1, LiveAudio.AppendSummaryText(live, text))
  }

  /** The restore text `handleRestore` asks the save service for. */
  function Restored(app: AppState, fs: SaveEntries.FileSystem, plat: SavePipeline.Platform, e: SaveEntries.SaveEntry): (r: Opt.Option<string>)
    ensures !fs.native ==> r.None?
    ensures e.encrypted && app.saveSettings.encryptionKey == "" ==> r.None?
  {
    SavePipeline.RestoreSave(fs, Key(app.persona), e, app.saveSettings.encryptionKey, plat)
  }

  /** Off the device nothing can be restored: the error is shown and the
      summary is left alone. */
  lemma RestoreOffDevice(app: AppState, live: LiveAudio.Live, fs: SaveEntries.FileSystem, plat: SavePipeline.Platform, e: SaveEntries.SaveEntry)
    requires !fs.native
    ensures HandleRestore(app, live, Restored(app, fs, plat, e)) == (app.(restoreError := Opt.Some(RestoreFailedMessage)), live)
  {
  }

  const NothingToExportMessage: string := "Aucune mémoire TXT à exporter."

  datatype Export = Refused(message: string) | Exported(content: string, fileName: string)

  /** `handleModelExport`: a summary that trims to nothing is refused with a
      message; any other is copied and downloaded as it is. */
  function HandleModelExport(summary: string, p: Persona, now: nat): (r: Export)
    ensures r.Refused? <==> JsText.Blank(summary)
    ensures r.Refused? ==> r.message == NothingToExportMessage
    ensures r.Exported? ==> r.content == summary
  {
    JsText.TrimEmptyIffBlank(summary);
    if JsText.Trim(summary) == "" then Refused(NothingToExportMessage)
    else Exported(summary, "Memoire_Modele_" + Key(p) + "_" + JsText.NatToDecimal(now) + ".txt")
  }

  /** `handleMicTest` up to its `await`: while a test runs a second one does
      nothing; otherwise the test starts, the last result is hidden and the
      hook's test is called. The result tells whether a test was started. */
  function StartMicTest(app: AppState, live: LiveAudio.Live): (r: (AppState, LiveAudio.Live, bool))
    ensures app.isTestingMic ==> r == (app, live, false)
    ensures !app.isTestingMic ==>
      r.2 && r.0 == app.(isTestingMic := true, micTestResult := Opt.None) && r.1 == LiveAudio.TestMicrophone(live).0
  {
    if app.isTestingMic then (app, live, false)
    else (app.(isTestingMic := true, micTestResult := Opt.None), LiveAudio.TestMicrophone(live).0, true)
  }

  /** The hook's test resolved: its result is shown and the test ends. */
  function FinishMicTest(app: AppState, result: LiveAudio.MicTest): (r: AppState)
    ensures r == app.(isTestingMic := false, micTestResult := Opt.Some(result))
  {
    app.(isTestingMic := false, micTestResult := Opt.Some(result))
  }

  /** A started test, once the hook answers, shows the hook's fixed result
      and no longer blocks a new test; a second press meanwhile is ignored. */
  lemma MicTestCompletes(app: AppState, live: LiveAudio.Live)
    requires !app.isTestingMic
    ensures var s := StartMicTest(app, live);
      && StartMicTest(s.0, s.1) == (s.0, s.1, false)
      && var done := FinishMicTest(s.0, LiveAudio.TestMicrophone(live).1);
         !done.isTestingMic && done.micTestResult == Opt.Some(LiveAudio.MicTest(true, 75))
  {
  }
}

=== FILE: artifact.dfy ===
/** The plain-text save artifact: a `key: value` header, a `---` line, then
    exactly one `U:` line and one `A:` line with the whitespace of each text
    collapsed, and a final line break. */
module Artifact {
  import Opt
  import opened JsText

  /** A metadata value: text, or an integer printed in decimal. */
  datatype MetaValue = MText(text: string) | MNumber(n: int)

  type Entries = seq<(string, MetaValue)>

  /** `${v}` for a metadata value. */
  function Render(v: MetaValue): string {
    match v
    case MText(t) => t
    case MNumber(n) => IntToDecimal(n)
  }

  /** No key appears twice, as in any object. */
  ghost predicate DistinctKeys(es: Entries) {
    forall i, j :: 0 <= i < j < |es| ==> es[i].0 != es[j].0
  }

  /** The value stored under `k`, if any (the first entry with that key). */
  function Find(es: Entries, k: string): Opt.Option<MetaValue> {
    if |es| == 0 then Opt.None
    else if es[0].0 == k then Opt.Some(es[0].1)
    else Find(es[1..], k)
  }

  /** The last value `meta` gives for `k`, which is the one a spread keeps. */
  function LastValue(meta: Entries, k: string): Opt.Option<MetaValue> {
    if |meta| == 0 then Opt.None
    else if meta[|meta| - 1].0 == k then Opt.Some(meta[|meta| - 1].1)
    else LastValue(meta[..|meta| - 1], k)
  }

  /** Assigning a property: an existing key keeps its place and takes the new
      value; a new key goes at the end. */
  function Assign(es: Entries, k: string, v: MetaValue): Entries {
    if |es| == 0 then [(k, v)]
    else if es[0].0 == k then [(k, v)] + es[1..]
    else [es[0]] + Assign(es[1..], k, v)
  }

  /** `{...es, ...meta}`: the entries of `meta` assigned one by one, in order. */
  function Spread(es: Entries, meta: Entries): Entries
    decreases |meta|
  {
    if |meta| == 0 then es else Spread(Assign(es, meta[0].0, meta[0].1), meta[1..])
  }

  /** `{agentId, timestamp: ts, ...meta}`. */
  function Metadata(agentId: string, ts: string, meta: Entries): Entries {
    Spread([("agentId", MText(agentId)), ("timestamp", MText(ts))], meta)
  }

  /** Assigning keeps every existing key in its place and adds at most one entry, at the end. */
  lemma {:induction false} AssignShape(es: Entries, k: string, v: MetaValue)
    ensures var r := Assign(es, k, v);
      && |es| <= |r| <= |es| + 1
      && (forall i :: 0 <= i < |es| ==> r[i].0 == es[i].0)
      && (|r| == |es| + 1 ==> r[|es|] == (k, v))
  {
    if |es| > 0 && es[0].0 != k {
      AssignShape(es[1..], k, v);
      var r := Assign(es, k, v);
      var r' := Assign(es[1..], k, v);
      assert r == [es[0]] + r';
      assert forall i :: 1 <= i < |r| ==> r[i] == r'[i - 1];
    }
  }

  /** After assigning, `k` reads as the new value and every other key as before. */
  lemma {:induction false} AssignFind(es: Entries, k: string, v: MetaValue)
    ensures Find(Assign(es, k, v), k) == Opt.Some(v)
    ensures forall k' :: k' != k ==> Find(Assign(es, k, v), k') == Find(es, k')
  {
    var r := Assign(es, k, v);
    if |es| > 0 && es[0].0 != k {
      AssignFind(es[1..], k, v);
      assert r[1..] == Assign(es[1..], k, v);
    } else if |es| > 0 {
      assert r[1..] == es[1..];
    }
  }

  /** Assigning a key that is not there appends it. */
  lemma {:induction false} AssignNew(es: Entries, k: string, v: MetaValue)
    requires Find(es, k).None?
    ensures Assign(es, k, v) == es + [(k, v)]
  {
    if |es| > 0 {
      AssignNew(es[1..], k, v);
      assert es == [es[0]] + es[1..];
    }
  }

  /** Assigning keeps keys distinct. */
  lemma AssignDistinct(es: Entries, k: string, v: MetaValue)
    requires DistinctKeys(es)
    ensures DistinctKeys(Assign(es, k, v))
  {
    var r := Assign(es, k, v);
    AssignShape(es, k, v);
    AssignFind(es, k, v);
    if |r| == |es| + 1 {
      AssignNewFind(es, k, v);
    } else {
      forall i, j | 0 <= i < j < |r|
        ensures r[i].0 != r[j].0
      {
        assert r[i].0 == es[i].0 && r[j].0 == es[j].0;
      }
    }
  }

  lemma AssignNewFind(es: Entries, k: string, v: MetaValue)
    requires DistinctKeys(es)
    requires |Assign(es, k, v)| == |es| + 1
    ensures DistinctKeys(Assign(es, k, v))
  {
    var r := Assign(es, k, v);
    AssignShape(es, k, v);
    FindAbsent(es, k, v);
    forall i, j | 0 <= i < j < |r|
      ensures r[i].0 != r[j].0
    {
      if j == |es| {
        assert r[i].0 == es[i].0;
      } else {
        assert r[i].0 == es[i].0 && r[j].0 == es[j].0;
      }
    }
  }

  /** When assigning grew the list, the key was absent from it. */
  lemma {:induction false} FindAbsent(es: Entries, k: string, v: MetaValue)
    requires |Assign(es, k, v)| == |es| + 1
    ensures forall i :: 0 <= i < |es| ==> es[i].0 != k
  {
    if |es| > 0 && es[0].0 != k {
      FindAbsent(es[1..], k, v);
      assert forall i :: 1 <= i < |es| ==> es[i] == es[1..][i - 1];
    }
  }

  /** Spreading keeps the existing keys where they were, keeps keys distinct,
      and every key reads as its last value in `meta`, or as before when
      `meta` does not mention it. */
  lemma {:induction false} SpreadFacts(es: Entries, meta: Entries)
    ensures var r := Spread(es, meta);
      && |es| <= |r|
      && (forall i :: 0 <= i < |es| ==> r[i].0 == es[i].0)
      && (DistinctKeys(es) ==> DistinctKeys(r))
      && (forall k :: Find(r, k) == if LastValue(meta, k).Some? then LastValue(meta, k) else Find(es, k))
    decreases |meta|
  {
    if |meta| > 0 {
      var a := Assign(es, meta[0].0, meta[0].1);
      AssignShape(es, meta[0].0, meta[0].1);
      AssignFind(es, meta[0].0, meta[0].1);
      if DistinctKeys(es) {
        AssignDistinct(es, meta[0].0, meta[0].1);
      }
      SpreadFacts(a, meta[1..]);
      forall k
        ensures Find(Spread(es, meta), k)
             == if LastValue(meta, k).Some? then LastValue(meta, k) else Find(es, k)
      {
        LastValueSplit(meta, k);
      }
    }
  }

  /** The last value in a list is the last value in its tail, or else its head's. */
  lemma {:induction false} LastValueSplit(meta: Entries, k: string)
    requires |meta| > 0
    ensures LastValue(meta, k) ==
      if LastValue(meta[1..], k).Some? then LastValue(meta[1..], k)
      else if meta[0].0 == k then Opt.Some(meta[0].1) else Opt.None
    decreases |meta|
  {
    if |meta| > 1 && meta[|meta| - 1].0 != k {
      var init := meta[..|meta| - 1];
      LastValueSplit(init, k);
      assert init[1..] == meta[1..][..|meta[1..]| - 1];
    }
  }

  /** With keys that are new and distinct, a spread appends `meta` as it is. */
  lemma {:induction false} SpreadAppends(es: Entries, meta: Entries)
    requires forall i :: 0 <= i < |meta| ==> Find(es, meta[i].0).None?
    requires DistinctKeys(meta)
    ensures Spread(es, meta) == es + meta
    decreases |meta|
  {
    if |meta| > 0 {
      var m := meta[0];
      AssignNew(es, m.0, m.1);
      AssignFind(es, m.0, m.1);
      var a := es + [m];
      forall i | 0 <= i < |meta[1..]|
        ensures Find(a, meta[1..][i].0).None?
      {
        assert meta[1..][i] == meta[i + 1];
        assert Find(a, meta[i + 1].0) == Find(es, meta[i + 1].0);
      }
      SpreadAppends(a, meta[1..]);
      assert a + meta[1..] == es + meta;
    }
  }

  /** The header always starts with `agentId` then `timestamp`, names each key
      once, and each key reads as its last value in `meta`, or as the agent id
      or timestamp. */
  lemma MetadataFacts(agentId: string, ts: string, meta: Entries)
    ensures var r := Metadata(agentId, ts, meta);
      && |r| >= 2
      && r[0].0 == "agentId" && r[1].0 == "timestamp"
      && DistinctKeys(r)
      && Find(r, "agentId") == Opt.Some(LastValue(meta, "agentId").GetOr(MText(agentId)))
      && Find(r, "timestamp") == Opt.Some(LastValue(meta, "timestamp").GetOr(MText(ts)))
      && (forall k :: k != "agentId" && k != "timestamp" ==> Find(r, k) == LastValue(meta, k))
  {
    var init: Entries := [("agentId", MText(agentId)), ("timestamp", MText(ts))];
    assert DistinctKeys(init);
    assert init[1..] == [("timestamp", MText(ts))];
    assert Find(init, "timestamp") == Opt.Some(MText(ts));
    forall k | k != "agentId" && k != "timestamp"
      ensures Find(init, k) == Opt.None
    {
      assert init[1..][1..] == [];
      assert Find(init[1..], k) == Find(init[1..][1..], k);
      assert Find(init, k) == Find(init[1..], k);
    }
    SpreadFacts(init, meta);
  }

  /** One `key: value` line per metadata entry. */
  function HeaderLines(es: Entries): (lines: seq<string>)
    ensures |lines| == |es|
  {
    seq(|es|, i requires 0 <= i < |es| => es[i].0 + ": " + Render(es[i].1))
  }

  /** `buildTxtContent`: the header lines joined by line breaks, then `---`,
      the user line, the assistant line, and a final line break. */
  function BuildTxtContent(agentId: string, userText: Opt.Option<string>,
                           modelText: Opt.Option<string>, meta: Entries, ts: string): string
  {
    var header := Join(HeaderLines(Metadata(agentId, ts, meta)), '\n');
    var body := Join(["U: " + Clean(OrEmpty(userText)), "A: " + Clean(OrEmpty(modelText))], '\n');
    header + "\n---\n" + body + "\n"
  }

  /** The parts an artifact is read back into. */
  datatype Parsed = Parsed(header: seq<string>, user: string, model: string)

  /** Reading an artifact: split into lines; the last must be empty, and the
      three before it `---`, a `U: ` line and an `A: ` line. */
  function ParseArtifact(text: string): (r: Opt.Option<Parsed>)
    ensures r.Some? ==> Join(r.value.header + ["---", "U: " + r.value.user, "A: " + r.value.model, ""], '\n') == text
  {
    var lines := Split(text, '\n');
    var n := |lines|;
    if n >= 4 && lines[n - 1] == "" && lines[n - 4] == "---"
       && StartsWith(lines[n - 3], "U: ") && StartsWith(lines[n - 2], "A: ")
    then
      var p := Parsed(lines[..n - 4], lines[n - 3][3..], lines[n - 2][3..]);
      JoinSplit(text, '\n');
      LinesShape(lines, p);
      Opt.Some(p)
    else Opt.None
  }

  lemma StartsWithRest(s: string, prefix: string)
    requires StartsWith(s, prefix)
    ensures s == prefix + s[|prefix|..]
  {
  }

  lemma LinesShape(lines: seq<string>, p: Parsed)
    requires |lines| >= 4
    requires lines[|lines| - 1] == "" && lines[|lines| - 4] == "---"
    requires StartsWith(lines[|lines| - 3], "U: ") && StartsWith(lines[|lines| - 2], "A: ")
    requires p == Parsed(lines[..|lines| - 4], lines[|lines| - 3][3..], lines[|lines| - 2][3..])
    ensures p.header + ["---", "U: " + p.user, "A: " + p.model, ""] == lines
  {
    StartsWithRest(lines[|lines| - 3], "U: ");
    StartsWithRest(lines[|lines| - 2], "A: ");
    var n := |lines|;
    assert lines == lines[..n - 4] + [lines[n - 4], lines[n - 3], lines[n - 2], lines[n - 1]];
  }

  /** A header whose keys and values hold no line break. */
  ghost predicate SingleLineHeader(agentId: string, ts: string, meta: Entries) {
    var lines := HeaderLines(Metadata(agentId, ts, meta));
    forall i :: 0 <= i < |lines| ==> '\n' !in lines[i]
  }

  lemma JoinCons(x: string, rest: seq<string>)
    requires |rest| > 0
    ensures Join([x] + rest, '\n') == x + "\n" + Join(rest, '\n')
  {
    assert ([x] + rest)[1..] == rest;
  }

  lemma ConcatShape(hd: string, body: string)
    ensures hd + "\n---\n" + body + "\n" == hd + "\n" + ("---" + "\n" + (body + "\n" + ""))
  {
    assert "\n---\n" == "\n" + "---" + "\n";
  }

  /** The artifact is its lines joined by line breaks. */
  lemma BuildIsJoin(h: seq<string>, lu: string, la: string)
    requires |h| > 0
    ensures Join(h, '\n') + "\n---\n" + Join([lu, la], '\n') + "\n"
         == Join(h + ["---", lu, la, ""], '\n')
  {
    JoinAppend([lu, la], [""], '\n');
    assert [lu, la] + [""] == [lu, la, ""];
    JoinCons("---", [lu, la, ""]);
    assert ["---"] + [lu, la, ""] == ["---", lu, la, ""];
    JoinAppend(h, ["---", lu, la, ""], '\n');
    ConcatShape(Join(h, '\n'), Join([lu, la], '\n'));
  }

  /** The body lines hold no line break. */
  lemma BodyLinesSingle(t: Opt.Option<string>, tag: string)
    requires '\n' !in tag
    ensures '\n' !in tag + Clean(OrEmpty(t))
  {
    CleanIsCollapsed(OrEmpty(t));
    CollapsedHasNoNewline(Clean(OrEmpty(t)));
  }

  /** The lines of an artifact: the header lines, `---`, the two body lines and
      an empty last line. */
  lemma ArtifactLines(agentId: string, userText: Opt.Option<string>,
                      modelText: Opt.Option<string>, meta: Entries, ts: string)
    requires SingleLineHeader(agentId, ts, meta)
    ensures var h := HeaderLines(Metadata(agentId, ts, meta));
      Split(BuildTxtContent(agentId, userText, modelText, meta, ts), '\n')
        == h + ["---", "U: " + Clean(OrEmpty(userText)), "A: " + Clean(OrEmpty(modelText)), ""]
  {
    MetadataFacts(agentId, ts, meta);
    var h := HeaderLines(Metadata(agentId, ts, meta));
    var u := Clean(OrEmpty(userText));
    var a := Clean(OrEmpty(modelText));
    BodyLinesSingle(userText, "U: ");
    BodyLinesSingle(modelText, "A: ");
    BuildIsJoin(h, "U: " + u, "A: " + a);
    var all := h + ["---", "U: " + u, "A: " + a, ""];
    assert forall i :: 0 <= i < |h| ==> all[i] == h[i];
    assert forall i :: |h| <= i < |all| ==> '\n' !in all[i];
    SplitJoin(all, '\n');
  }

  /** Reading an artifact back gives its header lines and the cleaned texts. */
  lemma ArtifactRoundTrip(agentId: string, userText: Opt.Option<string>,
                          modelText: Opt.Option<string>, meta: Entries, ts: string)
    requires SingleLineHeader(agentId, ts, meta)
    ensures ParseArtifact(BuildTxtContent(agentId, userText, modelText, meta, ts))
         == Opt.Some(Parsed(HeaderLines(Metadata(agentId, ts, meta)),
                            Clean(OrEmpty(userText)), Clean(OrEmpty(modelText))))
  {
    ArtifactLines(agentId, userText, modelText, meta, ts);
    var h := HeaderLines(Metadata(agentId, ts, meta));
    var u := Clean(OrEmpty(userText));
    var a := Clean(OrEmpty(modelText));
    var lines := h + ["---", "U: " + u, "A: " + a, ""];
    var n := |lines|;
    assert lines[n - 3] == "U: " + u && lines[n - 2] == "A: " + a;
    assert (("U: " + u)[..3]) == "U: " && ("U: " + u)[3..] == u;
    assert (("A: " + a)[..3]) == "A: " && ("A: " + a)[3..] == a;
    assert lines[..n - 4] == h;
  }

  lemma JoinHead(parts: seq<string>, c: char)
    requires |parts| >= 1 && |parts[0]| > 0
    ensures |Join(parts, c)| > 0 && Join(parts, c)[0] == parts[0][0]
  {
  }

  /** Every artifact begins with the `agentId` header line, so its first
      character is `a`. */
  lemma ArtifactStartsWithA(agentId: string, userText: Opt.Option<string>,
                            modelText: Opt.Option<string>, meta: Entries, ts: string)
    ensures var text := BuildTxtContent(agentId, userText, modelText, meta, ts);
      |text| > 0 && text[0] == 'a'
  {
    MetadataFacts(agentId, ts, meta);
    var es := Metadata(agentId, ts, meta);
    var h := HeaderLines(es);
    assert h[0] == "agentId" + ": " + Render(es[0].1);
    assert h[0][0] == 'a';
    JoinHead(h, '\n');
  }

  lemma MedicalHeader(ts: string)
    ensures HeaderLines([("agentId", MText("medical")), ("timestamp", MText(ts)), ("session", MText("demo"))])
         == ["agentId: medical", "timestamp: " + ts, "session: demo"]
    ensures '\n' !in "agentId: medical" && '\n' !in "session: demo"
  {
    var h := HeaderLines([("agentId", MText("medical")), ("timestamp", MText(ts)), ("session", MText("demo"))]);
    assert h[0] == "agentId" + ": " + "medical" == "agentId: medical";
    assert h[1] == "timestamp" + ": " + ts == "timestamp: " + ts;
    assert h[2] == "session" + ": " + "demo" == "session: demo";
  }

  lemma BodyLiterals()
    ensures "U: " + "Bonjour" == "U: Bonjour" && "A: " + "Réponse" == "A: Réponse"
  {
  }

  lemma SevenLines(a: string, b: string, c: string, d: string, e: string, f: string, g: string)
    ensures [a, b, c] + [d, e, f, g] == [a, b, c, d, e, f, g]
  {
  }

  lemma MedicalMetadata(ts: string)
    ensures Metadata("medical", ts, [("session", MText("demo"))])
         == [("agentId", MText("medical")), ("timestamp", MText(ts)), ("session", MText("demo"))]
  {
    var init: Entries := [("agentId", MText("medical")), ("timestamp", MText(ts))];
    var meta: Entries := [("session", MText("demo"))];
    assert init[1..] == [("timestamp", MText(ts))];
    assert Find(init, "session").None? by {
      assert Find(init[1..], "session") == Find(init[1..][1..], "session");
    }
    SpreadAppends(init, meta);
  }

  lemma MedicalSingleLine(ts: string)
    requires '\n' !in ts
    ensures SingleLineHeader("medical", ts, [("session", MText("demo"))])
  {
    MedicalMetadata(ts);
    MedicalHeader(ts);
  }

  lemma MedicalClean()
    ensures "U: " + Clean(OrEmpty(Opt.Some("Bonjour"))) == "U: Bonjour"
    ensures "A: " + Clean(OrEmpty(Opt.Some("Réponse"))) == "A: Réponse"
  {
    assert IsWord("Bonjour");
    assert IsWord("Réponse");
    CleanOfWord("Bonjour");
    CleanOfWord("Réponse");
    BodyLiterals();
  }

  /** The artifact for agent `medical`, user text `Bonjour`, answer `Réponse`
      and metadata `session: demo` has exactly these lines. */
  lemma MedicalExample(ts: string)
    requires '\n' !in ts
    ensures Split(BuildTxtContent("medical", Opt.Some("Bonjour"), Opt.Some("Réponse"),
                                  [("session", MText("demo"))], ts), '\n')
         == ["agentId: medical", "timestamp: " + ts, "session: demo", "---", "U: Bonjour", "A: Réponse", ""]
  {
    var meta: Entries := [("session", MText("demo"))];
    MedicalSingleLine(ts);
    MedicalMetadata(ts);
    MedicalHeader(ts);
    MedicalClean();
    ArtifactLines("medical", Opt.Some("Bonjour"), Opt.Some("Réponse"), meta, ts);
    SevenLines("agentId: medical", "timestamp: " + ts, "session: demo", "---", "U: Bonjour", "A: Réponse", "");
  }

}

=== FILE: js_text.dfy ===
/** String operations with the JavaScript meaning the source relies on:
    the `\s` class and `trim`, `replace(/\s+/g, ' ')`, `split` on one
    character, `endsWith`, decimal rendering of integers and decimal parsing. */
module JsText {
  import Opt

  /** A character matched by `\s` in a JavaScript regular expression;
      `String.prototype.trim` strips exactly the same set. */
  predicate IsSpace(c: char) {
    || c == ' ' || c == '\t' || c == '\n' || c == '\U{000B}' || c == '\U{000C}' || c == '\r'
    || c == '\U{00A0}' || c == '\U{1680}' || ('\U{2000}' <= c <= '\U{200A}')
    || c == '\U{2028}' || c == '\U{2029}' || c == '\U{202F}' || c == '\U{205F}'
    || c == '\U{3000}' || c == '\U{FEFF}'
  }

  /** `s` without its leading whitespace. */
  function TrimStart(s: string): (r: string)
    ensures |r| <= |s|
    ensures |s| > 0 && IsSpace(s[0]) ==> |r| < |s|
    ensures |r| == 0 || !IsSpace(r[0])
  {
    if |s| > 0 && IsSpace(s[0]) then TrimStart(s[1..]) else s
  }

  /** `s` without its trailing whitespace. */
  function TrimEnd(s: string): (r: string)
    ensures |r| <= |s|
  {
    if |s| > 0 && IsSpace(s[|s| - 1]) then TrimEnd(s[..|s| - 1]) else s
  }

  /** `s.trim()`. */
  function Trim(s: string): string {
    TrimEnd(TrimStart(s))
  }

  /** `s.replace(/\s+/g, ' ')`: every maximal run of whitespace becomes one space. */
  function Collapse(s: string): string
    decreases |s|
  {
    if |s| == 0 then ""
    else if IsSpace(s[0]) then " " + Collapse(TrimStart(s))
    else [s[0]] + Collapse(s[1..])
  }

  /** The `clean` helper of the save-artifact builder: collapse whitespace runs, then trim. */
  function Clean(s: string): string {
    Trim(Collapse(s))
  }

  /** `(t || '')` for an optional text: a missing text reads as the empty string. */
  function OrEmpty(t: Opt.Option<string>): string {
    t.GetOr("")
  }

  // ---------------------------------------------------------------------
  // Words: the reference reading of `Clean`

  /** A non-empty run of non-whitespace characters. */
  ghost predicate IsWord(w: string) {
    |w| > 0 && forall i :: 0 <= i < |w| ==> !IsSpace(w[i])
  }

  /** The longest prefix of `s` that holds no whitespace. */
  function Word(s: string): (w: string)
    ensures |w| <= |s|
  {
    if |s| == 0 || IsSpace(s[0]) then "" else [s[0]] + Word(s[1..])
  }

  /** The whitespace-separated words of `s`, in order. */
  function Words(s: string): seq<string>
    decreases |s|
  {
    var t := TrimStart(s);
    if |t| == 0 then []
    else
      var w := Word(t);
      assert |w| > 0;
      [w] + Words(t[|w|..])
  }

  /** Words separated by single spaces. */
  function JoinWords(ws: seq<string>): string {
    if |ws| == 0 then ""
    else if |ws| == 1 then ws[0]
    else ws[0] + " " + JoinWords(ws[1..])
  }

  /** No whitespace at either end, every whitespace character a plain space,
      and never two whitespace characters side by side. */
  ghost predicate Collapsed(r: string) {
    && (|r| == 0 || (!IsSpace(r[0]) && !IsSpace(r[|r| - 1])))
    && (forall i :: 0 <= i < |r| && IsSpace(r[i]) ==> r[i] == ' ')
    && (forall i, j :: 0 <= i < j < |r| && j == i + 1 ==> !IsSpace(r[i]) || !IsSpace(r[j]))
  }

  lemma {:induction false} TrimStartFacts(s: string)
    ensures var r := TrimStart(s); r == s[|s| - |r|..] && (|r| == 0 || !IsSpace(r[0]))
    decreases |s|
  {
    if |s| > 0 && IsSpace(s[0]) {
      TrimStartFacts(s[1..]);
    }
  }

  lemma {:induction false} TrimEndFacts(s: string)
    ensures var r := TrimEnd(s); r == s[..|r|] && (|r| == 0 || !IsSpace(r[|r| - 1]))
    decreases |s|
  {
    if |s| > 0 && IsSpace(s[|s| - 1]) {
      TrimEndFacts(s[..|s| - 1]);
    }
  }

  lemma {:induction false} WordFacts(s: string)
    ensures var w := Word(s);
      && w == s[..|w|]
      && (forall i :: 0 <= i < |w| ==> !IsSpace(w[i]))
      && (|w| == |s| || IsSpace(s[|w|]))
    decreases |s|
  {
    if |s| > 0 && !IsSpace(s[0]) {
      WordFacts(s[1..]);
      var w := Word(s);
      var w' := Word(s[1..]);
      assert w == [s[0]] + w';
      forall i | 0 <= i < |w|
        ensures !IsSpace(w[i])
      {
        if i > 0 {
          assert w[i] == w'[i - 1];
        }
      }
    }
  }

  /** Every piece `Words` returns is a word. */
  lemma {:induction false} WordsAreWords(s: string)
    ensures forall i :: 0 <= i < |Words(s)| ==> IsWord(Words(s)[i])
    decreases |s|
  {
    var t := TrimStart(s);
    if |t| > 0 {
      TrimStartFacts(s);
      var w := Word(t);
      WordFacts(t);
      WordsAreWords(t[|w|..]);
    }
  }

  lemma TrimStartNoop(s: string)
    requires |s| == 0 || !IsSpace(s[0])
    ensures TrimStart(s) == s
  {
  }

  lemma TrimStartIdem(s: string)
    ensures TrimStart(TrimStart(s)) == TrimStart(s)
  {
    TrimStartFacts(s);
  }

  lemma CollapseStart(t: string)
    requires |t| > 0 && !IsSpace(t[0])
    ensures |Collapse(t)| > 0 && Collapse(t)[0] == t[0]
  {
  }

  lemma CollapseCons(x: char, t: string)
    requires !IsSpace(x)
    ensures Collapse([x] + t) == [x] + Collapse(t)
  {
    assert ([x] + t)[1..] == t;
  }

  lemma {:induction false} CollapseWordPrefix(w: string, r: string)
    requires forall i :: 0 <= i < |w| ==> !IsSpace(w[i])
    ensures Collapse(w + r) == w + Collapse(r)
    decreases |w|
  {
    if |w| == 0 {
      assert w + r == r;
    } else {
      var x, w' := w[0], w[1..];
      assert w == [x] + w';
      assert w + r == [x] + (w' + r);
      CollapseWordPrefix(w', r);
      CollapseCons(x, w' + r);
    }
  }

  lemma TrimStartCollapse(s: string)
    ensures TrimStart(Collapse(s)) == Collapse(TrimStart(s))
  {
    if |s| > 0 && IsSpace(s[0]) {
      var t := TrimStart(s);
      TrimStartFacts(s);
      TrimStartNoop(t);
      var x := Collapse(t);
      if |t| > 0 {
        CollapseStart(t);
      }
      TrimStartNoop(x);
      assert Collapse(s) == " " + x;
      assert (" " + x)[1..] == x;
    }
  }

  lemma {:induction false} TrimEndAppend(a: string, b: string)
    requires |b| > 0 && !IsSpace(b[0])
    ensures TrimEnd(a + b) == a + TrimEnd(b)
    decreases |b|
  {
    var ab := a + b;
    assert ab[|ab| - 1] == b[|b| - 1];
    if IsSpace(b[|b| - 1]) {
      assert ab[..|ab| - 1] == a + b[..|b| - 1];
      TrimEndAppend(a, b[..|b| - 1]);
    }
  }

  /** A text that starts with a word: the word survives collapsing and is its first word. */
  lemma WordThenRest(t: string)
    requires |t| > 0 && !IsSpace(t[0])
    ensures var w := Word(t);
      && |w| > 0
      && (forall i :: 0 <= i < |w| ==> !IsSpace(w[i]))
      && (|w| == |t| || IsSpace(t[|w|]))
      && Collapse(t) == w + Collapse(t[|w|..])
      && Words(t) == [w] + Words(t[|w|..])
  {
    var w := Word(t);
    WordFacts(t);
    assert t == w + t[|w|..];
    CollapseWordPrefix(w, t[|w|..]);
    TrimStartNoop(t);
  }

  /** A text that starts with whitespace: the run becomes one space and adds no word. */
  lemma SpaceThenRest(r: string)
    requires |r| > 0 && IsSpace(r[0])
    ensures Collapse(r) == " " + Collapse(TrimStart(r))
    ensures Words(r) == Words(TrimStart(r))
    ensures |TrimStart(r)| == 0 || !IsSpace(TrimStart(r)[0])
  {
    TrimStartIdem(r);
    TrimStartFacts(r);
  }

  /** A text that starts with a non-space character has at least one word. */
  lemma WordsNonEmpty(t: string)
    requires |t| > 0 && !IsSpace(t[0])
    ensures |Words(t)| > 0
  {
    TrimStartNoop(t);
  }

  lemma JoinWordsCons(w: string, ws: seq<string>)
    requires |ws| > 0
    ensures JoinWords([w] + ws) == w + " " + JoinWords(ws)
  {
    assert ([w] + ws)[1..] == ws;
  }

  lemma TrimEndAfterWord(w: string)
    requires |w| > 0 && !IsSpace(w[|w| - 1])
    ensures TrimEnd(w + " ") == w
  {
    assert (w + " ")[..|w|] == w;
  }

  lemma TrimEndJoinStep(w: string, x: string, ws: seq<string>)
    requires |w| > 0
    requires |x| > 0 && !IsSpace(x[0])
    requires |ws| > 0 && TrimEnd(x) == JoinWords(ws)
    ensures TrimEnd(w + (" " + x)) == JoinWords([w] + ws)
  {
    assert w + (" " + x) == (w + " ") + x;
    TrimEndAppend(w + " ", x);
    JoinWordsCons(w, ws);
  }

  lemma {:induction false} TrimEndCollapse(t: string)
    requires |t| == 0 || !IsSpace(t[0])
    ensures TrimEnd(Collapse(t)) == JoinWords(Words(t))
    decreases |t|
  {
    if |t| > 0 {
      WordThenRest(t);
      var w := Word(t);
      var r := t[|w|..];
      if |r| == 0 {
        assert Collapse(t) == w;
        assert Words(t) == [w];
        TrimEndFacts(t);
      } else {
        SpaceThenRest(r);
        var r' := TrimStart(r);
        if |r'| == 0 {
          assert Collapse(t) == w + " ";
          assert Words(t) == [w];
          TrimEndAfterWord(w);
        } else {
          TrimEndCollapse(r');
          CollapseStart(r');
          WordsNonEmpty(r');
          TrimEndJoinStep(w, Collapse(r'), Words(r'));
        }
      }
    }
  }

  /** `Clean` keeps the words of its input, in order, separated by single spaces. */
  lemma CleanIsJoinedWords(s: string)
    ensures Clean(s) == JoinWords(Words(s))
  {
    TrimStartCollapse(s);
    var t := TrimStart(s);
    TrimStartFacts(s);
    TrimEndCollapse(t);
    TrimStartIdem(s);
  }

  lemma {:induction false} WordOfWordPrefix(w: string, x: string)
    requires forall i :: 0 <= i < |w| ==> !IsSpace(w[i])
    requires |x| == 0 || IsSpace(x[0])
    ensures Word(w + x) == w
    decreases |w|
  {
    if |w| == 0 {
      assert w + x == x;
    } else {
      assert (w + x)[0] == w[0];
      assert (w + x)[1..] == w[1..] + x;
      WordOfWordPrefix(w[1..], x);
      assert w == [w[0]] + w[1..];
    }
  }

  /** Joining well-formed words gives a collapsed text that starts with the first word. */
  lemma {:induction false} JoinWordsCollapsed(ws: seq<string>)
    requires forall i :: 0 <= i < |ws| ==> IsWord(ws[i])
    ensures Collapsed(JoinWords(ws))
    ensures |ws| > 0 ==> |JoinWords(ws)| > 0 && JoinWords(ws)[0] == ws[0][0]
  {
    if |ws| == 1 {
      assert JoinWords(ws) == ws[0];
    } else if |ws| > 1 {
      var w := ws[0];
      var j := JoinWords(ws[1..]);
      JoinWordsCollapsed(ws[1..]);
      var r := w + " " + j;
      assert r == JoinWords(ws);
      forall i | 0 <= i < |r|
        ensures IsSpace(r[i]) ==> r[i] == ' '
      {
        if i < |w| {
          assert r[i] == w[i];
        } else if i > |w| {
          assert r[i] == j[i - |w| - 1];
        }
      }
      forall i, k | 0 <= i < k < |r| && k == i + 1
        ensures !IsSpace(r[i]) || !IsSpace(r[k])
      {
        if i < |w| {
          assert r[i] == w[i];
        } else if i == |w| {
          assert r[k] == j[0];
        } else {
          assert r[i] == j[i - |w| - 1];
          assert r[k] == j[k - |w| - 1];
        }
      }
      assert r[|r| - 1] == j[|j| - 1];
    }
  }

  lemma WordsAfterSpace(j: string)
    requires |j| > 0 && !IsSpace(j[0])
    ensures Words(" " + j) == Words(j)
  {
    assert (" " + j)[1..] == j;
    assert TrimStart(" " + j) == TrimStart(j);
    TrimStartNoop(j);
  }

  lemma WordsOfWordSpaceText(w: string, j: string)
    requires IsWord(w)
    requires |j| > 0 && !IsSpace(j[0])
    ensures Words(w + " " + j) == [w] + Words(j)
  {
    var r := w + " " + j;
    assert r[0] == w[0];
    TrimStartNoop(r);
    assert r == w + (" " + j);
    WordOfWordPrefix(w, " " + j);
    assert r[|w|..] == " " + j;
    WordsAfterSpace(j);
  }

  lemma WordsOfWord(w: string)
    requires IsWord(w)
    ensures Words(w) == [w]
  {
    TrimStartNoop(w);
    WordOfWordPrefix(w, "");
    assert w + "" == w;
    assert w[|w|..] == "";
  }

  /** Reading the words back out of joined words gives the same words. */
  lemma {:induction false} WordsOfJoinWords(ws: seq<string>)
    requires forall i :: 0 <= i < |ws| ==> IsWord(ws[i])
    ensures Words(JoinWords(ws)) == ws
  {
    if |ws| == 1 {
      WordsOfWord(ws[0]);
    } else if |ws| > 1 {
      var w := ws[0];
      var j := JoinWords(ws[1..]);
      JoinWordsCollapsed(ws[1..]);
      WordsOfJoinWords(ws[1..]);
      WordsOfWordSpaceText(w, j);
      assert ws == [w] + ws[1..];
    }
  }

  /** The cleaned text has no leading or trailing whitespace and no run of two
      whitespace characters. */
  lemma CleanIsCollapsed(s: string)
    ensures Collapsed(Clean(s))
  {
    CleanIsJoinedWords(s);
    WordsAreWords(s);
    JoinWordsCollapsed(Words(s));
  }

  /** Cleaning keeps exactly the words of the input. */
  lemma CleanKeepsWords(s: string)
    ensures Words(Clean(s)) == Words(s)
  {
    CleanIsJoinedWords(s);
    WordsAreWords(s);
    WordsOfJoinWords(Words(s));
  }

  /** Cleaning a cleaned text changes nothing. */
  lemma CleanIdempotent(s: string)
    ensures Clean(Clean(s)) == Clean(s)
  {
    CleanIsJoinedWords(s);
    CleanIsJoinedWords(Clean(s));
    WordsAreWords(s);
    WordsOfJoinWords(Words(s));
  }

  /** A single word comes out of `Clean` unchanged. */
  lemma CleanOfWord(w: string)
    requires IsWord(w)
    ensures Clean(w) == w
  {
    CleanIsJoinedWords(w);
    WordsOfWord(w);
  }

  /** A collapsed text has no line break in it. */
  lemma CollapsedHasNoNewline(r: string)
    requires Collapsed(r)
    ensures '\n' !in r
  {
    forall i | 0 <= i < |r|
      ensures r[i] != '\n'
    {
      if IsSpace(r[i]) {
        assert r[i] == ' ';
      }
    }
  }

  // ---------------------------------------------------------------------
  // split / join on a single separator character

  /** The position of the first `c` in `s`, or `|s|` when there is none. */
  function IndexOf(s: string, c: char): (i: nat)
    ensures i <= |s|
    ensures i < |s| ==> s[i] == c
    ensures forall j :: 0 <= j < i ==> s[j] != c
  {
    if |s| == 0 then 0
    else if s[0] == c then 0
    else 1 + IndexOf(s[1..], c)
  }

  /** `s.split(c)`: the pieces between occurrences of `c`, always at least one. */
  function Split(s: string, c: char): (parts: seq<string>)
    ensures |parts| >= 1
    decreases |s|
  {
    var i := IndexOf(s, c);
    if i == |s| then [s] else [s[..i]] + Split(s[i + 1..], c)
  }

  /** `parts.join(c)`. */
  function Join(parts: seq<string>, c: char): string {
    if |parts| == 0 then ""
    else if |parts| == 1 then parts[0]
    else parts[0] + [c] + Join(parts[1..], c)
  }

  /** Joining the pieces of a split gives the text back. */
  lemma {:induction false} JoinSplit(s: string, c: char)
    ensures Join(Split(s, c), c) == s
    decreases |s|
  {
    var i := IndexOf(s, c);
    if i < |s| {
      var rest := Split(s[i + 1..], c);
      JoinSplit(s[i + 1..], c);
      assert Split(s, c) == [s[..i]] + rest;
      assert ([s[..i]] + rest)[1..] == rest;
      assert s == s[..i] + [c] + s[i + 1..];
    }
  }

  /** A text without the separator is one piece. */
  lemma SplitNoSeparator(s: string, c: char)
    requires c !in s
    ensures Split(s, c) == [s]
  {
    assert forall k :: 0 <= k < |s| ==> s[k] != c;
  }

  /** The first separator cuts off the first piece. */
  lemma SplitFirst(a: string, b: string, c: char)
    requires c !in a
    ensures Split(a + [c] + b, c) == [a] + Split(b, c)
  {
    var s := a + [c] + b;
    var i := IndexOf(s, c);
    assert forall k :: 0 <= k < |a| ==> s[k] == a[k] && a[k] != c;
    assert s[|a|] == c;
    assert i == |a|;
    assert s[..i] == a;
    assert s[i + 1..] == b;
  }

  /** The first separator of a text cuts it into a separator-free head and a rest. */
  lemma CutAtFirst(a: string, c: char)
    requires IndexOf(a, c) < |a|
    ensures var i := IndexOf(a, c);
      a == a[..i] + [c] + a[i + 1..] && c !in a[..i]
  {
    var i := IndexOf(a, c);
    assert forall k :: 0 <= k < i ==> a[..i][k] == a[k];
  }

  lemma Regroup(x: string, y: string, b: string, c: char)
    ensures x + [c] + y + [c] + b == x + [c] + (y + [c] + b)
  {
  }

  /** Splitting around one separator splits each side. */
  lemma {:induction false} SplitConcat(a: string, b: string, c: char)
    ensures Split(a + [c] + b, c) == Split(a, c) + Split(b, c)
    decreases |a|
  {
    var i := IndexOf(a, c);
    if i == |a| {
      assert c !in a by { assert forall k :: 0 <= k < |a| ==> a[k] != c; }
      SplitFirst(a, b, c);
    } else {
      var x, y := a[..i], a[i + 1..];
      CutAtFirst(a, c);
      Regroup(x, y, b, c);
      SplitFirst(x, y + [c] + b, c);
      SplitConcat(y, b, c);
      assert Split(a, c) == [x] + Split(y, c);
      assert Split(a + [c] + b, c) == [x] + (Split(y, c) + Split(b, c));
    }
  }

  /** Splitting a join of separator-free pieces gives the pieces back. */
  lemma {:induction false} SplitJoin(parts: seq<string>, c: char)
    requires |parts| >= 1
    requires forall i :: 0 <= i < |parts| ==> c !in parts[i]
    ensures Split(Join(parts, c), c) == parts
  {
    if |parts| == 1 {
      SplitNoSeparator(parts[0], c);
    } else {
      SplitJoin(parts[1..], c);
      SplitFirst(parts[0], Join(parts[1..], c), c);
      assert parts == [parts[0]] + parts[1..];
    }
  }

  /** Joining two non-empty lists is joining each and putting one separator between. */
  lemma {:induction false} JoinAppend(a: seq<string>, b: seq<string>, c: char)
    requires |a| > 0 && |b| > 0
    ensures Join(a + b, c) == Join(a, c) + [c] + Join(b, c)
  {
    if |a| == 1 {
      assert (a + b)[1..] == b;
    } else {
      assert (a + b)[1..] == a[1..] + b;
      JoinAppend(a[1..], b, c);
    }
  }

  function StartsWith(s: string, prefix: string): bool {
    |prefix| <= |s| && s[..|prefix|] == prefix
  }

  /** `s.endsWith(suffix)`. */
  function EndsWith(s: string, suffix: string): bool {
    |suffix| <= |s| && s[|s| - |suffix|..] == suffix
  }

  /** A suffix no longer than the last part is decided by the last part. */
  lemma EndsWithAppend(a: string, b: string, suffix: string)
    requires |suffix| <= |b|
    ensures EndsWith(a + b, suffix) == EndsWith(b, suffix)
  {
    assert (a + b)[|a + b| - |suffix|..] == b[|b| - |suffix|..];
  }

  lemma StartsWithAppend(a: string, b: string)
    ensures StartsWith(a + b, a) && (a + b)[|a|..] == b
  {
    assert (a + b)[..|a|] == a;
  }

  /** Whether `s` is empty or all whitespace. */
  predicate Blank(s: string) {
    forall i :: 0 <= i < |s| ==> IsSpace(s[i])
  }

  lemma {:induction false} TrimStartBlank(s: string)
    ensures TrimStart(s) == "" <==> Blank(s)
    decreases |s|
  {
    if |s| > 0 && IsSpace(s[0]) {
      TrimStartBlank(s[1..]);
      assert Blank(s) <==> Blank(s[1..]) by {
        if Blank(s[1..]) {
          forall i | 0 <= i < |s| ensures IsSpace(s[i]) {
            if i > 0 { assert s[i] == s[1..][i - 1]; }
          }
        }
        if Blank(s) {
          forall i | 0 <= i < |s[1..]| ensures IsSpace(s[1..][i]) {
            assert s[1..][i] == s[i + 1];
          }
        }
      }
    } else if |s| > 0 {
      assert !IsSpace(s[0]);
    }
  }

  /** Trailing whitespace stops at a first character that is not whitespace. */
  lemma {:induction false} TrimEndKeepsHead(s: string)
    requires |s| > 0 && !IsSpace(s[0])
    ensures TrimEnd(s) != ""
    decreases |s|
  {
    if IsSpace(s[|s| - 1]) {
      assert |s| > 1;
      TrimEndKeepsHead(s[..|s| - 1]);
    }
  }

  /** `s.trim()` is empty exactly when `s` is blank. */
  lemma TrimEmptyIffBlank(s: string)
    ensures Trim(s) == "" <==> Blank(s)
  {
    TrimStartBlank(s);
    var t := TrimStart(s);
    if t != "" {
      TrimEndKeepsHead(t);
    }
  }

  // ---------------------------------------------------------------------
  // decimal numbers

  predicate IsDigit(c: char) {
    '0' <= c <= '9'
  }

  predicate AllDigits(s: string) {
    forall i :: 0 <= i < |s| ==> IsDigit(s[i])
  }

  function DigitChar(d: nat): (c: char)
    requires d < 10
    ensures IsDigit(c)
  {
    ('0' as int + d) as char
  }

  function DigitValue(c: char): nat
    requires IsDigit(c)
  {
    c as int - '0' as int
  }

  /** `String(n)` for a non-negative integer. */
  function NatToDecimal(n: nat): (s: string)
    ensures |s| >= 1 && AllDigits(s)
  {
    if n < 10 then [DigitChar(n)] else NatToDecimal(n / 10) + [DigitChar(n % 10)]
  }

  /** `String(i)` for an integer. */
  function IntToDecimal(i: int): string {
    if i < 0 then "-" + NatToDecimal(-i) else NatToDecimal(i)
  }

  function DigitsValue(s: string): nat
    requires AllDigits(s)
  {
    if |s| == 0 then 0 else 10 * DigitsValue(s[..|s| - 1]) + DigitValue(s[|s| - 1])
  }

  /** `Number(s) || 0` on plain decimal digit strings: their value; any other text reads as 0. */
  function NumberOrZero(s: string): nat {
    if |s| > 0 && AllDigits(s) then DigitsValue(s) else 0
  }

  lemma DigitsValueSnoc(p: string, d: nat)
    requires AllDigits(p) && d < 10
    ensures AllDigits(p + [DigitChar(d)])
    ensures DigitsValue(p + [DigitChar(d)]) == 10 * DigitsValue(p) + d
  {
    var s := p + [DigitChar(d)];
    assert s[..|s| - 1] == p;
  }

  /** Reading back the decimal rendering of a number gives the number. */
  lemma {:induction false} DecimalRoundTrip(n: nat)
    ensures NumberOrZero(NatToDecimal(n)) == n
  {
    if n >= 10 {
      DecimalRoundTrip(n / 10);
      DigitsValueSnoc(NatToDecimal(n / 10), n % 10);
    } else {
      DigitsValueSnoc("", n);
      assert "" + [DigitChar(n)] == NatToDecimal(n);
    }
  }

  /** A decimal rendering contains no underscore. */
  lemma DecimalHasNoUnderscore(n: nat)
    ensures '_' !in NatToDecimal(n)
  {
    var s := NatToDecimal(n);
    forall i | 0 <= i < |s|
      ensures s[i] != '_'
    {
      assert IsDigit(s[i]);
    }
  }

  // ---------------------------------------------------------------------
  // upper case

  /** `toUpperCase` on one character, for the ASCII range. */
  function UpperChar(c: char): char {
    if 'a' <= c <= 'z' then (c as int - 32) as char else c
  }

  function ToUpper(s: string): (r: string)
    ensures |r| == |s| && forall i :: 0 <= i < |s| ==> r[i] == UpperChar(s[i])
  {
    seq(|s|, i requires 0 <= i < |s| => UpperChar(s[i]))
  }
}

=== FILE: json.dfy ===
/** JSON values as the browser's `JSON.parse` hands them to the save service,
    the property reads the service performs on them, and JavaScript's
    truthiness. Parsing and printing are not modelled character by character:
    a `Codec` is any pair of functions, and the one law the model relies on is
    that parsing what was printed gives the value back. */
module Json {
  import Opt
  import JsText

  /** A JSON value. Numbers are integers; fractions and exponents are left out. */
  datatype Json =
    | JNull
    | JBool(b: bool)
    | JNum(n: int)
    | JStr(s: string)
    | JArr(items: seq<Json>)
    | JObj(fields: seq<(string, Json)>)

  /** What reading `v.key` gives: a value, `undefined`, or a `TypeError`. */
  datatype Prop = Throws | Undefined | Defined(value: Json)

  /** The value of the last field named `key`, which is the one `JSON.parse` keeps. */
  function Lookup(fields: seq<(string, Json)>, key: string): (p: Prop)
    ensures p != Throws
    ensures p.Defined? <==> exists i :: 0 <= i < |fields| && fields[i].0 == key
  {
    if |fields| == 0 then Undefined
    else
      var last := fields[|fields| - 1];
      if last.0 == key then Defined(last.1)
      else Lookup(fields[..|fields| - 1], key)
  }

  /** A field that no later field shadows is the one a lookup finds. */
  lemma {:induction false} LookupAt(fields: seq<(string, Json)>, i: nat, key: string)
    requires i < |fields| && fields[i].0 == key
    requires forall j :: i < j < |fields| ==> fields[j].0 != key
    ensures Lookup(fields, key) == Defined(fields[i].1)
    decreases |fields|
  {
    if i < |fields| - 1 {
      var init := fields[..|fields| - 1];
      assert forall j :: i < j < |init| ==> init[j] == fields[j];
      LookupAt(init, i, key);
    }
  }

  /** `v.key`: reading a property of `null` throws; a string, number, boolean or
      array has none of the property names the service reads. */
  function Get(v: Json, key: string): (p: Prop)
    ensures p == Throws <==> v == JNull
  {
    match v
    case JNull => Throws
    case JObj(fields) => Lookup(fields, key)
    case _ => Undefined
  }

  /** JavaScript truthiness of a JSON value. */
  predicate Truthy(v: Json) {
    match v
    case JNull => false
    case JBool(b) => b
    case JNum(n) => n != 0
    case JStr(s) => s != ""
    case JArr(_) => true
    case JObj(_) => true
  }

  /** `!!p` for a property read that did not throw. */
  predicate PropTruthy(p: Prop) {
    p.Defined? && Truthy(p.value)
  }

  /** `String(v)`: what a value reads as where the program expects text. */
  function JsString(v: Json): string {
    match v
    case JNull => "null"
    case JBool(b) => if b then "true" else "false"
    case JNum(n) => JsText.IntToDecimal(n)
    case JStr(s) => s
    case JArr(items) =>
      JsText.Join(seq(|items|, i requires 0 <= i < |items| =>
                        if items[i] == JNull then "" else JsString(items[i])), ',')
    case JObj(_) => "[object Object]"
  }

  /** `p || ''` read as text: a falsy or missing value gives the empty string. */
  function TextOr(p: Prop): (r: string)
    ensures p.Defined? && p.value.JStr? ==> r == p.value.s
    ensures !PropTruthy(p) ==> r == ""
  {
    if PropTruthy(p) then JsString(p.value) else ""
  }

  /** `JSON.parse` and `JSON.stringify`. A failing parse gives `None`. */
  datatype Codec = Codec(parse: string -> Opt.Option<Json>, stringify: Json -> string)

  /** Parsing the printed form of a value gives the value back, and no value
      prints as the empty string. */
  ghost predicate Lawful(c: Codec) {
    forall j :: c.stringify(j) != "" && c.parse(c.stringify(j)) == Opt.Some(j)
  }
}

=== FILE: live_audio.dfy ===
/** The live-session hook: the connect/disconnect flags, the playback queue
    guarded by `isPlaying`, the handler of incoming updates, and the history,
    summary and log mutators. Every asynchronous callback (a connect
    finishing, a decode failing, playback ending, an update arriving) is an
    explicit event applied to the hook's state. */
module LiveAudio {
  import Opt
  import JsText

  datatype LogKind = Info | Error | Tool | Success

  /** A diagnostic line of the hook. */
  datatype LogEntry = LogEntry(kind: LogKind, message: string)

  /** An entry of the conversation history. */
  datatype Turn = Turn(role: string, text: string)

  /** An audio fragment received from the model. */
  type Fragment = seq<bv8>

  /** The connection side of the hook: its two flags, and whether the API
      client, the live session and the microphone stream are held. */
  datatype Conn = Conn(isConnected: bool, isConnecting: bool, api: bool, session: bool, media: bool)

  /** The playback side: the queue, the `isPlaying` guard and whether an
      audio context is held. `dequeued` records, in order, the fragments
      taken off the queue for decoding, so that `dequeued + queue` is
      everything received and not dropped. */
  datatype Player = Player(queue: seq<Fragment>, isPlaying: bool, audioContext: bool, dequeued: seq<Fragment>)

  /** What the hook shows of the conversation. */
  datatype Talk = Talk(history: seq<Turn>, summary: string, isSearching: bool, isMuted: bool)

  /** The hook's state; `logs` is newest first. */
  datatype Live = Live(conn: Conn, player: Player, talk: Talk, logs: seq<LogEntry>)

  /** The state of a freshly mounted hook. */
  const Initial: Live := Live(Conn(false, false, false, false, false), Player([], false, false, []), Talk([], "", false, false), [])

  const ConnectingMessage: string := "Connecting using Gemini 2.0 Live API..."
  const InitializingMessage: string := "Initializing Gemini API..."
  const MissingKeyMessage: string := "VITE_GEMINI_API_KEY is not defined. Please add it to your .env file"
  const InitializedMessage: string := "Gemini API initialized."
  const MicGrantedMessage: string := "Microphone access granted."
  const ActiveMessage: string := "Connection active. Ready to stream audio."
  const DisconnectingMessage: string := "Disconnecting..."
  const DisconnectedMessage: string := "Disconnected."
  const DecodeErrorMessage: string := "Error decoding or playing audio"
  const LogsClearedMessage: string := "Logs cleared."

  // ---------------------------------------------------------------------
  // logs, history, summary

  /** `addLog`: the entry goes in front of the log; nothing else changes. */
  function AddLog(st: Live, message: string, kind: LogKind): (r: Live)
    ensures |r.logs| == |st.logs| + 1
    ensures r.logs[0] == LogEntry(kind, message) && r.logs[1..] == st.logs
    ensures r.conn == st.conn && r.player == st.player && r.talk == st.talk
  {
    st.(logs := [LogEntry(kind, message)] + st.logs)
  }

  /** `clearLogs`: the log is emptied, then the clearing itself is logged. */
  function ClearLogs(st: Live): (r: Live)
    ensures r.logs == [LogEntry(Info, LogsClearedMessage)]
    ensures r.conn == st.conn && r.player == st.player && r.talk == st.talk
  {
    AddLog(st.(logs := []), LogsClearedMessage, Info)
  }

  /** `clearHistory`. */
  function ClearHistory(st: Live): (r: Live)
    ensures r.talk.history == [] && r.talk.(history := st.talk.history) == st.talk
    ensures r.conn == st.conn && r.player == st.player && r.logs == st.logs
  {
    st.(talk := st.talk.(history := []))
  }

  /** `clearSummary`. */
  function ClearSummary(st: Live): (r: Live)
    ensures r.talk.summary == "" && r.talk.(summary := st.talk.summary) == st.talk
    ensures r.conn == st.conn && r.player == st.player && r.logs == st.logs
  {
    st.(talk := st.talk.(summary := ""))
  }

  /** `appendSummaryText`: the text goes at the end of the summary. */
  function AppendSummaryText(st: Live, text: string): (r: Live)
    ensures |r.talk.summary| == |st.talk.summary| + |text|
    ensures r.talk.summary[..|st.talk.summary|] == st.talk.summary && r.talk.summary[|st.talk.summary|..] == text
    ensures r.talk.(summary := st.talk.summary) == st.talk
    ensures r.conn == st.conn && r.player == st.player && r.logs == st.logs
  {
    st.(talk := st.talk.(summary := st.talk.summary + text))
  }

  /** `setIsMuted`. */
  function SetMuted(st: Live, muted: bool): (r: Live)
    ensures r.talk.isMuted == muted && r.talk.(isMuted := st.talk.isMuted) == st.talk
    ensures r.conn == st.conn && r.player == st.player && r.logs == st.logs
  {
    st.(talk := st.talk.(isMuted := muted))
  }

  /** `setMemoryScope`: only logs the scope. */
  function SetMemoryScope(st: Live, scope: string): (r: Live)
    ensures r.logs == [LogEntry(Info, "Memory scope set to: " + scope)] + st.logs
    ensures r.conn == st.conn && r.player == st.player && r.talk == st.talk
  {
    AddLog(st, "Memory scope set to: " + scope, Info)
  }

  /** `importHistory`: only logs the length of the text; the history is not
      touched. */
  function ImportHistory(st: Live, content: string): (r: Live)
    ensures r.logs == [LogEntry(Info, "History imported (length: " + JsText.NatToDecimal(|content|) + ")")] + st.logs
    ensures r.conn == st.conn && r.player == st.player && r.talk == st.talk
  {
    AddLog(st, "History imported (length: " + JsText.NatToDecimal(|content|) + ")", Info)
  }

  /** What `testMicrophone` resolves to. */
  datatype MicTest = MicTest(ok: bool, level: nat)

  /** `testMicrophone`: logs and reports a fixed result without touching the
      microphone. */
  function TestMicrophone(st: Live): (r: (Live, MicTest))
    ensures r.1 == MicTest(true, 75)
    ensures r.0.logs == [LogEntry(Tool, "Testing microphone...")] + st.logs
    ensures r.0.conn == st.conn && r.0.player == st.player && r.0.talk == st.talk
  {
    (AddLog(st, "Testing microphone...", Tool), MicTest(true, 75))
  }

  /** `resetMicrophone`: only logs. */
  function ResetMicrophone(st: Live): (r: Live)
    ensures r.logs == [LogEntry(Tool, "Microphone reset requested.")] + st.logs
    ensures r.conn == st.conn && r.player == st.player && r.talk == st.talk
  {
    AddLog(st, "Microphone reset requested.", Tool)
  }

  // ---------------------------------------------------------------------
  // connecting

  /** How the asynchronous part of `connect` ends: the microphone is refused,
      the live session cannot be opened, wiring the microphone to the session
      throws, or the connection opens. Each failure carries the error's
      message. */
  datatype Outcome = MicDenied(message: string) | SessionFailed(message: string) | PipeFailed(message: string) | Opened

  /** `initializeApi`, on the connection and the log: with no key, logs the
      error and fails; otherwise the client is created. */
  function InitializeApi(c: Conn, logs: seq<LogEntry>, apiKey: string): (r: (Conn, seq<LogEntry>, bool))
    ensures r.2 <==> apiKey != ""
    ensures r.0 == c.(api := c.api || apiKey != "")
    ensures r.1 == (if apiKey == "" then [LogEntry(Error, MissingKeyMessage)] else [LogEntry(Success, InitializedMessage)])
                   + [LogEntry(Tool, InitializingMessage)] + logs
  {
    var logs1 := [LogEntry(Tool, InitializingMessage)] + logs;
    if apiKey == "" then (c, [LogEntry(Error, MissingKeyMessage)] + logs1, false)
    else (c.(api := true), [LogEntry(Success, InitializedMessage)] + logs1, true)
  }

  /** The awaited part of `connect`, from `isConnecting` being set: each step
      that completes logs its success and holds its resource, a failure logs
      its message, and in every case the hook stops connecting. */
  function Attempt(c: Conn, logs: seq<LogEntry>, outcome: Outcome): (r: (Conn, seq<LogEntry>))
    ensures !r.0.isConnecting && r.0.api == c.api
    ensures r.0.isConnected == (c.isConnected || outcome.Opened?)
    ensures !outcome.MicDenied? ==> r.0.media
    ensures outcome.Opened? || outcome.PipeFailed? ==> r.0.session
    ensures |r.1| > |logs| && r.1[|r.1| - |logs|..] == logs
    ensures outcome.Opened? ==> r.1[0] == LogEntry(Success, ActiveMessage)
    ensures !outcome.Opened? ==> r.1[0] == LogEntry(Error, outcome.message)
  {
    var granted := [LogEntry(Success, MicGrantedMessage)] + logs;
    match outcome
    case MicDenied(m) => (c.(isConnecting := false), [LogEntry(Error, m)] + logs)
    case SessionFailed(m) => (c.(media := true, isConnecting := false), [LogEntry(Error, m)] + granted)
    case PipeFailed(m) => (c.(media := true, session := true, isConnecting := false), [LogEntry(Error, m)] + granted)
    case Opened => (c.(media := true, session := true, isConnected := true, isConnecting := false), [LogEntry(Success, ActiveMessage)] + granted)
  }

  /** `connect(systemInstruction)`, with the key the client is built with and
      how its awaited steps end. It always logs first; a hook that is already
      connecting or connected changes nothing else; the client is created
      when it is missing, and without a key the hook stays idle. The
      instruction is only passed on to the session, so it is not part of the
      state. Connecting never touches playback or the conversation. */
  function Connect(st: Live, apiKey: string, outcome: Outcome): (r: Live)
    ensures r.player == st.player && r.talk == st.talk
    ensures |r.logs| > |st.logs| && r.logs[|r.logs| - |st.logs|..] == st.logs
  {
    var logs1 := [LogEntry(Info, ConnectingMessage)] + st.logs;
    if st.conn.isConnecting || st.conn.isConnected then st.(logs := logs1)
    else
      var init := if st.conn.api then (st.conn, logs1, true) else InitializeApi(st.conn, logs1, apiKey);
      if !init.2 then st.(conn := init.0.(isConnecting := false), logs := init.1)
      else
        var r := Attempt(init.0.(isConnecting := true), init.1, outcome);
        st.(conn := r.0, logs := r.1)
  }

  /** `disconnect`: the session is closed, the microphone released, the
      audio context closed, the queue emptied and every flag cleared, between
      two log lines. The client and the conversation are kept. */
  function Disconnect(st: Live): (r: Live)
    ensures r.conn == Conn(false, false, st.conn.api, false, false)
    ensures r.player == Player([], false, false, st.player.dequeued)
    ensures r.logs == [LogEntry(Info, DisconnectedMessage), LogEntry(Info, DisconnectingMessage)] + st.logs
    ensures r.talk == st.talk
  {
    var st1 := AddLog(st, DisconnectingMessage, Info);
    var st2 := st1.(conn := Conn(false, false, st1.conn.api, false, false),
                    player := st1.player.(queue := [], isPlaying := false, audioContext := false));
    AddLog(st2, DisconnectedMessage, Info)
  }

  /** The session's `onError`: the error is logged, then the hook disconnects. */
  function OnError(st: Live, message: string): (r: Live)
    ensures r.conn == Conn(false, false, st.conn.api, false, false)
    ensures r.player == Player([], false, false, st.player.dequeued)
    ensures r.logs == [LogEntry(Info, DisconnectedMessage), LogEntry(Info, DisconnectingMessage),
                       LogEntry(Error, "Live API Error: " + message)] + st.logs
    ensures r.talk == st.talk
  {
    Disconnect(AddLog(st, "Live API Error: " + message, Error))
  }

  // ---------------------------------------------------------------------
  // playback

  /** `processAudioQueue` up to its `await`: nothing happens while a fragment
      is playing or when the queue is empty; otherwise the player starts
      playing, creates the audio context if there is none, and hands the
      head of the queue to the decoder. */
  function Next(p: Player): (r: Player)
    ensures p.isPlaying || p.queue == [] ==> r == p
    ensures !p.isPlaying && p.queue != [] ==>
      && r.isPlaying && r.audioContext
      && r.queue == p.queue[1..] && r.dequeued == p.dequeued + [p.queue[0]]
  {
    if p.isPlaying || p.queue == [] then p
    else Player(p.queue[1..], true, true, p.dequeued + [p.queue[0]])
  }

  /** Decoding or starting the fragment threw: the failure is logged, the hook
      stops playing and moves on to the next fragment. */
  function DecodeFailed(st: Live): (r: Live)
    ensures r.player == Next(st.player.(isPlaying := false))
    ensures r.logs == [LogEntry(Error, DecodeErrorMessage)] + st.logs
    ensures r.conn == st.conn && r.talk == st.talk
  {
    var st1 := AddLog(st, DecodeErrorMessage, Error);
    st1.(player := Next(st1.player.(isPlaying := false)))
  }

  /** The fragment finished playing (`onended`): the hook stops playing and
      moves on to the next fragment. */
  function Ended(st: Live): (r: Live)
    ensures r.player == Next(st.player.(isPlaying := false))
    ensures r.conn == st.conn && r.talk == st.talk && r.logs == st.logs
  {
    st.(player := Next(st.player.(isPlaying := false)))
  }

  /** An update from the session. A present value of a field is a truthy one. */
  datatype Update = Update(outputAudio: Opt.Option<Fragment>, transcription: string, isSearching: bool)

  /** The session's `onUpdate`: audio is queued at the tail and playback
      started; a non-empty transcription is added to the end of the history
      as the model's turn; `isSearching` is set only when the update's flag
      is set. */
  function OnUpdate(st: Live, u: Update): (r: Live)
    ensures u.outputAudio.Some? ==> r.player == Next(st.player.(queue := st.player.queue + [u.outputAudio.value]))
    ensures u.outputAudio.None? ==> r.player == st.player
    ensures |r.talk.history| == |st.talk.history| + (if u.transcription != "" then 1 else 0)
    ensures r.talk.history[..|st.talk.history|] == st.talk.history
    ensures u.transcription != "" ==> r.talk.history[|st.talk.history|] == Turn("model", u.transcription)
    ensures r.talk.isSearching == (st.talk.isSearching || u.isSearching)
    ensures r.talk.summary == st.talk.summary && r.talk.isMuted == st.talk.isMuted
    ensures r.conn == st.conn && r.logs == st.logs
  {
    var p := match u.outputAudio
      case Some(a) => Next(st.player.(queue := st.player.queue + [a]))
      case None => st.player;
    var h := if u.transcription != "" then st.talk.history + [Turn("model", u.transcription)] else st.talk.history;
    var searching := if u.isSearching then true else st.talk.isSearching;
    st.(player := p, talk := st.talk.(history := h, isSearching := searching))
  }

  // ---------------------------------------------------------------------
  // events and runs

  datatype Event =
    | ConnectEvent(apiKey: string, outcome: Outcome)
    | DisconnectEvent
    | ErrorEvent(message: string)
    | UpdateEvent(update: Update)
    | DecodeFailedEvent
    | EndedEvent
    | LogEvent(message: string, kind: LogKind)
    | ClearLogsEvent
    | ClearHistoryEvent
    | ClearSummaryEvent
    | AppendSummaryEvent(text: string)
    | MuteEvent(muted: bool)
    | MemoryScopeEvent(scope: string)
    | ImportHistoryEvent(content: string)
    | TestMicrophoneEvent
    | ResetMicrophoneEvent

  function Step(st: Live, e: Event): Live {
    match e
    case ConnectEvent(k, o) => Connect(st, k, o)
    case DisconnectEvent => Disconnect(st)
    case ErrorEvent(m) => OnError(st, m)
    case UpdateEvent(u) => OnUpdate(st, u)
    case DecodeFailedEvent => DecodeFailed(st)
    case EndedEvent => Ended(st)
    case LogEvent(m, k) => AddLog(st, m, k)
    case ClearLogsEvent => ClearLogs(st)
    case ClearHistoryEvent => ClearHistory(st)
    case ClearSummaryEvent => ClearSummary(st)
    case AppendSummaryEvent(t) => AppendSummaryText(st, t)
    case MuteEvent(b) => SetMuted(st, b)
    case MemoryScopeEvent(s) => SetMemoryScope(st, s)
    case ImportHistoryEvent(c) => ImportHistory(st, c)
    case TestMicrophoneEvent => TestMicrophone(st).0
    case ResetMicrophoneEvent => ResetMicrophone(st)
  }

  /** The state after the events, in order. */
  function Run(st: Live, es: seq<Event>): Live
    decreases |es|
  {
    if es == [] then st else Run(Step(st, es[0]), es[1..])
  }

  /** What the hook keeps true between events: it is never both connecting
      and connected; a connected hook holds its session and its microphone;
      a fragment waits in the queue only while another one is playing; and a
      playing hook has an audio context. */
  predicate Inv(st: Live) {
    && !(st.conn.isConnected && st.conn.isConnecting)
    && (st.conn.isConnected ==> st.conn.session && st.conn.media)
    && PlayerInv(st.player)
  }

  predicate PlayerInv(p: Player) {
    && (!p.isPlaying ==> p.queue == [])
    && (p.isPlaying ==> p.audioContext)
  }

  lemma InitialInv()
    ensures Inv(Initial)
  {
  }

  /** Stopping and taking the next fragment, as a decode failure and the end
      of playback do, keeps the player's invariant. */
  lemma NextAfterStopInv(p: Player)
    ensures PlayerInv(Next(p.(isPlaying := false)))
  {
  }

  /** Every event keeps the invariant. */
  lemma StepInv(st: Live, e: Event)
    requires Inv(st)
    ensures Inv(Step(st, e))
  {
    match e
    case ConnectEvent(k, o) =>
    case UpdateEvent(u) =>
    case DecodeFailedEvent => NextAfterStopInv(st.player);
    case EndedEvent => NextAfterStopInv(st.player);
    case _ =>
  }

  /** Every run keeps the invariant. */
  lemma {:induction false} RunInv(st: Live, es: seq<Event>)
    requires Inv(st)
    ensures Inv(Run(st, es))
    decreases |es|
  {
    if es != [] {
      StepInv(st, es[0]);
      RunInv(Step(st, es[0]), es[1..]);
    }
  }

  /** Everything received and not dropped: what was handed to the decoder,
      then what still waits. */
  function Received(st: Live): seq<Fragment> {
    st.player.dequeued + st.player.queue
  }

  /** The audio an event brings. */
  function AudioOf(e: Event): seq<Fragment> {
    if e.UpdateEvent? && e.update.outputAudio.Some? then [e.update.outputAudio.value] else []
  }

  /** The audio of a run of events, in order. */
  function AudioOfAll(es: seq<Event>): seq<Fragment>
    decreases |es|
  {
    if es == [] then [] else AudioOf(es[0]) + AudioOfAll(es[1..])
  }

  /** Whether an event drops the queue. */
  predicate Drops(e: Event) {
    e.DisconnectEvent? || e.ErrorEvent?
  }

  /** Whether no event of a run drops the queue. */
  predicate NoDrops(es: seq<Event>)
    decreases |es|
  {
    es == [] || (!Drops(es[0]) && NoDrops(es[1..]))
  }

  /** Taking the next fragment moves it from the queue to the decoded ones. */
  lemma NextKeepsReceived(p: Player)
    ensures Next(p).dequeued + Next(p).queue == p.dequeued + p.queue
  {
    if !p.isPlaying && p.queue != [] {
      assert p.dequeued + p.queue == p.dequeued + [p.queue[0]] + p.queue[1..];
    }
  }

  /** An event that does not drop the queue appends its audio, if any, at the
      end of what was received: the queue is first in, first out. */
  lemma StepFifo(st: Live, e: Event)
    requires !Drops(e)
    ensures Received(Step(st, e)) == Received(st) + AudioOf(e)
  {
    match e
    case UpdateEvent(u) =>
      if u.outputAudio.Some? {
        var q := st.player.(queue := st.player.queue + [u.outputAudio.value]);
        NextKeepsReceived(q);
      }
    case DecodeFailedEvent => NextKeepsReceived(st.player.(isPlaying := false));
    case EndedEvent => NextKeepsReceived(st.player.(isPlaying := false));
    case _ =>
  }

  /** Over a run with no disconnect, the fragments are taken for decoding in
      the order they arrived: what is received grows by exactly the run's
      audio. */
  lemma {:induction false} RunFifo(st: Live, es: seq<Event>)
    requires NoDrops(es)
    ensures Received(Run(st, es)) == Received(st) + AudioOfAll(es)
    decreases |es|
  {
    if es != [] {
      var e, rest := es[0], es[1..];
      StepFifo(st, e);
      RunFifo(Step(st, e), rest);
    }
  }

  /** `n` playback endings in a row. */
  function Endings(n: nat): (es: seq<Event>)
    ensures |es| == n && forall i :: 0 <= i < n ==> es[i] == EndedEvent
  {
    if n == 0 then [] else [EndedEvent] + Endings(n - 1)
  }

  /** A playing hook that sees one playback ending more than it has queued
      fragments plays all of them, in order, and then stops: nothing stays
      stuck in the queue. */
  lemma {:induction false} Drain(st: Live)
    requires Inv(st) && st.player.isPlaying
    ensures var r := Run(st, Endings(|st.player.queue| + 1));
      r.player.queue == [] && !r.player.isPlaying && r.player.dequeued == st.player.dequeued + st.player.queue
    decreases |st.player.queue|
  {
    var q := st.player.queue;
    var es := Endings(|q| + 1);
    var next := Step(st, es[0]);
    assert es[1..] == Endings(|q|);
    if q == [] {
      assert Run(next, []) == next;
    } else {
      StepInv(st, es[0]);
      Drain(next);
      assert st.player.dequeued + [q[0]] + q[1..] == st.player.dequeued + q;
    }
  }

  /** A decode failure never stalls the queue: like a normal ending, it takes
      the next fragment when there is one and leaves the hook idle when there
      is none. */
  lemma DecodeFailedMovesOn(st: Live)
    requires Inv(st)
    ensures var r := DecodeFailed(st);
      && r.logs[0] == LogEntry(Error, DecodeErrorMessage)
      && (st.player.queue != [] ==> r.player.isPlaying && r.player.queue == st.player.queue[1..]
                                    && r.player.dequeued == st.player.dequeued + [st.player.queue[0]])
      && (st.player.queue == [] ==> !r.player.isPlaying && r.player.queue == [])
  {
  }

  /** An arriving fragment goes to the tail of the queue; if nothing was
      playing, it is the one taken for decoding. */
  lemma UpdateQueuesAtTail(st: Live, u: Update)
    requires Inv(st) && u.outputAudio.Some?
    ensures var r := OnUpdate(st, u);
      if st.player.isPlaying
      then r.player.queue == st.player.queue + [u.outputAudio.value] && r.player.dequeued == st.player.dequeued
      else r.player.queue == [] && r.player.isPlaying && r.player.dequeued == st.player.dequeued + [u.outputAudio.value]
  {
  }

  // ---------------------------------------------------------------------
  // properties of connect and disconnect

  /** A hook already connecting or connected only logs the attempt. */
  lemma ConnectWhileBusy(st: Live, apiKey: string, outcome: Outcome)
    requires st.conn.isConnecting || st.conn.isConnected
    ensures Connect(st, apiKey, outcome) == st.(logs := [LogEntry(Info, ConnectingMessage)] + st.logs)
  {
  }

  /** Without a client and without a key, connecting logs the missing key and
      leaves the hook idle, holding nothing new. */
  lemma ConnectWithoutKey(st: Live, outcome: Outcome)
    requires !st.conn.isConnecting && !st.conn.isConnected && !st.conn.api
    ensures var r := Connect(st, "", outcome);
      && r.conn == st.conn
      && r.logs == [LogEntry(Error, MissingKeyMessage), LogEntry(Tool, InitializingMessage), LogEntry(Info, ConnectingMessage)] + st.logs
  {
  }

  /** An idle hook that can reach the API ends connected exactly when the
      connection opens; on any failure it ends neither connecting nor
      connected, with the error's message as the newest log line. */
  lemma ConnectResult(st: Live, apiKey: string, outcome: Outcome)
    requires !st.conn.isConnecting && !st.conn.isConnected && (st.conn.api || apiKey != "")
    ensures var r := Connect(st, apiKey, outcome);
      && !r.conn.isConnecting && r.conn.api
      && (r.conn.isConnected <==> outcome.Opened?)
      && (outcome.Opened? ==> r.conn.session && r.conn.media && r.logs[0] == LogEntry(Success, ActiveMessage))
      && (!outcome.Opened? ==> r.logs[0] == LogEntry(Error, outcome.message))
  {
  }

  /** Disconnecting twice is disconnecting once, apart from two more log lines. */
  lemma DisconnectIdempotent(st: Live)
    ensures var once := Disconnect(st);
      Disconnect(once) == once.(logs := [LogEntry(Info, DisconnectedMessage), LogEntry(Info, DisconnectingMessage)] + once.logs)
  {
  }
}

=== FILE: opt.dfy ===
/** The optional value used wherever the source has `undefined`, `null` or a
    caught exception in place of a result. */
module Opt {

  datatype Option<+T> = None | Some(value: T) {

    /** The value, or `default` when there is none. */
    function GetOr(default: T): T {
      match this
      case Some(v) => v
      case None => default
    }
  }
}

=== FILE: save_entries.dfy ===
/** Save files on the device: how an automatic save is named, how a directory
    listing is read back into save entries, the newest-first order, and the
    rotation that keeps the 100 newest. */
module SaveEntries {
  import Opt
  import opened JsText

  const RootDir: string := "ExtremeSaving"

  /** Rotation keeps this many newest saves per agent. */
  const MaxSaves: nat := 100

  /** The directory of one agent's saves. */
  function AgentDir(agentId: string): string {
    RootDir + "/Agent_" + agentId
  }

  datatype Encoding = Utf8 | Base64

  /** A file in an agent's directory: its name, the text it was written
      from, the encoding it was written with, and its size in bytes as the
      directory listing reports it. */
  datatype StoredFile = StoredFile(name: string, data: string, encoding: Encoding, size: nat)

  /** The number of bytes a text takes in UTF-8: one to four per character,
      by its code point. */
  function Utf8Size(s: string): nat
    decreases |s|
  {
    if s == [] then 0
    else
      var c := s[0] as int;
      (if c < 0x80 then 1 else if c < 0x800 then 2 else if c < 0x1_0000 then 3 else 4) + Utf8Size(s[1..])
  }

  /** The number of bytes a padded base64 text decodes to: three per group of
      four characters, less one per trailing `=`. */
  function Base64Size(s: string): nat {
    var pad := if EndsWith(s, "==") then 2 else if EndsWith(s, "=") then 1 else 0;
    var full := (|s| / 4) * 3;
    if full >= pad then full - pad else 0
  }

  /** The size on disk of a text written with an encoding: UTF-8 text is
      stored as its UTF-8 bytes, base64 text as the bytes it decodes to. */
  function DiskSize(data: string, enc: Encoding): nat {
    match enc
    case Utf8 => Utf8Size(data)
    case Base64 => Base64Size(data)
  }

  /** A file as a write leaves it, its size being that of its data on disk. */
  function WrittenFile(name: string, data: string, enc: Encoding): (f: StoredFile)
    ensures f.name == name && f.data == data && f.encoding == enc
    ensures f.size == DiskSize(data, enc)
  {
    StoredFile(name, data, enc, DiskSize(data, enc))
  }

  /** A text takes at least one byte per character and at most four, and
      exactly one per character when every character is ASCII. */
  lemma {:induction false} Utf8SizeBounds(s: string)
    ensures |s| <= Utf8Size(s) <= 4 * |s|
    ensures Utf8Size(s) == |s| <==> forall i :: 0 <= i < |s| ==> s[i] as int < 0x80
    decreases |s|
  {
    if s != [] {
      Utf8SizeBounds(s[1..]);
      assert forall i :: 1 <= i < |s| ==> s[i] == s[1..][i - 1];
    }
  }

  /** `Réponse` has seven characters and takes eight bytes: `é` takes two. */
  lemma ReponseSize()
    ensures |"Réponse"| == 7 && Utf8Size("Réponse") == 8
  {
  }

  /** `SGk=` is the base64 of the two bytes of `Hi`. */
  lemma Base64SizeExample()
    ensures Base64Size("SGk=") == 2 && Base64Size("SGk") == 0 && Base64Size("SGVsbG8h") == 6
  {
  }

  /** One listed save. `size` is the file's size in bytes. */
  datatype SaveEntry = SaveEntry(
    agentId: string,
    fileName: string,
    createdAt: nat,
    saveMethod: string,
    compressed: bool,
    encrypted: bool,
    size: nat)

  // ---------------------------------------------------------------------
  // naming

  /** The extension of an automatic save: `enc` for an encrypted one whether
      or not it was compressed first, `txt.gz` for a compressed one, else `txt`. */
  function Extension(compressed: bool, encrypted: bool): string {
    if encrypted then "enc" else if compressed then "txt.gz" else "txt"
  }

  /** `<millis>_<agentId>_auto.<ext>`. */
  function AutoFileName(now: nat, agentId: string, compressed: bool, encrypted: bool): string {
    NatToDecimal(now) + "_" + agentId + "_" + "auto." + Extension(compressed, encrypted)
  }

  // ---------------------------------------------------------------------
  // reading a listing

  /** What a listed file is read as: the first `_`-separated piece as the
      creation time (0 when it is not a number), the third piece as the
      method (`auto` when there is none or it is empty), `.gz` or `.txt.gz`
      as compressed and `.enc` as encrypted. */
  function ParseEntry(agentId: string, f: StoredFile): SaveEntry {
    var parts := Split(f.name, '_');
    SaveEntry(
      agentId,
      f.name,
      NumberOrZero(parts[0]),
      if |parts| > 2 && parts[2] != "" then parts[2] else "auto",
      EndsWith(f.name, ".gz") || EndsWith(f.name, ".txt.gz"),
      EndsWith(f.name, ".enc"),
      f.size)
  }

  function ParseAll(agentId: string, files: seq<StoredFile>): (es: seq<SaveEntry>)
    ensures |es| == |files|
    ensures forall i :: 0 <= i < |files| ==> es[i] == ParseEntry(agentId, files[i])
    ensures forall i :: 0 <= i < |files| ==> es[i].fileName == files[i].name
  {
    seq(|files|, i requires 0 <= i < |files| => ParseEntry(agentId, files[i]))
  }

  lemma ExtensionSuffixes(compressed: bool, encrypted: bool)
    ensures var ext := "auto." + Extension(compressed, encrypted);
      && |ext| >= 7
      && (EndsWith(ext, ".enc") <==> encrypted)
      && (EndsWith(ext, ".gz") <==> !encrypted && compressed)
      && (EndsWith(ext, ".txt.gz") <==> !encrypted && compressed)
      && '_' !in ext
  {
    var ext := "auto." + Extension(compressed, encrypted);
    if encrypted {
      assert ext == "auto.enc";
      assert ext[|ext| - 3..] == "enc";
      assert ext[|ext| - 7..] == "uto.enc";
    } else if compressed {
      assert ext == "auto.txt.gz";
      assert ext[|ext| - 4..] == "t.gz";
      assert ext[|ext| - 3..] == ".gz";
      assert ext[|ext| - 7..] == ".txt.gz";
    } else {
      assert ext == "auto.txt";
      assert ext[|ext| - 3..] == "txt";
      assert ext[|ext| - 4..] == ".txt";
      assert ext[|ext| - 7..] == "uto.txt";
    }
  }

  lemma Assoc5(d: string, a: string, r: string)
    ensures d + "_" + a + "_" + r == d + ['_'] + (a + ['_'] + r)
  {
    assert "_" == ['_'];
    assert d + ['_'] + a + ['_'] + r == (d + ['_']) + (a + ['_'] + r);
  }

  /** The pieces of `<d>_<agentId>_<rest>` when none of them holds `_`. */
  lemma ThreePieces(d: string, agentId: string, rest: string)
    requires '_' !in d && '_' !in agentId && '_' !in rest
    ensures Split(d + "_" + agentId + "_" + rest, '_') == [d, agentId, rest]
  {
    var t := agentId + ['_'] + rest;
    Assoc5(d, agentId, rest);
    SplitFirst(d, t, '_');
    SplitFirst(agentId, rest, '_');
    SplitNoSeparator(rest, '_');
  }

  lemma AutoNamePieces(now: nat, agentId: string, compressed: bool, encrypted: bool)
    requires '_' !in agentId
    ensures Split(AutoFileName(now, agentId, compressed, encrypted), '_')
         == [NatToDecimal(now), agentId, "auto." + Extension(compressed, encrypted)]
  {
    var d := NatToDecimal(now);
    var ext := "auto." + Extension(compressed, encrypted);
    DecimalHasNoUnderscore(now);
    ExtensionSuffixes(compressed, encrypted);
    assert AutoFileName(now, agentId, compressed, encrypted) == d + "_" + agentId + "_" + ext;
    ThreePieces(d, agentId, ext);
  }

  /** The suffix tests see only the extension part of an automatic name. */
  lemma AutoNameSuffixes(now: nat, agentId: string, compressed: bool, encrypted: bool)
    ensures var name := AutoFileName(now, agentId, compressed, encrypted);
      && (EndsWith(name, ".enc") <==> encrypted)
      && (EndsWith(name, ".gz") || EndsWith(name, ".txt.gz") <==> compressed && !encrypted)
  {
    var pre := NatToDecimal(now) + "_" + agentId + "_";
    var ext := "auto." + Extension(compressed, encrypted);
    ExtensionSuffixes(compressed, encrypted);
    assert AutoFileName(now, agentId, compressed, encrypted) == pre + ext;
    EndsWithAppend(pre, ext, ".enc");
    EndsWithAppend(pre, ext, ".gz");
    EndsWithAppend(pre, ext, ".txt.gz");
  }

  /** The first piece of an automatic save's name is its clock value, whatever
      the agent id. */
  lemma AutoNameTime(now: nat, agentId: string, compressed: bool, encrypted: bool)
    ensures Split(AutoFileName(now, agentId, compressed, encrypted), '_')[0] == NatToDecimal(now)
  {
    var d := NatToDecimal(now);
    var ext := "auto." + Extension(compressed, encrypted);
    DecimalHasNoUnderscore(now);
    assert AutoFileName(now, agentId, compressed, encrypted) == d + "_" + agentId + "_" + ext;
    Assoc5(d, agentId, ext);
    SplitFirst(d, agentId + ['_'] + ext, '_');
  }

  /** How an automatic save's own name reads back: the creation time is the
      clock value it was named with, it is flagged encrypted exactly when it
      was encrypted, and flagged compressed only when it was compressed and
      not encrypted. */
  lemma ParseAutoName(now: nat, agentId: string, compressed: bool, encrypted: bool, data: string, enc: Encoding, size: nat)
    ensures var e := ParseEntry(agentId, StoredFile(AutoFileName(now, agentId, compressed, encrypted), data, enc, size));
      && e.createdAt == now
      && e.encrypted == encrypted
      && e.compressed == (compressed && !encrypted)
      && e.fileName == AutoFileName(now, agentId, compressed, encrypted)
      && e.size == size
  {
    AutoNameTime(now, agentId, compressed, encrypted);
    AutoNameSuffixes(now, agentId, compressed, encrypted);
    DecimalRoundTrip(now);
  }

  /** For an agent id without `_` the method read back is the last piece with
      its extension still on: `auto.txt`, `auto.txt.gz` or `auto.enc`, never
      the `auto` the save was made with. */
  lemma ParseAutoMethod(now: nat, agentId: string, compressed: bool, encrypted: bool, data: string, enc: Encoding, size: nat)
    requires '_' !in agentId
    ensures ParseEntry(agentId, StoredFile(AutoFileName(now, agentId, compressed, encrypted), data, enc, size)).saveMethod
      == "auto." + Extension(compressed, encrypted)
    ensures ParseEntry(agentId, StoredFile(AutoFileName(now, agentId, compressed, encrypted), data, enc, size)).saveMethod != "auto"
  {
    AutoNamePieces(now, agentId, compressed, encrypted);
  }

  /** For the agent id `onesta_coach` the pieces shift and the method read
      back is `coach`. */
  lemma SplitAround(x: string, y: string)
    ensures Split(x + "_" + y, '_') == Split(x, '_') + Split(y, '_')
  {
    assert x + "_" + y == x + ['_'] + y;
    SplitConcat(x, y, '_');
  }

  /** The pieces of `<d>_<a>_<b>_<rest>` when none of them holds `_`. */
  lemma FourPieces(d: string, a: string, b: string, rest: string)
    requires '_' !in d && '_' !in a && '_' !in b && '_' !in rest
    ensures Split(d + "_" + (a + "_" + b) + "_" + rest, '_') == [d, a, b, rest]
  {
    var id := a + "_" + b;
    SplitAround(a, b);
    SplitAround(d, id);
    SplitAround(d + "_" + id, rest);
    SplitNoSeparator(d, '_');
    SplitNoSeparator(a, '_');
    SplitNoSeparator(b, '_');
    SplitNoSeparator(rest, '_');
  }

  lemma OnestaPieces(now: nat, compressed: bool, encrypted: bool)
    ensures Split(AutoFileName(now, "onesta_coach", compressed, encrypted), '_')
         == [NatToDecimal(now), "onesta", "coach", "auto." + Extension(compressed, encrypted)]
  {
    var d := NatToDecimal(now);
    var ext := "auto." + Extension(compressed, encrypted);
    DecimalHasNoUnderscore(now);
    ExtensionSuffixes(compressed, encrypted);
    assert "onesta_coach" == "onesta" + "_" + "coach";
    assert AutoFileName(now, "onesta_coach", compressed, encrypted) == d + "_" + ("onesta" + "_" + "coach") + "_" + ext;
    FourPieces(d, "onesta", "coach", ext);
  }

  lemma OnestaCoachMethod(now: nat, compressed: bool, encrypted: bool, data: string, enc: Encoding, size: nat)
    ensures ParseEntry("onesta_coach", StoredFile(AutoFileName(now, "onesta_coach", compressed, encrypted), data, enc, size)).saveMethod
      == "coach"
  {
    OnestaPieces(now, compressed, encrypted);
  }

  // ---------------------------------------------------------------------
  // corrected naming

  /** An extension that records both steps: `txt.gz.enc` for a save that was
      compressed and then encrypted. */
  function CorrectedExtension(compressed: bool, encrypted: bool): string {
    if compressed && encrypted then "txt.gz.enc" else Extension(compressed, encrypted)
  }

  function CorrectedFileName(now: nat, agentId: string, compressed: bool, encrypted: bool): string {
    NatToDecimal(now) + "_" + agentId + "_" + "auto." + CorrectedExtension(compressed, encrypted)
  }

  /** The method as the word before the extension of the last `_`-separated
      piece, `auto` when that word is empty. */
  function CorrectedMethod(name: string): string {
    var parts := Split(name, '_');
    var word := Split(parts[|parts| - 1], '.')[0];
    if word == "" then "auto" else word
  }

  /** The listing parse that reads the corrected names: `.gz` before `.enc`
      also marks a compressed save. */
  function ParseEntryCorrected(agentId: string, f: StoredFile): SaveEntry {
    SaveEntry(
      agentId,
      f.name,
      NumberOrZero(Split(f.name, '_')[0]),
      CorrectedMethod(f.name),
      EndsWith(f.name, ".gz") || EndsWith(f.name, ".gz.enc"),
      EndsWith(f.name, ".enc"),
      f.size)
  }

  lemma BothSuffixes()
    ensures var ext := "auto.txt.gz.enc";
      && EndsWith(ext, ".enc") && EndsWith(ext, ".gz.enc") && '_' !in ext
  {
    var ext := "auto.txt.gz.enc";
    assert ext[|ext| - 4..] == ".enc";
    assert ext[|ext| - 7..] == ".gz.enc";
  }

  lemma NoGzEnc(ext: string)
    requires ext == "auto.enc" || ext == "auto.txt.gz" || ext == "auto.txt"
    ensures !EndsWith(ext, ".gz.enc")
  {
    assert ext[|ext| - 7] != '.' || ext[|ext| - 1] != 'c';
  }

  lemma CorrectedSuffixes(compressed: bool, encrypted: bool)
    ensures var ext := "auto." + CorrectedExtension(compressed, encrypted);
      && (EndsWith(ext, ".enc") <==> encrypted)
      && (EndsWith(ext, ".gz") || EndsWith(ext, ".gz.enc") <==> compressed)
      && '_' !in ext
      && ext == "auto" + ['.'] + CorrectedExtension(compressed, encrypted)
  {
    var x := CorrectedExtension(compressed, encrypted);
    var ext := "auto." + x;
    if compressed && encrypted {
      assert ext == "auto.txt.gz.enc";
      BothSuffixes();
      assert !EndsWith(ext, ".gz") by { assert ext[|ext| - 1] == 'c'; }
    } else {
      ExtensionSuffixes(compressed, encrypted);
      NoGzEnc(ext);
    }
  }

  /** The first piece of a corrected name is its clock value and the last is
      `auto.<ext>`, whatever the agent id. */
  lemma CorrectedPieces(now: nat, agentId: string, compressed: bool, encrypted: bool)
    ensures var parts := Split(CorrectedFileName(now, agentId, compressed, encrypted), '_');
      && parts[0] == NatToDecimal(now)
      && parts[|parts| - 1] == "auto." + CorrectedExtension(compressed, encrypted)
  {
    var d := NatToDecimal(now);
    var ext := "auto." + CorrectedExtension(compressed, encrypted);
    DecimalHasNoUnderscore(now);
    CorrectedSuffixes(compressed, encrypted);
    assert CorrectedFileName(now, agentId, compressed, encrypted) == (d + "_" + agentId) + "_" + ext;
    SplitAround(d + "_" + agentId, ext);
    SplitAround(d, agentId);
    SplitNoSeparator(d, '_');
    SplitNoSeparator(ext, '_');
  }

  lemma AutoWord(x: string)
    ensures Split("auto" + ['.'] + x, '.')[0] == "auto"
  {
    SplitFirst("auto", x, '.');
  }

  lemma CorrectedMethodAuto(now: nat, agentId: string, compressed: bool, encrypted: bool)
    ensures CorrectedMethod(CorrectedFileName(now, agentId, compressed, encrypted)) == "auto"
  {
    var x := CorrectedExtension(compressed, encrypted);
    var parts := Split(CorrectedFileName(now, agentId, compressed, encrypted), '_');
    CorrectedPieces(now, agentId, compressed, encrypted);
    CorrectedSuffixes(compressed, encrypted);
    assert parts[|parts| - 1] == "auto" + ['.'] + x;
    AutoWord(x);
  }

  lemma CorrectedNameSuffixes(now: nat, agentId: string, compressed: bool, encrypted: bool)
    ensures var name := CorrectedFileName(now, agentId, compressed, encrypted);
      && (EndsWith(name, ".enc") <==> encrypted)
      && (EndsWith(name, ".gz") || EndsWith(name, ".gz.enc") <==> compressed)
  {
    var pre := NatToDecimal(now) + "_" + agentId + "_";
    var ext := "auto." + CorrectedExtension(compressed, encrypted);
    CorrectedSuffixes(compressed, encrypted);
    assert CorrectedFileName(now, agentId, compressed, encrypted) == pre + ext;
    EndsWithAppend(pre, ext, ".enc");
    EndsWithAppend(pre, ext, ".gz");
    EndsWithAppend(pre, ext, ".gz.enc");
  }

  /** Every field of a corrected name reads back as it was saved, whatever the
      agent id: the clock value, the method `auto`, and both flags. */
  lemma ParseCorrectedName(now: nat, agentId: string, compressed: bool, encrypted: bool, data: string, enc: Encoding, size: nat)
    ensures var e := ParseEntryCorrected(agentId, StoredFile(CorrectedFileName(now, agentId, compressed, encrypted), data, enc, size));
      && e.createdAt == now
      && e.saveMethod == "auto"
      && e.encrypted == encrypted
      && e.compressed == compressed
      && e.fileName == CorrectedFileName(now, agentId, compressed, encrypted)
  {
    CorrectedPieces(now, agentId, compressed, encrypted);
    CorrectedMethodAuto(now, agentId, compressed, encrypted);
    CorrectedNameSuffixes(now, agentId, compressed, encrypted);
    DecimalRoundTrip(now);
  }

  // ---------------------------------------------------------------------
  // newest-first order

  /** Non-increasing creation times. */
  ghost predicate NewestFirst(es: seq<SaveEntry>) {
    forall i, j :: 0 <= i < j < |es| ==> es[i].createdAt >= es[j].createdAt
  }

  /** `e` placed before the first entry that is not newer than it. */
  function Insert(e: SaveEntry, es: seq<SaveEntry>): (r: seq<SaveEntry>)
    ensures |r| == |es| + 1
    ensures multiset(r) == multiset(es) + multiset{e}
  {
    if |es| == 0 then [e]
    else if es[0].createdAt <= e.createdAt then [e] + es
    else
      assert es == [es[0]] + es[1..];
      [es[0]] + Insert(e, es[1..])
  }

  /** Inserting an entry no newer than a bound into entries no newer than it
      gives entries no newer than it. */
  lemma {:induction false} InsertBounded(e: SaveEntry, es: seq<SaveEntry>, b: nat)
    requires e.createdAt <= b
    requires forall i :: 0 <= i < |es| ==> es[i].createdAt <= b
    ensures forall i :: 0 <= i < |es| + 1 ==> Insert(e, es)[i].createdAt <= b
  {
    if |es| > 0 && es[0].createdAt > e.createdAt {
      InsertBounded(e, es[1..], b);
      var r := Insert(e, es);
      assert forall i :: 1 <= i < |r| ==> r[i] == Insert(e, es[1..])[i - 1];
    }
  }

  /** Inserting into a newest-first list keeps it newest first. */
  lemma {:induction false} InsertNewestFirst(e: SaveEntry, es: seq<SaveEntry>)
    requires NewestFirst(es)
    ensures NewestFirst(Insert(e, es))
  {
    if |es| > 0 && es[0].createdAt > e.createdAt {
      var rest := Insert(e, es[1..]);
      InsertNewestFirst(e, es[1..]);
      var r := Insert(e, es);
      assert r == [es[0]] + rest;
      InsertBounded(e, es[1..], es[0].createdAt);
      forall i, j | 0 <= i < j < |r|
        ensures r[i].createdAt >= r[j].createdAt
      {
        assert r[j] == rest[j - 1];
        if i > 0 {
          assert r[i] == rest[i - 1];
        }
      }
    } else if |es| > 0 {
      var r := Insert(e, es);
      forall i, j | 0 <= i < j < |r|
        ensures r[i].createdAt >= r[j].createdAt
      {
        assert r[j] == es[j - 1];
        if i > 0 {
          assert r[i] == es[i - 1];
        }
      }
    }
  }

  /** The stable sort by `b.createdAt - a.createdAt`: newest first, entries
      with equal times in their listed order. */
  function SortNewestFirst(es: seq<SaveEntry>): (r: seq<SaveEntry>)
    ensures |r| == |es|
    ensures multiset(r) == multiset(es)
    ensures NewestFirst(r)
  {
    if |es| == 0 then []
    else
      assert es == [es[0]] + es[1..];
      var rest := SortNewestFirst(es[1..]);
      InsertNewestFirst(es[0], rest);
      Insert(es[0], rest)
  }

  /** The entries with creation time `t`, in order. */
  function WithTime(es: seq<SaveEntry>, t: nat): seq<SaveEntry> {
    if |es| == 0 then []
    else if es[0].createdAt == t then [es[0]] + WithTime(es[1..], t)
    else WithTime(es[1..], t)
  }

  lemma {:induction false} InsertWithTime(e: SaveEntry, es: seq<SaveEntry>, t: nat)
    ensures WithTime(Insert(e, es), t) == if e.createdAt == t then [e] + WithTime(es, t) else WithTime(es, t)
  {
    if |es| > 0 && es[0].createdAt > e.createdAt {
      InsertWithTime(e, es[1..], t);
      var r := Insert(e, es);
      assert r[1..] == Insert(e, es[1..]);
    } else if |es| > 0 {
      assert ([e] + es)[1..] == es;
    }
  }

  /** Sorting keeps entries with equal creation times in their listed order. */
  lemma {:induction false} SortStable(es: seq<SaveEntry>, t: nat)
    ensures WithTime(SortNewestFirst(es), t) == WithTime(es, t)
  {
    if |es| > 0 {
      SortStable(es[1..], t);
      InsertWithTime(es[0], SortNewestFirst(es[1..]), t);
    }
  }

  // ---------------------------------------------------------------------
  // listing

  /** The device's document storage: whether the app runs natively, and the
      files of each directory. */
  datatype FileSystem = FileSystem(native: bool, dirs: map<string, seq<StoredFile>>)

  /** `listAgentSaves`: off the device, or when the directory cannot be read,
      no entries; otherwise every file read as an entry, newest first. */
  function ListAgentSaves(fs: FileSystem, agentId: string): (r: seq<SaveEntry>)
    ensures !fs.native || AgentDir(agentId) !in fs.dirs ==> r == []
    ensures fs.native && AgentDir(agentId) in fs.dirs ==>
      && multiset(r) == multiset(ParseAll(agentId, fs.dirs[AgentDir(agentId)]))
      && NewestFirst(r)
  {
    if fs.native && AgentDir(agentId) in fs.dirs
    then SortNewestFirst(ParseAll(agentId, fs.dirs[AgentDir(agentId)]))
    else []
  }

  // ---------------------------------------------------------------------
  // rotation

  function FileNames(files: seq<StoredFile>): set<string> {
    if |files| == 0 then {} else {files[0].name} + FileNames(files[1..])
  }

  function EntryNames(es: seq<SaveEntry>): set<string> {
    if |es| == 0 then {} else {es[0].fileName} + EntryNames(es[1..])
  }

  /** A directory never holds two files of one name. */
  ghost predicate DistinctFileNames(files: seq<StoredFile>) {
    forall i, j :: 0 <= i < j < |files| ==> files[i].name != files[j].name
  }

  /** No entry's name recurs later in the list. */
  ghost predicate DistinctEntryNames(es: seq<SaveEntry>) {
    |es| == 0 || (es[0].fileName !in EntryNames(es[1..]) && DistinctEntryNames(es[1..]))
  }

  lemma {:induction false} EntryNamesAppend(a: seq<SaveEntry>, b: seq<SaveEntry>)
    ensures EntryNames(a + b) == EntryNames(a) + EntryNames(b)
  {
    if |a| > 0 {
      assert (a + b)[1..] == a[1..] + b;
      EntryNamesAppend(a[1..], b);
    } else {
      assert a + b == b;
    }
  }

  lemma EntryNamesCons(e: SaveEntry, es: seq<SaveEntry>)
    ensures EntryNames([e] + es) == {e.fileName} + EntryNames(es)
  {
    assert ([e] + es)[1..] == es;
  }


  /** A name no entry carries is not a name of the list. */
  lemma {:induction false} NameAbsent(es: seq<SaveEntry>, n: string)
    requires forall i :: 0 <= i < |es| ==> es[i].fileName != n
    ensures n !in EntryNames(es)
  {
    if |es| > 0 {
      assert forall i :: 0 <= i < |es[1..]| ==> es[1..][i] == es[i + 1];
      NameAbsent(es[1..], n);
    }
  }

  /** `entries.slice(100)`. */
  function Overflow(es: seq<SaveEntry>): seq<SaveEntry> {
    if |es| <= MaxSaves then [] else es[MaxSaves..]
  }

  /** The entries rotation leaves alone: the first 100. */
  function Kept(es: seq<SaveEntry>): seq<SaveEntry> {
    if |es| <= MaxSaves then es else es[..MaxSaves]
  }

  /** The files whose names are not in `gone`, in order. */
  function RemoveNamed(files: seq<StoredFile>, gone: set<string>): (r: seq<StoredFile>)
    ensures FileNames(r) == FileNames(files) - gone
  {
    if |files| == 0 then []
    else
      var rest := RemoveNamed(files[1..], gone);
      if files[0].name in gone then rest
      else
        var r := [files[0]] + rest;
        assert r[1..] == rest;
        r
  }

  /** The files kept are exactly those whose names are not in `gone`. */
  lemma {:induction false} RemoveNamedMembers(files: seq<StoredFile>, gone: set<string>)
    ensures forall f :: f in RemoveNamed(files, gone) <==> f in files && f.name !in gone
  {
    if |files| > 0 {
      RemoveNamedMembers(files[1..], gone);
      assert forall f :: f in files <==> f == files[0] || f in files[1..];
    }
  }

  lemma {:induction false} RemoveNamedTwice(files: seq<StoredFile>, a: set<string>, b: set<string>)
    ensures RemoveNamed(RemoveNamed(files, a), b) == RemoveNamed(files, a + b)
  {
    if |files| > 0 {
      RemoveNamedTwice(files[1..], a, b);
      if files[0].name !in a {
        var r := RemoveNamed(files, a);
        assert r[1..] == RemoveNamed(files[1..], a);
      }
    }
  }

  /** What rotation leaves of an agent's files: every file named by a listed
      entry past the 100th is deleted, except those whose deletion fails. */
  function Rotate(files: seq<StoredFile>, agentId: string, undeletable: set<string>): seq<StoredFile> {
    var entries := SortNewestFirst(ParseAll(agentId, files));
    RemoveNamed(files, EntryNames(Overflow(entries)) - undeletable)
  }

  lemma RotateStep(files: seq<StoredFile>, ov: seq<SaveEntry>, i: nat, undeletable: set<string>)
    requires i < |ov|
    ensures var before := RemoveNamed(files, EntryNames(ov[..i]) - undeletable);
      RemoveNamed(files, EntryNames(ov[..i + 1]) - undeletable)
        == if ov[i].fileName in undeletable then before else RemoveNamed(before, {ov[i].fileName})
  {
    assert ov[..i + 1] == ov[..i] + [ov[i]];
    EntryNamesAppend(ov[..i], [ov[i]]);
    assert EntryNames([ov[i]]) == {ov[i].fileName};
    var a := EntryNames(ov[..i]) - undeletable;
    if ov[i].fileName in undeletable {
      assert EntryNames(ov[..i + 1]) - undeletable == a;
    } else {
      assert EntryNames(ov[..i + 1]) - undeletable == a + {ov[i].fileName};
      RemoveNamedTwice(files, a, {ov[i].fileName});
    }
  }

  /** `rotateSaves`: delete the overflow entries one by one, ignoring each
      deletion that fails. */
  method RotateSaves(files: seq<StoredFile>, agentId: string, undeletable: set<string>)
    returns (remaining: seq<StoredFile>)
    ensures remaining == Rotate(files, agentId, undeletable)
  {
    var entries := SortNewestFirst(ParseAll(agentId, files));
    var overflow := Overflow(entries);
    remaining := files;
    RemoveNothing(files);
    assert overflow[..0] == [];
    assert EntryNames(overflow[..0]) - undeletable == {};
    var i := 0;
    while i < |overflow|
      invariant 0 <= i <= |overflow|
      invariant remaining == RemoveNamed(files, EntryNames(overflow[..i]) - undeletable)
    {
      RotateStep(files, overflow, i, undeletable);
      if overflow[i].fileName !in undeletable {
        remaining := RemoveNamed(remaining, {overflow[i].fileName});
      }
      i := i + 1;
    }
    assert overflow[..i] == overflow;
  }

  lemma {:induction false} InsertNames(e: SaveEntry, es: seq<SaveEntry>)
    ensures EntryNames(Insert(e, es)) == EntryNames(es) + {e.fileName}
  {
    if |es| > 0 && es[0].createdAt > e.createdAt {
      InsertNames(e, es[1..]);
      EntryNamesCons(es[0], Insert(e, es[1..]));
    } else if |es| > 0 {
      EntryNamesCons(e, es);
    }
  }

  lemma {:induction false} InsertDistinct(e: SaveEntry, es: seq<SaveEntry>)
    requires DistinctEntryNames(es) && e.fileName !in EntryNames(es)
    ensures DistinctEntryNames(Insert(e, es))
  {
    if |es| > 0 && es[0].createdAt > e.createdAt {
      var rest := Insert(e, es[1..]);
      InsertDistinct(e, es[1..]);
      InsertNames(e, es[1..]);
      assert ([es[0]] + rest)[1..] == rest;
    } else if |es| > 0 {
      assert ([e] + es)[1..] == es;
    }
  }


  /** Sorting keeps the set of names. */
  lemma {:induction false} SortNames(es: seq<SaveEntry>)
    ensures EntryNames(SortNewestFirst(es)) == EntryNames(es)
  {
    if |es| > 0 {
      SortNames(es[1..]);
      InsertNames(es[0], SortNewestFirst(es[1..]));
    }
  }

  /** Sorting keeps names distinct. */
  lemma {:induction false} SortDistinct(es: seq<SaveEntry>)
    requires DistinctEntryNames(es)
    ensures DistinctEntryNames(SortNewestFirst(es))
  {
    if |es| > 0 {
      SortDistinct(es[1..]);
      SortNames(es[1..]);
      InsertDistinct(es[0], SortNewestFirst(es[1..]));
    }
  }

  lemma {:induction false} ParsedNames(agentId: string, files: seq<StoredFile>)
    ensures EntryNames(ParseAll(agentId, files)) == FileNames(files)
  {
    if |files| > 0 {
      ParsedNames(agentId, files[1..]);
      assert ParseAll(agentId, files)[1..] == ParseAll(agentId, files[1..]);
    }
  }

  /** Entries named after files without repeated names have distinct names. */
  lemma {:induction false} NamedDistinct(es: seq<SaveEntry>, files: seq<StoredFile>)
    requires |es| == |files| && DistinctFileNames(files)
    requires forall i :: 0 <= i < |es| ==> es[i].fileName == files[i].name
    ensures DistinctEntryNames(es)
  {
    if |es| > 0 {
      var fs := files[1..];
      assert forall i, j :: 0 <= i < j < |fs| ==> fs[i] == files[i + 1] && fs[j] == files[j + 1];
      assert forall i :: 0 <= i < |es[1..]| ==> es[1..][i].fileName == files[i + 1].name;
      NamedDistinct(es[1..], fs);
      NameAbsent(es[1..], files[0].name);
    }
  }

  lemma ParsedDistinct(agentId: string, files: seq<StoredFile>)
    requires DistinctFileNames(files)
    ensures DistinctEntryNames(ParseAll(agentId, files))
  {
    NamedDistinct(ParseAll(agentId, files), files);
  }

  /** In a list without repeated names, a prefix and the rest share no name. */
  lemma {:induction false} DistinctSplit(a: seq<SaveEntry>, b: seq<SaveEntry>)
    requires DistinctEntryNames(a + b)
    ensures EntryNames(a) !! EntryNames(b)
  {
    if |a| > 0 {
      assert (a + b)[1..] == a[1..] + b;
      DistinctSplit(a[1..], b);
      EntryNamesAppend(a[1..], b);
    }
  }

  /** Kept and overflow entries split the list. */
  lemma KeptOverflow(es: seq<SaveEntry>)
    ensures EntryNames(es) == EntryNames(Kept(es)) + EntryNames(Overflow(es))
    ensures DistinctEntryNames(es) ==> EntryNames(Kept(es)) !! EntryNames(Overflow(es))
  {
    if |es| > MaxSaves {
      var k, o := Kept(es), Overflow(es);
      assert es == k + o;
      EntryNamesAppend(k, o);
      if DistinctEntryNames(es) {
        DistinctSplit(k, o);
      }
    }
  }

  /** After rotation the directory holds exactly the files of the 100 newest
      entries plus the overflow files whose deletion failed. */
  lemma RotateKeepsNewest(files: seq<StoredFile>, agentId: string, undeletable: set<string>)
    requires DistinctFileNames(files)
    ensures var entries := SortNewestFirst(ParseAll(agentId, files));
      FileNames(Rotate(files, agentId, undeletable))
        == EntryNames(Kept(entries)) + (EntryNames(Overflow(entries)) * undeletable)
  {
    var parsed := ParseAll(agentId, files);
    var entries := SortNewestFirst(parsed);
    ParsedNames(agentId, files);
    ParsedDistinct(agentId, files);
    SortNames(parsed);
    SortDistinct(parsed);
    KeptOverflow(entries);
  }

  /** Every deleted entry is no newer than any kept one. */
  lemma OverflowIsOlder(es: seq<SaveEntry>)
    requires NewestFirst(es)
    ensures forall i, j :: 0 <= i < |Kept(es)| && 0 <= j < |Overflow(es)| ==>
      Overflow(es)[j].createdAt <= Kept(es)[i].createdAt
  {
    if |es| > MaxSaves {
      forall i, j | 0 <= i < |Kept(es)| && 0 <= j < |Overflow(es)|
        ensures Overflow(es)[j].createdAt <= Kept(es)[i].createdAt
      {
        assert Overflow(es)[j] == es[j + MaxSaves];
        assert Kept(es)[i] == es[i];
      }
    }
  }

  /** With at most 100 files nothing is deleted. */
  lemma RotateSmall(files: seq<StoredFile>, agentId: string, undeletable: set<string>)
    requires |files| <= MaxSaves
    ensures Rotate(files, agentId, undeletable) == files
  {
    var entries := SortNewestFirst(ParseAll(agentId, files));
    assert EntryNames(Overflow(entries)) - undeletable == {};
    RemoveNothing(files);
  }

  lemma {:induction false} RemoveNothing(files: seq<StoredFile>)
    ensures RemoveNamed(files, {}) == files
  {
    if |files| > 0 {
      RemoveNothing(files[1..]);
      assert files == [files[0]] + files[1..];
    }
  }

  /** Sorting an entry strictly newer than all others puts it first and leaves
      the order of the others as it was. */
  lemma {:induction false} NewestSortsFirst(es: seq<SaveEntry>, e: SaveEntry)
    requires forall i :: 0 <= i < |es| ==> es[i].createdAt < e.createdAt
    ensures SortNewestFirst(es + [e]) == [e] + SortNewestFirst(es)
  {
    if |es| > 0 {
      var rest := SortNewestFirst(es[1..]);
      assert (es + [e])[1..] == es[1..] + [e];
      NewestSortsFirst(es[1..], e);
      assert ([e] + rest)[1..] == rest;
    }
  }

  lemma {:induction false} FileNamesMembers(files: seq<StoredFile>)
    ensures forall n :: n in FileNames(files) <==> exists i :: 0 <= i < |files| && files[i].name == n
  {
    if |files| > 0 {
      FileNamesMembers(files[1..]);
      forall n | n in FileNames(files)
        ensures exists i :: 0 <= i < |files| && files[i].name == n
      {
        if n != files[0].name {
          assert n in FileNames(files[1..]);
          var k :| 0 <= k < |files[1..]| && files[1..][k].name == n;
          assert files[k + 1].name == n;
        }
      }
      forall n | exists i :: 0 <= i < |files| && files[i].name == n
        ensures n in FileNames(files)
      {
        var i :| 0 <= i < |files| && files[i].name == n;
        if i > 0 {
          assert files[1..][i - 1].name == n;
        }
      }
    }
  }

  /** `writeFile`: a file of the same name is overwritten in place; otherwise
      the new file joins the directory. */
  function PutFile(files: seq<StoredFile>, f: StoredFile): (r: seq<StoredFile>)
    ensures f in r
    ensures forall g :: g in r ==> g == f || (g in files && g.name != f.name)
    ensures forall g :: g in files && g.name != f.name ==> g in r
    ensures f.name !in FileNames(files) ==> r == files + [f]
  {
    FileNamesMembers(files);
    if f.name in FileNames(files) then
      var r := seq(|files|, i requires 0 <= i < |files| => if files[i].name == f.name then f else files[i]);
      var j :| 0 <= j < |files| && files[j].name == f.name;
      assert r[j] == f;
      assert forall g :: g in files && g.name != f.name ==> g in r by {
        forall g | g in files && g.name != f.name
          ensures g in r
        {
          var i :| 0 <= i < |files| && files[i] == g;
          assert r[i] == g;
        }
      }
      r
    else files + [f]
  }

  /** Reading a file by name: the first file so named, or `None`. */
  function FindFile(files: seq<StoredFile>, name: string): (r: Opt.Option<StoredFile>)
    ensures r.Some? ==> r.value in files && r.value.name == name
    ensures r.None? ==> forall g :: g in files ==> g.name != name
  {
    if |files| == 0 then Opt.None
    else if files[0].name == name then Opt.Some(files[0])
    else FindFile(files[1..], name)
  }

  /** When `f` is the only file of its name, reading that name finds `f`. */
  lemma {:induction false} FindOnly(files: seq<StoredFile>, f: StoredFile)
    requires f in files
    requires forall g :: g in files && g.name == f.name ==> g == f
    ensures FindFile(files, f.name) == Opt.Some(f)
  {
    if files[0] != f {
      assert files[0].name != f.name;
      assert f in files[1..];
      FindOnly(files[1..], f);
    }
  }

  /** A file whose entry is among the 100 newest survives rotation. */
  lemma RotateKeepsFile(files: seq<StoredFile>, agentId: string, undeletable: set<string>, f: StoredFile)
    requires DistinctFileNames(files) && f in files
    requires f.name in EntryNames(Kept(SortNewestFirst(ParseAll(agentId, files))))
    ensures f in Rotate(files, agentId, undeletable)
  {
    var parsed := ParseAll(agentId, files);
    ParsedDistinct(agentId, files);
    SortDistinct(parsed);
    KeptOverflow(SortNewestFirst(parsed));
    RemoveNamedMembers(files, EntryNames(Overflow(SortNewestFirst(parsed))) - undeletable);
  }

  lemma ParseAllSnoc(agentId: string, files: seq<StoredFile>, f: StoredFile)
    ensures ParseAll(agentId, files + [f]) == ParseAll(agentId, files) + [ParseEntry(agentId, f)]
  {
  }

  /** A file newer than every other file in the directory survives rotation. */
  lemma NewestSurvives(files: seq<StoredFile>, agentId: string, undeletable: set<string>, f: StoredFile)
    requires DistinctFileNames(files + [f])
    requires forall i :: 0 <= i < |files| ==> ParseEntry(agentId, files[i]).createdAt < ParseEntry(agentId, f).createdAt
    ensures f in Rotate(files + [f], agentId, undeletable)
  {
    var all := files + [f];
    var e := ParseEntry(agentId, f);
    var es := ParseAll(agentId, files);
    ParseAllSnoc(agentId, files, f);
    NewestSortsFirst(es, e);
    var sorted := [e] + SortNewestFirst(es);
    assert Kept(sorted)[0] == e;
    assert e.fileName == f.name;
    assert f.name in EntryNames(Kept(sorted));
    RotateKeepsFile(all, agentId, undeletable, f);
  }
}

=== FILE: save_pipeline.dfy ===
/** The automatic save of one exchange and the restore of a listed save:
    optional compression and encryption of the artifact, the file it is
    written to, rotation, the diagnostic log lines, the optional cloud post,
    and the decision chain that reads a save back. Compression, encryption,
    base64 and the JSON codec are abstract functions; clocks, the
    locale-formatted stamp, the random salt and the failures of the device
    and the network are parameters. */
module SavePipeline {
  import Opt
  import opened JsText
  import Json
  import SaveStore
  import opened SaveEntries
  import Artifact

  /** gzip followed by base64, its inverse, encryption under a passphrase with
      a random salt and nonce (`seed`), decryption, and what reading a file in
      the other encoding gives. */
  datatype Codecs = Codecs(
    gzipBase64: string -> string,
    gunzipBase64: string -> Opt.Option<string>,
    encrypt: (string, string, nat) -> string,
    decrypt: (string, string) -> Opt.Option<string>,
    reread: (string, Encoding) -> string)

  /** Decompressing undoes compressing, decrypting with the passphrase undoes
      encrypting, and every gzip stream in base64 begins `H4sI` (the gzip magic
      bytes 1f 8b and method 08 of RFC 1952, section 2.3.1, written in base64). */
  ghost predicate Lawful(c: Codecs) {
    && (forall x :: c.gunzipBase64(c.gzipBase64(x)) == Opt.Some(x))
    && (forall x :: StartsWith(c.gzipBase64(x), "H4sI"))
    && (forall x, p, seed :: p != "" ==> c.decrypt(c.encrypt(x, p, seed), p) == Opt.Some(x))
  }

  /** Whether the web view offers `CompressionStream` and `DecompressionStream`. */
  datatype Runtime = Runtime(hasCompressionStream: bool, hasDecompressionStream: bool)

  datatype Platform = Platform(rt: Runtime, codecs: Codecs, json: Json.Codec)

  /** The outcome of one optional transformation: the text, and whether the
      transformation was applied. */
  datatype Step = Step(data: string, applied: bool)

  // ---------------------------------------------------------------------
  // preparing the data

  /** `compressText`: gzip and base64 when the web view can compress, the text
      unchanged otherwise. */
  function CompressText(content: string, rt: Runtime, codecs: Codecs): (r: Step)
    ensures r.applied == rt.hasCompressionStream
    ensures !r.applied ==> r.data == content
  {
    if rt.hasCompressionStream then Step(codecs.gzipBase64(content), true) else Step(content, false)
  }

  /** `encryptText`: an empty passphrase leaves the text plain and unencrypted. */
  function EncryptText(content: string, passphrase: string, seed: nat, codecs: Codecs): (r: Step)
    ensures r.applied <==> passphrase != ""
    ensures !r.applied ==> r.data == content
  {
    if passphrase == "" then Step(content, false) else Step(codecs.encrypt(content, passphrase, seed), true)
  }

  lemma CompressInverse(content: string, rt: Runtime, codecs: Codecs)
    requires Lawful(codecs)
    ensures CompressText(content, rt, codecs).applied ==>
      codecs.gunzipBase64(CompressText(content, rt, codecs).data) == Opt.Some(content)
  {
  }

  lemma EncryptInverse(content: string, passphrase: string, seed: nat, codecs: Codecs)
    requires Lawful(codecs)
    ensures EncryptText(content, passphrase, seed, codecs).applied ==>
      codecs.decrypt(EncryptText(content, passphrase, seed, codecs).data, passphrase) == Opt.Some(content)
  {
  }

  /** The data an automatic save writes and how it was transformed. */
  datatype Prepared = Prepared(data: string, compressed: bool, encrypted: bool)

  /** Compression when the settings ask for it, then encryption when they ask
      for it, with the settings' key. */
  function PrepareArtifact(settings: SaveStore.SaveSettings, content: string, plat: Platform, seed: nat): (p: Prepared)
    ensures p.compressed <==> settings.compress && plat.rt.hasCompressionStream
    ensures p.encrypted <==> settings.encrypt && settings.encryptionKey != ""
    ensures !p.compressed && !p.encrypted ==> p.data == content
  {
    var c := if settings.compress then CompressText(content, plat.rt, plat.codecs) else Step(content, false);
    var e := if settings.encrypt then EncryptText(c.data, settings.encryptionKey, seed, plat.codecs) else Step(c.data, false);
    Prepared(e.data, c.applied, e.applied)
  }

  /** Undoing a preparation: decrypt, then decompress. */
  lemma PrepareInverse(settings: SaveStore.SaveSettings, content: string, plat: Platform, seed: nat)
    requires Lawful(plat.codecs)
    ensures var p := PrepareArtifact(settings, content, plat, seed);
      var plain := if p.encrypted then plat.codecs.decrypt(p.data, settings.encryptionKey) else Opt.Some(p.data);
      && plain.Some?
      && (if p.compressed then plat.codecs.gunzipBase64(plain.value) == Opt.Some(content) else plain.value == content)
  {
    var c := if settings.compress then CompressText(content, plat.rt, plat.codecs) else Step(content, false);
    CompressInverse(content, plat.rt, plat.codecs);
    EncryptInverse(c.data, settings.encryptionKey, seed, plat.codecs);
  }

  /** Base64 for anything compressed or encrypted, UTF-8 for plain text. */
  function FileEncoding(compressed: bool, encrypted: bool): Encoding {
    if encrypted || compressed then Base64 else Utf8
  }

  /** The file an automatic save writes. */
  function SaveFile(p: Prepared, now: nat, agentId: string): (f: StoredFile)
    ensures f.data == p.data
    ensures f.encoding == Base64 <==> p.compressed || p.encrypted
    ensures f.size == DiskSize(p.data, f.encoding)
  {
    WrittenFile(AutoFileName(now, agentId, p.compressed, p.encrypted), p.data, FileEncoding(p.compressed, p.encrypted))
  }

  /** A plain save is listed with the UTF-8 byte count of its artifact, and a
      compressed or encrypted one with the byte count its base64 decodes to. */
  lemma ListedSize(settings: SaveStore.SaveSettings, content: string, plat: Platform, seed: nat, now: nat, agentId: string)
    ensures var p := PrepareArtifact(settings, content, plat, seed);
      var e := ParseEntry(agentId, SaveFile(p, now, agentId));
      && (!p.compressed && !p.encrypted ==> e.size == Utf8Size(content))
      && (p.compressed || p.encrypted ==> e.size == Base64Size(p.data))
  {
  }

  // ---------------------------------------------------------------------
  // restoring

  /** The encoding a restore reads a listed entry with. */
  function ReadEncoding(e: SaveEntry): Encoding {
    FileEncoding(e.compressed, e.encrypted)
  }

  /** `readFile` with an encoding: the stored text when it matches the one the
      file was written with. */
  function ReadAs(f: StoredFile, enc: Encoding, codecs: Codecs): (r: string)
    ensures f.encoding == enc ==> r == f.data
  {
    if f.encoding == enc then f.data else codecs.reread(f.data, enc)
  }

  /** The decision chain of `restoreSave` once the file is read: an encrypted
      entry needs a passphrase and is decrypted first; a compressed entry is
      then decompressed when the web view can; any failure gives `None`. */
  function RestoreData(e: SaveEntry, data: string, passphrase: string, plat: Platform): (r: Opt.Option<string>)
    ensures e.encrypted && passphrase == "" ==> r.None?
    ensures e.encrypted && plat.codecs.decrypt(data, passphrase).None? ==> r.None?
    ensures !e.encrypted && !(e.compressed && plat.rt.hasDecompressionStream) ==> r == Opt.Some(data)
    ensures e.encrypted && passphrase != "" && plat.codecs.decrypt(data, passphrase).Some? ==>
      r == (if e.compressed && plat.rt.hasDecompressionStream
            then plat.codecs.gunzipBase64(plat.codecs.decrypt(data, passphrase).value)
            else plat.codecs.decrypt(data, passphrase))
    ensures !e.encrypted && e.compressed && plat.rt.hasDecompressionStream ==> r == plat.codecs.gunzipBase64(data)
  {
    var plain :=
      if e.encrypted && passphrase != "" then plat.codecs.decrypt(data, passphrase)
      else if e.encrypted then Opt.None
      else Opt.Some(data);
    match plain
    case None => Opt.None
    case Some(d) =>
      if e.compressed && plat.rt.hasDecompressionStream then plat.codecs.gunzipBase64(d) else Opt.Some(d)
  }

  /** `restoreSave`: nothing off the device or when the file cannot be read;
      otherwise the decision chain on what the file reads as. */
  function RestoreSave(fs: FileSystem, agentId: string, e: SaveEntry, passphrase: string, plat: Platform): (r: Opt.Option<string>)
    ensures !fs.native ==> r.None?
    ensures e.encrypted && passphrase == "" ==> r.None?
    ensures fs.native && AgentDir(agentId) !in fs.dirs ==> r.None?
    ensures fs.native && AgentDir(agentId) in fs.dirs && FindFile(fs.dirs[AgentDir(agentId)], e.fileName).None? ==> r.None?
    ensures fs.native && AgentDir(agentId) in fs.dirs && FindFile(fs.dirs[AgentDir(agentId)], e.fileName).Some? ==>
      var f := FindFile(fs.dirs[AgentDir(agentId)], e.fileName).value;
      r == RestoreData(e, ReadAs(f, ReadEncoding(e), plat.codecs), passphrase, plat)
  {
    if !fs.native || AgentDir(agentId) !in fs.dirs then Opt.None
    else
      match FindFile(fs.dirs[AgentDir(agentId)], e.fileName)
      case None => Opt.None
      case Some(f) => RestoreData(e, ReadAs(f, ReadEncoding(e), plat.codecs), passphrase, plat)
  }

  /** A name ending `.enc` never ends `.gz`: a listed encrypted entry is never
      flagged compressed. */
  lemma EncryptedNotCompressed(agentId: string, f: StoredFile)
    ensures ParseEntry(agentId, f).encrypted ==> !ParseEntry(agentId, f).compressed
  {
    var n := f.name;
    if EndsWith(n, ".enc") {
      assert n[|n| - 1] == 'c';
    }
  }

  /** Restoring a listed encrypted entry only decrypts: the decompression
      branch is never taken. */
  lemma EncryptedRestoreOnlyDecrypts(agentId: string, f: StoredFile, data: string, passphrase: string, plat: Platform)
    requires ParseEntry(agentId, f).encrypted
    ensures RestoreData(ParseEntry(agentId, f), data, passphrase, plat)
         == (if passphrase == "" then Opt.None else plat.codecs.decrypt(data, passphrase))
  {
    EncryptedNotCompressed(agentId, f);
  }

  /** What restoring an automatic save's own file gives, as the program
      names and lists it: the text saved, except for a save both compressed
      and encrypted, which comes back still compressed. */
  lemma FileRoundTrip(settings: SaveStore.SaveSettings, content: string, plat: Platform, seed: nat, now: nat, agentId: string)
    requires Lawful(plat.codecs)
    requires settings.compress && plat.rt.hasCompressionStream ==> plat.rt.hasDecompressionStream
    ensures var p := PrepareArtifact(settings, content, plat, seed);
      var f := SaveFile(p, now, agentId);
      var e := ParseEntry(agentId, f);
      && ReadAs(f, ReadEncoding(e), plat.codecs) == f.data
      && RestoreData(e, f.data, settings.encryptionKey, plat)
         == if p.compressed && p.encrypted then Opt.Some(plat.codecs.gzipBase64(content)) else Opt.Some(content)
  {
    var p := PrepareArtifact(settings, content, plat, seed);
    ParseAutoName(now, agentId, p.compressed, p.encrypted, p.data, FileEncoding(p.compressed, p.encrypted), DiskSize(p.data, FileEncoding(p.compressed, p.encrypted)));
    PrepareInverse(settings, content, plat, seed);
    if p.compressed && p.encrypted {
      var c := CompressText(content, plat.rt, plat.codecs);
      EncryptInverse(c.data, settings.encryptionKey, seed, plat.codecs);
    }
  }

  /** A save both compressed and encrypted does not restore to a text that
      does not begin with `H`. */
  lemma CompressedEncryptedDiffers(settings: SaveStore.SaveSettings, content: string, plat: Platform, seed: nat, now: nat, agentId: string)
    requires Lawful(plat.codecs)
    requires settings.compress && settings.encrypt && settings.encryptionKey != ""
    requires plat.rt.hasCompressionStream && plat.rt.hasDecompressionStream
    requires |content| > 0 && content[0] != 'H'
    ensures var f := SaveFile(PrepareArtifact(settings, content, plat, seed), now, agentId);
      RestoreData(ParseEntry(agentId, f), f.data, settings.encryptionKey, plat) != Opt.Some(content)
  {
    FileRoundTrip(settings, content, plat, seed, now, agentId);
    var z := plat.codecs.gzipBase64(content);
    assert StartsWith(z, "H4sI");
    assert z[0] == 'H';
  }

  /** A save both compressed and encrypted does not restore to its artifact:
      what comes back begins `H4sI`, an artifact begins `a`. */
  lemma CompressedEncryptedRestoreFails(settings: SaveStore.SaveSettings, plat: Platform, seed: nat, now: nat, agentId: string,
                                        userText: Opt.Option<string>, modelText: Opt.Option<string>,
                                        meta: Artifact.Entries, ts: string)
    requires Lawful(plat.codecs)
    requires settings.compress && settings.encrypt && settings.encryptionKey != ""
    requires plat.rt.hasCompressionStream && plat.rt.hasDecompressionStream
    ensures var content := Artifact.BuildTxtContent(agentId, userText, modelText, meta, ts);
      var f := SaveFile(PrepareArtifact(settings, content, plat, seed), now, agentId);
      RestoreData(ParseEntry(agentId, f), f.data, settings.encryptionKey, plat) != Opt.Some(content)
  {
    var content := Artifact.BuildTxtContent(agentId, userText, modelText, meta, ts);
    Artifact.ArtifactStartsWithA(agentId, userText, modelText, meta, ts);
    CompressedEncryptedDiffers(settings, content, plat, seed, now, agentId);
  }

  /** The corrected file of a save: named with `CorrectedExtension`. */
  function CorrectedSaveFile(p: Prepared, now: nat, agentId: string): (f: StoredFile)
    ensures f.data == p.data
    ensures f.encoding == Base64 <==> p.compressed || p.encrypted
  {
    WrittenFile(CorrectedFileName(now, agentId, p.compressed, p.encrypted), p.data, FileEncoding(p.compressed, p.encrypted))
  }

  /** With the corrected names and listing parse, every save restores to the
      text saved, for every combination of settings. */
  lemma CorrectedFileRoundTrip(settings: SaveStore.SaveSettings, content: string, plat: Platform, seed: nat, now: nat, agentId: string)
    requires Lawful(plat.codecs)
    requires settings.compress && plat.rt.hasCompressionStream ==> plat.rt.hasDecompressionStream
    ensures var p := PrepareArtifact(settings, content, plat, seed);
      var f := CorrectedSaveFile(p, now, agentId);
      var e := ParseEntryCorrected(agentId, f);
      && ReadAs(f, ReadEncoding(e), plat.codecs) == f.data
      && RestoreData(e, f.data, settings.encryptionKey, plat) == Opt.Some(content)
  {
    var p := PrepareArtifact(settings, content, plat, seed);
    ParseCorrectedName(now, agentId, p.compressed, p.encrypted, p.data, FileEncoding(p.compressed, p.encrypted), DiskSize(p.data, FileEncoding(p.compressed, p.encrypted)));
    PrepareInverse(settings, content, plat, seed);
  }

  // ---------------------------------------------------------------------
  // saving

  /** The device's files and the browser's key-value storage. */
  datatype World = World(fs: FileSystem, store: SaveStore.Store)

  /** Which device step fails, with the error's message. */
  datatype Fault = NoFault | MkdirFault(message: string) | WriteFault(message: string)

  /** Whether the cloud request went out, or the error it failed with. */
  datatype CloudResult = CloudOk | CloudFail(message: string)

  /** What the environment decides during one save: the clock when naming the
      file and when posting, the locale-formatted stamp of the save's log line
      and, read again after the request, that of the cloud line, the salt and
      nonce, the device fault, the files whose deletion fails, and the network
      outcome. */
  datatype Env = Env(
    now: nat,
    postedAt: nat,
    stamp: string,
    cloudStamp: string,
    seed: nat,
    fault: Fault,
    undeletable: set<string>,
    cloud: CloudResult)

  /** A request to the cloud endpoint with its JSON body. */
  datatype CloudPost = CloudPost(endpoint: string, body: Json.Json)

  /** The world after a save, the name of the file it made, the cloud request
      it sent, and whether it finished (a log that cannot be appended to makes
      the save stop with an error). */
  datatype SaveOutcome = SaveOutcome(world: World, fileName: string, post: Opt.Option<CloudPost>, completed: bool)

  /** `err?.message || 'Unknown'`. */
  function Reason(message: string): (r: string)
    ensures r != ""
    ensures message != "" ==> r == message
  {
    if message == "" then "Unknown" else message
  }

  function Stamped(stamp: string, rest: string): string {
    "[" + stamp + "] " + rest
  }

  function AutoOkLine(stamp: string, agentId: string, fileName: string): string {
    Stamped(stamp, "AUTO OK " + agentId + " " + fileName)
  }

  function AutoWebOkLine(stamp: string, agentId: string, fileName: string): string {
    Stamped(stamp, "AUTO WEB OK " + agentId + " " + fileName)
  }

  function AutoFailLine(stamp: string, agentId: string, message: string): string {
    Stamped(stamp, "AUTO FAIL " + agentId + " " + Reason(message))
  }

  function CloudOkLine(stamp: string, agentId: string): string {
    Stamped(stamp, "CLOUD OK " + agentId)
  }

  function CloudFailLine(stamp: string, agentId: string, message: string): string {
    Stamped(stamp, "CLOUD FAIL " + agentId + " " + Reason(message))
  }

  /** The path of a save, used as the storage key off the device. */
  function SavePath(agentId: string, fileName: string): string {
    AgentDir(agentId) + "/" + fileName
  }

  /** A save's storage key never collides with the settings or the log key. */
  lemma SavePathIsNotAKey(agentId: string, fileName: string)
    ensures SavePath(agentId, fileName) != SaveStore.SettingsKey
    ensures SavePath(agentId, fileName) != SaveStore.LogKey
  {
    assert SavePath(agentId, fileName)[0] == 'E';
    assert SaveStore.SettingsKey[0] == 'e' && SaveStore.LogKey[0] == 'e';
  }

  /** `ensureDir`: the agent's directory, created empty when missing. */
  function EnsureDir(fs: FileSystem, agentId: string): (r: FileSystem)
    ensures r.native == fs.native
    ensures AgentDir(agentId) in r.dirs
    ensures AgentDir(agentId) in fs.dirs ==> r == fs
    ensures forall d :: d != AgentDir(agentId) ==> (d in r.dirs <==> d in fs.dirs)
    ensures forall d :: d != AgentDir(agentId) && d in fs.dirs ==> r.dirs[d] == fs.dirs[d]
  {
    if AgentDir(agentId) in fs.dirs then fs else fs.(dirs := fs.dirs[AgentDir(agentId) := []])
  }

  /** The files of the agent's directory, or none when it is missing. */
  function DirFiles(fs: FileSystem, agentId: string): seq<StoredFile> {
    if AgentDir(agentId) in fs.dirs then fs.dirs[AgentDir(agentId)] else []
  }

  /** The result of the `try` block: stored, with the line to log, or failed
      with the error's message. */
  datatype Attempt = Stored(world: World, line: string) | Failed(world: World, message: string)

  /** On the device: create the directory, write the file, rotate; off the
      device: put the data in storage under the save's path. */
  function WriteSave(w: World, env: Env, agentId: string, f: StoredFile): (a: Attempt)
    ensures !w.fs.native ==>
      (&& a.Stored? && a.world.fs == w.fs && a.line == AutoWebOkLine(env.stamp, agentId, f.name)
       && SavePath(agentId, f.name) in a.world.store && a.world.store[SavePath(agentId, f.name)] == f.data)
    ensures w.fs.native ==> a.world.store == w.store
    ensures w.fs.native && env.fault.MkdirFault? ==> a == Failed(w, env.fault.message)
    ensures w.fs.native && env.fault.WriteFault? ==>
      a.Failed? && a.message == env.fault.message && DirFiles(a.world.fs, agentId) == DirFiles(w.fs, agentId)
    ensures w.fs.native && env.fault.NoFault? ==>
      (&& a.Stored? && a.line == AutoOkLine(env.stamp, agentId, f.name)
       && a.world.fs.native && AgentDir(agentId) in a.world.fs.dirs
       && a.world.fs.dirs[AgentDir(agentId)] == Rotate(PutFile(DirFiles(w.fs, agentId), f), agentId, env.undeletable))
  {
    if !w.fs.native then
      Stored(w.(store := w.store[SavePath(agentId, f.name) := f.data]), AutoWebOkLine(env.stamp, agentId, f.name))
    else
      match env.fault
      case MkdirFault(m) => Failed(w, m)
      case WriteFault(m) => Failed(w.(fs := EnsureDir(w.fs, agentId)), m)
      case NoFault =>
        var fs := EnsureDir(w.fs, agentId);
        var files := Rotate(PutFile(fs.dirs[AgentDir(agentId)], f), agentId, env.undeletable);
        Stored(w.(fs := fs.(dirs := fs.dirs[AgentDir(agentId) := files])), AutoOkLine(env.stamp, agentId, f.name))
  }

  /** The line the `try` block logs: its own on success, `AUTO FAIL` with the
      reason on failure. */
  function WriteLine(a: Attempt, stamp: string, agentId: string): string {
    match a
    case Stored(_, l) => l
    case Failed(_, m) => AutoFailLine(stamp, agentId, m)
  }

  /** The line logged for the cloud request. */
  function CloudLine(c: CloudResult, stamp: string, agentId: string): string {
    match c
    case CloudOk => CloudOkLine(stamp, agentId)
    case CloudFail(m) => CloudFailLine(stamp, agentId, m)
  }

  /** The body of the cloud request. */
  function CloudBody(agentId: string, p: Prepared, createdAt: nat): Json.Json {
    Json.JObj([("agentId", Json.JStr(agentId)),
               ("content", Json.JStr(p.data)),
               ("compressed", Json.JBool(p.compressed)),
               ("encrypted", Json.JBool(p.encrypted)),
               ("createdAt", Json.JNum(createdAt))])
  }

  /** The settings a save reads. */
  function SettingsOf(w: World, plat: Platform): SaveStore.SaveSettings {
    SaveStore.GetSettings(w.store, plat.json)
  }

  /** The artifact of a save, compressed and encrypted as the settings ask. */
  function PreparedOf(w: World, plat: Platform, env: Env, agentId: string,
                      userText: Opt.Option<string>, modelText: Opt.Option<string>,
                      meta: Artifact.Entries, ts: string): Prepared {
    PrepareArtifact(SettingsOf(w, plat), Artifact.BuildTxtContent(agentId, userText, modelText, meta, ts), plat, env.seed)
  }

  /** `saveConversationAuto`. The settings are read once; the artifact is built,
      prepared and named; then `Commit` does the rest. The file's name carries
      the clock and the preparation's flags, compression and encryption follow
      the settings and the platform, a request goes only to an enabled
      endpoint, and the settings are left as they were. */
  function SaveConversationAuto(w: World, plat: Platform, env: Env, agentId: string,
                                userText: Opt.Option<string>, modelText: Opt.Option<string>,
                                meta: Artifact.Entries, ts: string): (out: SaveOutcome)
    ensures var s := SettingsOf(w, plat);
      var q := PreparedOf(w, plat, env, agentId, userText, modelText, meta, ts);
      && out.fileName == AutoFileName(env.now, agentId, q.compressed, q.encrypted)
      && (q.compressed <==> s.compress && plat.rt.hasCompressionStream)
      && (q.encrypted <==> s.encrypt && s.encryptionKey != "")
      && (out.post.Some? ==> s.cloudEnabled && s.cloudEndpoint != "" && out.post.value.endpoint == s.cloudEndpoint)
      && out.world.fs.native == w.fs.native
      && (!w.fs.native ==> out.world.fs == w.fs)
      && SaveStore.GetSettings(out.world.store, plat.json) == SaveStore.GetSettings(w.store, plat.json)
      && out == Commit(w, plat, env, agentId, s, q)
  {
    var s := SettingsOf(w, plat);
    var q := PreparedOf(w, plat, env, agentId, userText, modelText, meta, ts);
    CommitKeepsSettings(w, plat, env, agentId, s, q);
    Commit(w, plat, env, agentId, s, q)
  }

  /** The rest of a save, given the settings `s` it read and the data `p` it
      prepared: the `try` block writes the file, and `Record` logs and posts. */
  function Commit(w: World, plat: Platform, env: Env, agentId: string,
                  s: SaveStore.SaveSettings, p: Prepared): (out: SaveOutcome)
    ensures out.world.fs.native == w.fs.native
    ensures !w.fs.native ==> out.world.fs == w.fs
    ensures out.post.Some? ==> s.cloudEnabled && s.cloudEndpoint != "" && out.post.value.endpoint == s.cloudEndpoint
    ensures out.fileName == AutoFileName(env.now, agentId, p.compressed, p.encrypted)
  {
    var f := SaveFile(p, env.now, agentId);
    var attempt := WriteSave(w, env, agentId, f);
    Record(attempt.world, plat, env, agentId, s, p, f.name, WriteLine(attempt, env.stamp, agentId))
  }

  /** After the `try` block, in the world `w` it left: `line` (`AUTO OK`,
      `AUTO WEB OK` or `AUTO FAIL`) is logged; then, when the cloud is enabled
      with an endpoint, the data is posted and `CLOUD OK` or `CLOUD FAIL` is
      logged. A log that is not an array makes an append throw, the append in
      the handler throw again, and the save stop there. Only the log changes. */
  function Record(w: World, plat: Platform, env: Env, agentId: string,
                  s: SaveStore.SaveSettings, p: Prepared, name: string, line: string): (out: SaveOutcome)
    ensures out.world.fs == w.fs
    ensures out.fileName == name
    ensures out.post.Some? ==> s.cloudEnabled && s.cloudEndpoint != "" && out.post.value.endpoint == s.cloudEndpoint
  {
    match SaveStore.AppendLog(w.store, plat.json, line)
    case None => SaveOutcome(w, name, Opt.None, false)
    case Some(store) =>
      var w2 := w.(store := store);
      if s.cloudEnabled && s.cloudEndpoint != "" then
        var post := CloudPost(s.cloudEndpoint, CloudBody(agentId, p, env.postedAt));
        match SaveStore.AppendLog(store, plat.json, CloudLine(env.cloud, env.cloudStamp, agentId))
        case None => SaveOutcome(w2, name, Opt.Some(post), false)
        case Some(store3) => SaveOutcome(w2.(store := store3), name, Opt.Some(post), true)
      else SaveOutcome(w2, name, Opt.None, true)
  }

  /** Logging never changes the settings. */
  lemma RecordKeepsSettings(w: World, plat: Platform, env: Env, agentId: string,
                            s: SaveStore.SaveSettings, p: Prepared, name: string, line: string)
    ensures SaveStore.GetSettings(Record(w, plat, env, agentId, s, p, name, line).world.store, plat.json)
         == SaveStore.GetSettings(w.store, plat.json)
  {
    match SaveStore.AppendLog(w.store, plat.json, line)
    case None =>
    case Some(st) =>
      SaveStore.AppendLogKeepsSettings(w.store, plat.json, line);
      var cl := CloudLine(env.cloud, env.cloudStamp, agentId);
      if SaveStore.AppendLog(st, plat.json, cl).Some? {
        SaveStore.AppendLogKeepsSettings(st, plat.json, cl);
      }
  }

  /** With a log that is an array, logging finishes, posts exactly when the
      cloud is enabled with an endpoint, and leaves `line` first in the log,
      preceded by the cloud line when there was a request. */
  lemma RecordLogsAndPosts(w: World, plat: Platform, env: Env, agentId: string,
                           s: SaveStore.SaveSettings, p: Prepared, name: string, line: string, items: seq<Json.Json>)
    requires Json.Lawful(plat.json)
    requires SaveStore.GetSaveLogs(w.store, plat.json) == Json.JArr(items)
    ensures var out := Record(w, plat, env, agentId, s, p, name, line);
      var logs := SaveStore.GetSaveLogs(out.world.store, plat.json);
      && out.completed
      && (out.post.Some? <==> s.cloudEnabled && s.cloudEndpoint != "")
      && logs.JArr?
      && (if out.post.Some?
          then |logs.items| >= 2 && logs.items[0] == Json.JStr(CloudLine(env.cloud, env.cloudStamp, agentId)) && logs.items[1] == Json.JStr(line)
          else |logs.items| >= 1 && logs.items[0] == Json.JStr(line))
  {
    SaveStore.AppendLogNewestFirst(w.store, plat.json, line, items);
    var st := SaveStore.AppendLog(w.store, plat.json, line).value;
    var logs1 := SaveStore.GetSaveLogs(st, plat.json).items;
    SaveStore.AppendLogNewestFirst(st, plat.json, CloudLine(env.cloud, env.cloudStamp, agentId), logs1);
  }

  // ---------------------------------------------------------------------
  // properties of a save

  /** Writing a save leaves the log and the settings readable as before. */
  lemma WriteKeepsKeys(w: World, env: Env, agentId: string, f: StoredFile, codec: Json.Codec)
    ensures SaveStore.GetSaveLogs(WriteSave(w, env, agentId, f).world.store, codec) == SaveStore.GetSaveLogs(w.store, codec)
    ensures SaveStore.GetSettings(WriteSave(w, env, agentId, f).world.store, codec) == SaveStore.GetSettings(w.store, codec)
  {
    SavePathIsNotAKey(agentId, f.name);
    var st := WriteSave(w, env, agentId, f).world.store;
    assert SaveStore.Raw(st, SaveStore.LogKey) == SaveStore.Raw(w.store, SaveStore.LogKey);
    assert SaveStore.Raw(st, SaveStore.SettingsKey) == SaveStore.Raw(w.store, SaveStore.SettingsKey);
  }

  /** When the stored log is not an array the save stops after writing, before
      any cloud request. */
  lemma CommitStopsOnBadLog(w: World, plat: Platform, env: Env, agentId: string, s: SaveStore.SaveSettings, p: Prepared)
    requires !SaveStore.GetSaveLogs(w.store, plat.json).JArr?
    ensures var out := Commit(w, plat, env, agentId, s, p);
      !out.completed && out.post.None?
  {
    WriteKeepsKeys(w, env, agentId, SaveFile(p, env.now, agentId), plat.json);
  }

  /** A save never changes the settings. */
  lemma CommitKeepsSettings(w: World, plat: Platform, env: Env, agentId: string, s: SaveStore.SaveSettings, p: Prepared)
    ensures SaveStore.GetSettings(Commit(w, plat, env, agentId, s, p).world.store, plat.json)
         == SaveStore.GetSettings(w.store, plat.json)
  {
    var f := SaveFile(p, env.now, agentId);
    var a := WriteSave(w, env, agentId, f);
    WriteKeepsKeys(w, env, agentId, f, plat.json);
    RecordKeepsSettings(a.world, plat, env, agentId, s, p, f.name, WriteLine(a, env.stamp, agentId));
  }

  /** With a log that is an array, a save finishes, posts to the cloud exactly
      when the cloud is enabled with an endpoint, and the log reads back with
      the save's line first, preceded by the cloud line when there was a
      request. */
  lemma CommitLogsAndPosts(w: World, plat: Platform, env: Env, agentId: string, s: SaveStore.SaveSettings, p: Prepared,
                           items: seq<Json.Json>)
    requires Json.Lawful(plat.json)
    requires SaveStore.GetSaveLogs(w.store, plat.json) == Json.JArr(items)
    ensures var out := Commit(w, plat, env, agentId, s, p);
      var first := Json.JStr(WriteLine(WriteSave(w, env, agentId, SaveFile(p, env.now, agentId)), env.stamp, agentId));
      var logs := SaveStore.GetSaveLogs(out.world.store, plat.json);
      && out.completed
      && (out.post.Some? <==> s.cloudEnabled && s.cloudEndpoint != "")
      && logs.JArr?
      && (if out.post.Some?
          then |logs.items| >= 2 && logs.items[0] == Json.JStr(CloudLine(env.cloud, env.cloudStamp, agentId)) && logs.items[1] == first
          else |logs.items| >= 1 && logs.items[0] == first)
  {
    var f := SaveFile(p, env.now, agentId);
    var a := WriteSave(w, env, agentId, f);
    WriteKeepsKeys(w, env, agentId, f, plat.json);
    RecordLogsAndPosts(a.world, plat, env, agentId, s, p, f.name, WriteLine(a, env.stamp, agentId), items);
  }

  /** A failed device step logs `AUTO FAIL` with its reason and writes nothing
      into the agent's directory. */
  lemma CommitFailureWritesNothing(w: World, plat: Platform, env: Env, agentId: string, s: SaveStore.SaveSettings, p: Prepared)
    requires w.fs.native && !env.fault.NoFault?
    ensures DirFiles(Commit(w, plat, env, agentId, s, p).world.fs, agentId) == DirFiles(w.fs, agentId)
    ensures WriteLine(WriteSave(w, env, agentId, SaveFile(p, env.now, agentId)), env.stamp, agentId)
         == AutoFailLine(env.stamp, agentId, env.fault.message)
  {
  }

  /** Off the device, the save's data is kept in storage under its path. */
  lemma CommitWebStored(w: World, plat: Platform, env: Env, agentId: string, s: SaveStore.SaveSettings, p: Prepared)
    requires !w.fs.native
    ensures var out := Commit(w, plat, env, agentId, s, p);
      SavePath(agentId, out.fileName) in out.world.store && out.world.store[SavePath(agentId, out.fileName)] == p.data
  {
    var f := SaveFile(p, env.now, agentId);
    SavePathIsNotAKey(agentId, f.name);
  }

  /** A name whose clock value is newer than every listed file's is not yet
      in the directory. */
  lemma AutoNameFresh(files: seq<StoredFile>, agentId: string, f: StoredFile)
    requires forall i :: 0 <= i < |files| ==> ParseEntry(agentId, files[i]).createdAt < ParseEntry(agentId, f).createdAt
    ensures f.name !in FileNames(files)
  {
    forall i | 0 <= i < |files|
      ensures files[i].name != f.name
    {
      assert ParseEntry(agentId, files[i]).createdAt == NumberOrZero(Split(files[i].name, '_')[0]);
      assert ParseEntry(agentId, f).createdAt == NumberOrZero(Split(f.name, '_')[0]);
    }
    FileNamesMembers(files);
  }

  lemma DistinctSnoc(files: seq<StoredFile>, f: StoredFile)
    requires DistinctFileNames(files) && f.name !in FileNames(files)
    ensures DistinctFileNames(files + [f])
  {
    FileNamesMembers(files);
    var all := files + [f];
    forall i, j | 0 <= i < j < |all|
      ensures all[i].name != all[j].name
    {
      if j == |files| {
        assert all[i] == files[i];
      }
    }
  }

  /** A file present in the agent's directory is listed. */
  lemma ListedIfPresent(fs: FileSystem, agentId: string, f: StoredFile)
    requires fs.native && AgentDir(agentId) in fs.dirs && f in fs.dirs[AgentDir(agentId)]
    ensures ParseEntry(agentId, f) in ListAgentSaves(fs, agentId)
  {
    var files := fs.dirs[AgentDir(agentId)];
    var i :| 0 <= i < |files| && files[i] == f;
    var parsed := ParseAll(agentId, files);
    assert parsed[i] == ParseEntry(agentId, f);
    assert ParseEntry(agentId, f) in multiset(parsed);
  }

  /** The new file, newer than every file already there, is the only file of
      its name after the write and the rotation. */
  lemma RotatedKeepsNew(before: seq<StoredFile>, agentId: string, undeletable: set<string>, f: StoredFile)
    requires DistinctFileNames(before)
    requires forall i :: 0 <= i < |before| ==> ParseEntry(agentId, before[i]).createdAt < ParseEntry(agentId, f).createdAt
    ensures var dir := Rotate(PutFile(before, f), agentId, undeletable);
      f in dir && FindFile(dir, f.name) == Opt.Some(f)
  {
    AutoNameFresh(before, agentId, f);
    DistinctSnoc(before, f);
    NewestSurvives(before, agentId, undeletable, f);
    var all := before + [f];
    var dir := Rotate(all, agentId, undeletable);
    FileNamesMembers(before);
    RemoveNamedMembers(all, EntryNames(Overflow(SortNewestFirst(ParseAll(agentId, all)))) - undeletable);
    FindOnly(dir, f);
  }

  /** Whatever the log does, the file system a save leaves is the one its
      write left. */
  lemma CommitFs(w: World, plat: Platform, env: Env, agentId: string, s: SaveStore.SaveSettings, p: Prepared)
    ensures Commit(w, plat, env, agentId, s, p).world.fs == WriteSave(w, env, agentId, SaveFile(p, env.now, agentId)).world.fs
  {
  }

  /** A file written at clock `now` lists with `now` as its time. */
  lemma SaveFileTime(p: Prepared, now: nat, agentId: string)
    ensures ParseEntry(agentId, SaveFile(p, now, agentId)).createdAt == now
  {
    var f := SaveFile(p, now, agentId);
    ParseAutoName(now, agentId, p.compressed, p.encrypted, p.data, f.encoding, f.size);
  }

  /** A save on the device with no fault, into a directory whose files are all
      older than the clock, leaves its file listed and readable by name. */
  lemma CommitListsFile(w: World, plat: Platform, env: Env, agentId: string, s: SaveStore.SaveSettings, p: Prepared)
    requires w.fs.native && env.fault.NoFault?
    requires DistinctFileNames(DirFiles(w.fs, agentId))
    requires forall i :: 0 <= i < |DirFiles(w.fs, agentId)| ==> ParseEntry(agentId, DirFiles(w.fs, agentId)[i]).createdAt < env.now
    ensures var fs := Commit(w, plat, env, agentId, s, p).world.fs;
      var f := SaveFile(p, env.now, agentId);
      && fs.native && AgentDir(agentId) in fs.dirs
      && FindFile(fs.dirs[AgentDir(agentId)], f.name) == Opt.Some(f)
      && ParseEntry(agentId, f) in ListAgentSaves(fs, agentId)
  {
    var f := SaveFile(p, env.now, agentId);
    SaveFileTime(p, env.now, agentId);
    RotatedKeepsNew(DirFiles(w.fs, agentId), agentId, env.undeletable, f);
    CommitFs(w, plat, env, agentId, s, p);
    var fs := WriteSave(w, env, agentId, f).world.fs;
    ListedIfPresent(fs, agentId, f);
  }

  /** Saving on the device with no fault, into a directory whose files are all
      older than the clock, leaves a listed entry for the new file; restoring
      it with the settings' key gives the artifact back, unless the save was
      both compressed and encrypted (see `CompressedEncryptedRestoreFails`). */
  lemma SaveThenRestore(w: World, plat: Platform, env: Env, agentId: string,
                        userText: Opt.Option<string>, modelText: Opt.Option<string>,
                        meta: Artifact.Entries, ts: string)
    requires Lawful(plat.codecs)
    requires w.fs.native && env.fault.NoFault?
    requires DistinctFileNames(DirFiles(w.fs, agentId))
    requires forall i :: 0 <= i < |DirFiles(w.fs, agentId)| ==> ParseEntry(agentId, DirFiles(w.fs, agentId)[i]).createdAt < env.now
    requires var s := SettingsOf(w, plat);
      && !(s.compress && plat.rt.hasCompressionStream && s.encrypt && s.encryptionKey != "")
      && (s.compress && plat.rt.hasCompressionStream ==> plat.rt.hasDecompressionStream)
    ensures var out := SaveConversationAuto(w, plat, env, agentId, userText, modelText, meta, ts);
      var e := ParseEntry(agentId, SaveFile(PreparedOf(w, plat, env, agentId, userText, modelText, meta, ts), env.now, agentId));
      && e.fileName == out.fileName
      && e in ListAgentSaves(out.world.fs, agentId)
      && RestoreSave(out.world.fs, agentId, e, SettingsOf(w, plat).encryptionKey, plat)
         == Opt.Some(Artifact.BuildTxtContent(agentId, userText, modelText, meta, ts))
  {
    var s := SettingsOf(w, plat);
    var content := Artifact.BuildTxtContent(agentId, userText, modelText, meta, ts);
    var p := PrepareArtifact(s, content, plat, env.seed);
    assert p == PreparedOf(w, plat, env, agentId, userText, modelText, meta, ts);
    CommitListsFile(w, plat, env, agentId, s, p);
    FileRoundTrip(s, content, plat, env.seed, env.now, agentId);
    ParseAutoName(env.now, agentId, p.compressed, p.encrypted, p.data, FileEncoding(p.compressed, p.encrypted), DiskSize(p.data, FileEncoding(p.compressed, p.encrypted)));
  }

  // ---------------------------------------------------------------------
  // manual export

  /** A browser download: the file name offered and the text it holds. */
  datatype Download = Download(fileName: string, content: string)

  /** `exportManual`: the given text is offered as a download named
      `ExtremeSaving_<agentId>_<millis>.txt`, then one `MANUAL EXPORT` line is
      logged. The download happens even when the stored log is not an array,
      in which case `appendLog` throws and the store is not written (`None`). */
  function ExportManual(store: SaveStore.Store, codec: Json.Codec, stamp: string, now: nat,
                        agentId: string, content: string): (r: (Download, Opt.Option<SaveStore.Store>))
    ensures r.0.content == content
    ensures StartsWith(r.0.fileName, "ExtremeSaving_" + agentId + "_") && EndsWith(r.0.fileName, ".txt")
    ensures r.1.Some? <==> SaveStore.GetSaveLogs(store, codec).JArr?
  {
    var name := "ExtremeSaving_" + agentId + "_" + NatToDecimal(now) + ".txt";
    StartsWithAppend("ExtremeSaving_" + agentId + "_", NatToDecimal(now) + ".txt");
    EndsWithAppend("ExtremeSaving_" + agentId + "_" + NatToDecimal(now), ".txt", ".txt");
    (Download(name, content), SaveStore.AppendLog(store, codec, Stamped(stamp, "MANUAL EXPORT " + agentId)))
  }

  /** With a log that is an array, a manual export logs `MANUAL EXPORT` as
      the newest line and keeps the settings. */
  lemma ExportManualLogs(store: SaveStore.Store, codec: Json.Codec, stamp: string, now: nat,
                         agentId: string, content: string, items: seq<Json.Json>)
    requires Json.Lawful(codec)
    requires SaveStore.GetSaveLogs(store, codec) == Json.JArr(items)
    ensures var r := ExportManual(store, codec, stamp, now, agentId, content);
      && r.1.Some?
      && SaveStore.GetSettings(r.1.value, codec) == SaveStore.GetSettings(store, codec)
      && var logs := SaveStore.GetSaveLogs(r.1.value, codec);
         logs.JArr? && |logs.items| >= 1 && logs.items[0] == Json.JStr(Stamped(stamp, "MANUAL EXPORT " + agentId))
  {
    var line := Stamped(stamp, "MANUAL EXPORT " + agentId);
    SaveStore.AppendLogNewestFirst(store, codec, line, items);
    SaveStore.AppendLogKeepsSettings(store, codec, line);
  }
}

=== FILE: save_store.dfy ===
/** The save service's use of the browser's key-value storage: the settings
    record with its defaults, and the rolling diagnostic log of at most 200
    lines, newest first. */
module SaveStore {
  import Opt
  import opened Json

  /** `localStorage`: text values under text keys. */
  type Store = map<string, string>

  const SettingsKey: string := "extremeSavingSettings_v1"
  const LogKey: string := "extremeSavingLog_v1"

  /** The log keeps this many newest lines. */
  const MaxLogLines: nat := 200

  datatype SaveSettings = SaveSettings(
    compress: bool,
    encrypt: bool,
    cloudEnabled: bool,
    cloudEndpoint: string,
    encryptionKey: string)

  /** The record used when nothing usable is stored. */
  const Defaults: SaveSettings := SaveSettings(false, false, false, "", "")

  /** `localStorage.getItem(key)`, where a missing key and the empty text are
      both falsy for the callers. */
  function Raw(store: Store, key: string): (r: Opt.Option<string>)
    ensures r.Some? <==> key in store && store[key] != ""
  {
    if key in store && store[key] != "" then Opt.Some(store[key]) else Opt.None
  }

  /** The settings record, each field coerced as the service coerces it. */
  function SettingsOf(v: Json): (s: SaveSettings)
    requires v != JNull
    ensures s.compress == PropTruthy(Get(v, "compress"))
    ensures s.encrypt == PropTruthy(Get(v, "encrypt"))
    ensures s.cloudEnabled == PropTruthy(Get(v, "cloudEnabled"))
    ensures !PropTruthy(Get(v, "cloudEndpoint")) ==> s.cloudEndpoint == ""
    ensures !PropTruthy(Get(v, "encryptionKey")) ==> s.encryptionKey == ""
  {
    SaveSettings(
      PropTruthy(Get(v, "compress")),
      PropTruthy(Get(v, "encrypt")),
      PropTruthy(Get(v, "cloudEnabled")),
      TextOr(Get(v, "cloudEndpoint")),
      TextOr(Get(v, "encryptionKey")))
  }

  /** `getSettings`: the stored record, or the defaults when the key is missing
      or empty, the text does not parse, or it parses to `null` (reading a
      property of `null` throws and the handler returns the defaults). */
  function GetSettings(store: Store, codec: Codec): (s: SaveSettings)
    ensures Raw(store, SettingsKey).None? ==> s == Defaults
    ensures Raw(store, SettingsKey).Some? && codec.parse(store[SettingsKey]).None? ==> s == Defaults
    ensures Raw(store, SettingsKey).Some? && codec.parse(store[SettingsKey]) == Opt.Some(JNull) ==> s == Defaults
  {
    match Raw(store, SettingsKey)
    case None => Defaults
    case Some(raw) =>
      match codec.parse(raw)
      case None => Defaults
      case Some(v) => if v == JNull then Defaults else SettingsOf(v)
  }

  /** The object `JSON.stringify` is given for a settings record. */
  function SettingsJson(s: SaveSettings): Json {
    JObj([("compress", JBool(s.compress)),
          ("encrypt", JBool(s.encrypt)),
          ("cloudEnabled", JBool(s.cloudEnabled)),
          ("cloudEndpoint", JStr(s.cloudEndpoint)),
          ("encryptionKey", JStr(s.encryptionKey))])
  }

  /** `setSettings`: the record is stored under its key; nothing else changes. */
  function SetSettings(store: Store, codec: Codec, s: SaveSettings): (r: Store)
    ensures SettingsKey in r && r[SettingsKey] == codec.stringify(SettingsJson(s))
    ensures forall k :: k != SettingsKey ==> (k in r <==> k in store)
    ensures forall k :: k != SettingsKey && k in store ==> r[k] == store[k]
  {
    store[SettingsKey := codec.stringify(SettingsJson(s))]
  }

  lemma SettingsFieldAt(s: SaveSettings, i: nat, key: string)
    requires i < 5 && SettingsJson(s).fields[i].0 == key
    requires forall j :: i < j < 5 ==> SettingsJson(s).fields[j].0 != key
    ensures Get(SettingsJson(s), key) == Defined(SettingsJson(s).fields[i].1)
  {
    LookupAt(SettingsJson(s).fields, i, key);
  }

  /** Coercing the stored object of a record gives the record. */
  lemma SettingsOfJson(s: SaveSettings)
    ensures SettingsOf(SettingsJson(s)) == s
  {
    SettingsFieldAt(s, 0, "compress");
    SettingsFieldAt(s, 1, "encrypt");
    SettingsFieldAt(s, 2, "cloudEnabled");
    SettingsFieldAt(s, 3, "cloudEndpoint");
    SettingsFieldAt(s, 4, "encryptionKey");
  }

  /** Reading the settings back after storing them gives the same record. */
  lemma SettingsRoundTrip(store: Store, codec: Codec, s: SaveSettings)
    requires Lawful(codec)
    ensures GetSettings(SetSettings(store, codec, s), codec) == s
  {
    var j := SettingsJson(s);
    assert codec.stringify(j) != "" && codec.parse(codec.stringify(j)) == Opt.Some(j);
    var st := SetSettings(store, codec, s);
    assert Raw(st, SettingsKey) == Opt.Some(codec.stringify(j));
    SettingsOfJson(s);
  }

  /** Storing settings leaves the log alone. */
  lemma SetSettingsKeepsLog(store: Store, codec: Codec, s: SaveSettings)
    ensures Raw(SetSettings(store, codec, s), LogKey) == Raw(store, LogKey)
  {
  }

  /** `getSaveLogs`: whatever the log key parses to, or an empty array when it
      is missing, empty or does not parse. */
  function GetSaveLogs(store: Store, codec: Codec): (v: Json)
    ensures Raw(store, LogKey).None? ==> v == JArr([])
    ensures Raw(store, LogKey).Some? && codec.parse(store[LogKey]).None? ==> v == JArr([])
    ensures Raw(store, LogKey).Some? && codec.parse(store[LogKey]).Some? ==> v == codec.parse(store[LogKey]).value
  {
    match Raw(store, LogKey)
    case None => JArr([])
    case Some(raw) => codec.parse(raw).GetOr(JArr([]))
  }

  /** The first `n` elements of `s`, or all of them when there are fewer: `slice(0, n)`. */
  function Take<T>(s: seq<T>, n: nat): (r: seq<T>)
    ensures |r| <= n && |r| <= |s|
    ensures |r| == n || |r| == |s|
    ensures r == s[..|r|]
  {
    if |s| <= n then s else s[..n]
  }

  /** `appendLog`: the line goes in front of the stored log, which is cut to
      its newest 200 lines. When the stored log is not an array, `unshift`
      throws and nothing is written: `None`. */
  function AppendLog(store: Store, codec: Codec, line: string): (r: Opt.Option<Store>)
    ensures r.Some? <==> GetSaveLogs(store, codec).JArr?
    ensures r.Some? ==> forall k :: k != LogKey ==> (k in r.value <==> k in store)
    ensures r.Some? ==> forall k :: k != LogKey && k in store ==> r.value[k] == store[k]
  {
    match GetSaveLogs(store, codec)
    case JArr(items) =>
      Opt.Some(store[LogKey := codec.stringify(JArr(Take([JStr(line)] + items, MaxLogLines)))])
    case _ => Opt.None
  }

  /** After an append the log reads back with the new line first, then the
      previous lines in their order: all of them while the log is under 200
      lines, and the 199 newest once it is full. */
  lemma AppendLogNewestFirst(store: Store, codec: Codec, line: string, items: seq<Json>)
    requires Lawful(codec)
    requires GetSaveLogs(store, codec) == JArr(items)
    ensures AppendLog(store, codec, line).Some?
    ensures var logs := GetSaveLogs(AppendLog(store, codec, line).value, codec);
      && logs.JArr?
      && 1 <= |logs.items| <= MaxLogLines
      && logs.items[0] == JStr(line)
      && logs.items[1..] == items[..|logs.items| - 1]
      && |logs.items| == (if |items| < MaxLogLines then |items| + 1 else MaxLogLines)
  {
    var all := [JStr(line)] + items;
    var kept := Take(all, MaxLogLines);
    var j := JArr(kept);
    assert codec.stringify(j) != "" && codec.parse(codec.stringify(j)) == Opt.Some(j);
    assert kept[0] == all[0];
    assert kept[1..] == all[1..|kept|];
    assert all[1..|kept|] == items[..|kept| - 1];
  }

  /** Appending keeps the settings. */
  lemma AppendLogKeepsSettings(store: Store, codec: Codec, line: string)
    requires AppendLog(store, codec, line).Some?
    ensures GetSettings(AppendLog(store, codec, line).value, codec) == GetSettings(store, codec)
  {
    var r := AppendLog(store, codec, line).value;
    assert Raw(r, SettingsKey) == Raw(store, SettingsKey);
  }
}
